=== FILE: README.md ===
# npm-alt package metadata core, in Dafny

npm-alt is a SvelteKit front end for the npm registry. Its server code
turns registry data into what the pages show, and this project models
that decision logic:

- the key/value caches: the versioned, forceable Cloudflare KV cache, the
  older unversioned one, and the browser-side IndexedDB cache with a
  time-to-live;
- specifier resolution, which maps a tag or semver range to a version
  using the packument's `dist-tags` and version keys;
- the normalisation of a version's manifest into an internal package:
  the funding field, the dependency list, type detection from `types` and
  `exports`, and the DefinitelyTyped fallback;
- the changelog chain, tried in order: npm, then the repository, then
  GitHub releases;
- the version list: semver groups, newest-first order, and one lead
  version per group;
- the file tree built from unpkg's flat file listing, with directory
  sizes;
- the package score and its criteria table;
- registry search, the author listing, and the browser-side search.

Every call to a library or to the network is a parameter. This covers
`URL.parse`, `semver`, `npm-package-arg`, `hosted-git-info`, `mime-db`,
date parsing, the registry, unpkg and the GitHub API. A KV binding is an
`Option<map<string, Entry>>`, where `None` means no `CACHE` binding is
configured. Each cache operation returns the result, the store afterwards
and whether the value callback ran. Each loop over pages is a function with
a `fuel` bound.

Modules:

- `Wrappers`, `Strings`, `Json`, `SemVer` and `Sorting` are shared
  vocabulary.
- `ServerCommon` models src/lib/server/common.ts.
- `ServerPackage` models src/lib/server/package.ts.
- `Specifier` holds the resolution scan that both copies of
  `resolveSpecifier` share.
- `DataCommon` models src/lib/data/common.server.ts.
- `TypesServer`, `Changelog`, `PackageVersions`, `PackageFiles`,
  `PackageScore`, `Scores` and `Search` each model one file under
  src/lib/data.
- `NpmSearch` and `ClientCache` model src/lib/client.

Behaviour of the code worth knowing, which the model follows:

- A range resolves to the last qualifying key in the packument's key
  order, not to the greatest one. `Specifier.LastSeenIsNotGreatest`
  exhibits a backport published after a higher release. When the keys
  come in ascending order the two coincide
  (`Specifier.AscendingKeysGiveGreatest`).
- `listAuthorPackages` does not stop for an author with no packages, or
  with a multiple of 250 packages (see Findings).
- A failed GitHub releases request is not treated as "no changelog". The
  request has no `catch`, so the failure propagates out of `getChangelog`
  (`Changelog.Failure.ReleasesFailed`).
- src/lib/data/package-changelog.server.ts and
  src/lib/data/package-score.remote.ts come from a different revision
  than the src/lib/data/common.server.ts beside them. Both import
  `USER_AGENT` and `cached` from `./common.server`
  (package-changelog.server.ts:2, package-score.remote.ts:4). They call
  `cached` with one options object. The common.server.ts shown here
  exports no `USER_AGENT` (line 8 declares it without `export`). Its
  `cached` takes positional `(key, platform, ttl, fn)` (lines 19-24).
  As written, the two files do not fit that module: `cached` would read
  `platform.env` from `undefined` and throw. The model takes them at their
  word instead and gives them the options-object `cached` of
  src/lib/server/common.ts (see Left out).

## Model

| member | source | states |
|---|---|---|
| ServerCommon.Cached | src/lib/server/common.ts:46-81 | With no store bound, the value callback's outcome is returned and nothing is stored. Without `force`, a stored entry of the expected version is returned without running the callback. Otherwise the callback runs, and a success is written under the key with the caller's version and TTL. A failure leaves the store as it was. The log word is VERSION MISS after a mismatch, else FORCE when forced, else MISS. |
| ServerCommon.CachedTwiceComputesOnce | src/lib/server/common.ts:54-73 | Two consecutive unforced calls with the same key and version run the callback at most once. The second call returns the first call's value and leaves the store unchanged. |
| ServerCommon.VersionMismatchIsMiss | src/lib/server/common.ts:57-73 | A stored entry of another version gives the same result and the same callback run as an absent entry, and it is overwritten with the new version. |
| ServerCommon.ForceIgnoresStoredEntry | src/lib/server/common.ts:54-73 | A forced call never reads the store. Two stores that differ only under the key give identical calls. |
| ServerCommon.CheckUrl | src/lib/server/common.ts:87-98 | The result is null exactly when the text does not parse or its scheme is not http or https. Otherwise the result starts with `https://` and keeps the host, the port and the rest of the URL. The exception is an explicit port 443, which becomes the default under https and is dropped. |
| ServerCommon.WithProtocol | src/lib/server/common.ts:95 | Setting the scheme keeps the host and the rest of the URL. It clears the port exactly when the port is the new scheme's default, and keeps it otherwise. |
| ServerPackage.GetPackument | src/lib/server/package.ts:20-40 | A fetched packument is returned. A 404 becomes the 404 error "Package not found". Any other failure becomes the 500 error "Failed to fetch package, try again?". |
| ServerPackage.ParseFundingValue | src/lib/server/package.ts:46-64 | An empty string gives no entries. A string gives one url-only entry when `checkURL` accepts it. An object with a rejected or missing url gives none. An accepted object keeps its `type` only when it is a known funding type. Every url starts with `https:`. |
| ServerPackage.ParseFunding | src/lib/server/package.ts:46-47 | An absent funding field gives no entries, and every url produced starts with `https:`. |
| ServerPackage.ParseFundingList | src/lib/server/package.ts:54-56 | An array's entries all carry https urls and known or absent types. |
| ServerPackage.FundingListConcat | src/lib/server/package.ts:54-56 | Normalising an array gives the in-order concatenation of normalising its parts. |
| ServerPackage.FundingListFlattens | src/lib/server/package.ts:54-56 | An array nested in an array normalises as the inner array does. |
| ServerPackage.Collect | src/lib/server/package.ts:111-137 | Every collected dependency has the given type and its computed optional flag. Its name is not skipped, its registry flag is `isRegistryPackage(name, version)`, and its name/version pair comes from the record. |
| ServerPackage.CollectEntries | src/lib/server/package.ts:119-136 | The same facts for the entries of a record that is present. |
| ServerPackage.CollectIncludes | src/lib/server/package.ts:119-136 | Every entry that is not skipped is collected, with its type, version, registry flag and optional flag. |
| ServerPackage.DependencyList | src/lib/server/package.ts:139-162 | The sections come in the order production, development, optional, peer. Development entries are never optional. A peer entry is optional exactly when `peerDependenciesMeta[name].optional` says so. A non-optional production entry is not declared optional. Each registry flag is `isRegistryPackage` of the entry. Every entry comes from the record that its kind and optional flag name. Conversely, every pair of `devDependencies`, `optionalDependencies` and `peerDependencies` is listed with its kind and flags. So is every pair of `dependencies` whose name is not declared optional. |
| ServerPackage.CollectCountsOnce | src/lib/server/package.ts:119-136 | A production section built from a record with distinct keys mentions a name once when it is present and not skipped, and never otherwise. |
| ServerPackage.ProdEntries | src/lib/server/package.ts:141-147 | Production entries are non-optional, not declared optional, and come from `dependencies`. Every pair of `dependencies` whose name is not declared optional is included. |
| ServerPackage.DevEntries | src/lib/server/package.ts:149-150 | Development entries are never optional. Every pair of `devDependencies` is included. |
| ServerPackage.OptEntries | src/lib/server/package.ts:152-153 | Every pair of `optionalDependencies` is included as an optional production entry. |
| ServerPackage.PeerEntries | src/lib/server/package.ts:155-161 | Every pair of `peerDependencies` is included as a peer entry, optional as `peerDependenciesMeta` says. |
| ServerPackage.OptionalFolded | src/lib/server/package.ts:139-152 | A name declared both as a dependency and as an optional dependency appears exactly once among the production entries. It appears as optional, with the optional declaration's range. |
| ServerPackage.ResolveSpecifier | src/lib/server/package.ts:221-271 | An exact name/version pair, or a `version` specifier, passes through with no fetch and no cache access. A fresh cached resolution answers with no fetch. Without a fresh entry exactly one fetch is made. A fetched packument gives the resolution decided by `Specifier.Resolve`, handed back together with the packument, and the store gains that resolution under `specifier:<name>@<fetchSpec>` with the shape version and a TTL of 300. A failed fetch gives the mapped HTTP error (404 "Package not found", else 500) and leaves the store unchanged. |
| ServerPackage.BuildCore | src/lib/server/package.ts:96-178 | A version missing from the packument is a TypeError. Otherwise the core holds that manifest's dependency list, funding, type flag and license, and the parsed publication date. |
| ServerPackage.GetInternalPackage | src/lib/server/package.ts:85-186 | At most one fetch is made. A failed resolution is the call's error and leaves the package cache alone. A package carries the resolved name and version. For an exact request, a fresh `pkg:<name>@<version>` entry answers with no fetch. Otherwise the packument is fetched once. A failed fetch is the error. A version the packument lacks is a `TypeError`. Otherwise the result is `BuildCore` of the packument's manifest, stored under that key. |
| ServerPackage.SecondLookupIsCached | src/lib/server/package.ts:91-95 | After a successful lookup of an exact version, looking it up again makes no fetch and gives the same package. |
| ServerPackage.Summaries | src/lib/server/package.ts:304-311 | One summary per packument version, in order. Each carries its version text, its deprecation flag, its license, and the parsed time entry of that version. |
| ServerPackage.GetInternalPackageVersions | src/lib/server/package.ts:288-315 | A forced call on a fetched packument stores and returns its summaries under `versions:<name>`. An unforced call with a fresh entry returns it with no fetch. |
| ServerPackage.KeySpacesDisjoint | src/lib/server/package.ts:92-296 | The specifier, package and version caches share one namespace, but a key of one is never a key of another. |
| Specifier.DistTag | src/lib/server/package.ts:247 | A tag resolves to its `dist-tags` value when present and non-empty, else to null. |
| Specifier.Ceiling | src/lib/server/package.ts:254-256 | `latest` bounds the scan only when it is present and satisfies the range. |
| Specifier.ScanIsLastQualifying | src/lib/server/package.ts:258-263 | The key loop ends holding the last key that satisfies the range and is at or below the ceiling, or its starting value when no key qualifies. |
| Specifier.ResolveRange | src/lib/server/package.ts:253-263 | The result is null exactly when no key qualifies. Otherwise it is the last qualifying key. It satisfies the range, and it is at or below `latest` whenever `latest` satisfies the range. |
| Specifier.LastQualifyingExists | src/lib/server/package.ts:258-263 | When some key qualifies, a last qualifying key exists. |
| Specifier.Resolve | src/lib/server/package.ts:246-264 | A tag is looked up in `dist-tags`. `*` and `latest` resolve to the `latest` tag. Any other range is decided by `Specifier.ResolveRange`: a version key that satisfies the range and is at or below a satisfying `latest`. A `version` specifier never reaches this decision. |
| Specifier.AscendingKeysGiveGreatest | src/lib/server/package.ts:258-263 | When the keys come in ascending order, the last qualifying key is also the greatest one. |
| Specifier.UnconstrainedRangeExample | src/lib/server/package.ts:254-256 | With `latest` 2.0.0 outside `^1.0.0`, the scan is unbounded and picks 1.2.3. |
| Specifier.LastSeenIsNotGreatest | src/lib/server/package.ts:258-263 | With keys 1.0.0, 1.3.0, 1.2.5, the range `^1.0.0` resolves to 1.2.5, although 1.3.0 also satisfies it and is greater. |
| DataCommon.Cached | src/lib/data/common.server.ts:19-45 | With no store bound, `fn` runs and nothing is stored. A stored value is returned without running `fn`. On a miss, `fn` runs and a success is stored under the key with the TTL. |
| DataCommon.CachedTwiceComputesOnce | src/lib/data/common.server.ts:30-44 | After a successful miss, the next call with the same key is a hit: it returns the same value, leaves the store unchanged and does not run `fn`. |
| DataCommon.ParsedSpecifierKey | src/lib/data/common.server.ts:56 | Resolutions are kept under a `parsed-specifier:` key. |
| DataCommon.ResolveSpecifier | src/lib/data/common.server.ts:47-88 | A `version` specifier passes through with no cache access and no fetch. A stored resolution answers with no fetch. Without one exactly one fetch is made. A fetched packument gives the resolution decided by `Specifier.Resolve`, and the store gains it under `parsed-specifier:<specifier>` with a TTL of 60. A failed fetch gives the registry's status unmapped and leaves the store unchanged. |
| DataCommon.ResolutionsAgree | src/lib/data/common.server.ts:65-83 | Without a usable cached answer, both copies of `resolveSpecifier` fetch once and decide the same version for the same packument. The server copy stores it under `specifier:<name>@<fetchSpec>` for 300 seconds with shape version 1. This copy stores it under `parsed-specifier:<specifier>` for 60 seconds. |
| TypesServer.HasTypes | src/lib/data/types.server.ts:26-49 | A string counts when it ends with `ts`. An object is judged only by its `.` entry. A string `.` counts when it ends with `ts`. An object `.` counts when its `types` is a string ending with `ts`. An array `.` counts when some element counts by the same rule. Any other value does not count. |
| TypesServer.AnyHasTypes | src/lib/data/types.server.ts:41-43 | `some` over the array from a position holds exactly when some element from there on counts. |
| TypesServer.ExportsHasTypes | src/lib/data/types.server.ts:26-49 | An absent `exports` field has no types. A present one is judged by the rule above. |
| TypesServer.TypesIncluded | src/lib/data/types.server.ts:55-57 | Types are included exactly when `types` is truthy or `exports` has types, so a truthy `types` always suffices. |
| TypesServer.ArrayElementsJudgedByDot | src/lib/data/types.server.ts:41-43 | Inside an array under `.`, an object element counts through its own `.` entry and not through `types`. |
| TypesServer.OnlyRootExportCounts | src/lib/data/types.server.ts:30-39 | A subpath export and a top-level `types` key inside `exports` do not count. The text `./index.mts` counts, because only the `ts` suffix is checked. |
| TypesServer.DefinitelyTypedName | src/lib/data/types.server.ts:87-89 | The name starts with `@types/`. An unscoped name `n` maps to `@types/n`. |
| TypesServer.ScopedDefinitelyTypedName | src/lib/data/types.server.ts:87-88 | A scoped name `@scope/n` maps to `@types/scope__n`. |
| TypesServer.PackageTypeStatus | src/lib/data/types.server.ts:79-99 | Included types give built-in with no lookup. Otherwise the DefinitelyTyped name is looked up: a successful lookup gives definitely-typed with that name, and a failed one gives none. |
| Changelog.ChangelogKey | src/lib/data/package-changelog.server.ts:28 | Changelogs are kept under a `changelog:` key. |
| Changelog.KeepReleases | src/lib/data/package-changelog.server.ts:94-101 | The filter keeps exactly the releases that are neither drafts nor prereleases, in the order listed. Each renders as `# name`, a blank line, then the body. The count kept is the count of qualifying releases. A qualifying release sits at the position given by the qualifying releases before it. Nothing is kept exactly when no release qualifies. |
| Changelog.NoneKeptIffNoneQualify | src/lib/data/package-changelog.server.ts:94-104 | The kept count is zero exactly when every release is a draft or a prerelease. |
| Changelog.NewerFirstIsTotalPreorder | src/lib/data/package-changelog.server.ts:111 | The comparator on publication times is a total preorder, so the sort is well defined. |
| Changelog.NewestFirst | src/lib/data/package-changelog.server.ts:110-111 | The sorted releases are a permutation of the kept ones, ordered by publication time, newest first. Releases published at the same time keep their listing order, as the stable sort keeps them (`Sorting.Stable`). |
| Changelog.TiedIffSameTime | src/lib/data/package-changelog.server.ts:111 | Two releases are tied under the comparator exactly when they were published at the same time. |
| Sorting.SortIsStable | src/lib/data/package-changelog.server.ts:111 | The sort is stable: for every element, the elements tied with it appear in the output in the same order as in the input. |
| Changelog.Sections | src/lib/data/package-changelog.server.ts:112 | There is one markdown section per release, in order. |
| Changelog.ReleasesBatch | src/lib/data/package-changelog.server.ts:94-114 | No kept release gives null. A non-zero multiple of 100 kept releases never leaves the loop. Otherwise the result is a gh-releases changelog of the sections, newest first, joined by a blank line. |
| Changelog.GitChangelogPath | src/lib/data/package-changelog.server.ts:54-56 | Without a repository directory, or with an empty one, the path is `/CHANGELOG.md`. With a directory `d` it is `/d/CHANGELOG.md`. |
| Changelog.GetChangelog | src/lib/data/package-changelog.server.ts:31-115 | Every branch of the chain is stated. Sources are requested in the order npm file, package lookup, repository file, releases. A non-empty npm changelog wins with nothing else requested. A failed package lookup fails the call after two requests. An absent, empty or unrecognised repository URL gives null after two requests. A recognised repository is always asked for its CHANGELOG.md under the package directory. A non-empty file wins. An empty or missing file gives null off github.com after three requests. On github.com it leads to the releases request, whose failure fails the call and whose answer decides the result through `ReleasesBatch`. |
| Changelog.RepoOf | src/lib/data/package-changelog.server.ts:46-48 | A repository is recognised exactly when the URL is present, non-empty and accepted by `hosted-git-info`. |
| Changelog.GetChangelogCached | src/lib/data/package-changelog.server.ts:22-31 | A stored answer is returned without running the chain. Without one the chain always runs and its answer, a null changelog included, is returned; a success is stored under `changelog:<name>@<version>` for 600 seconds and a failure leaves the store unchanged. |
| PackageVersions.SameGroupIff | src/lib/data/package-versions.remote.ts:34-36 | Two versions share a group label exactly when they share a non-zero major, or both have major 0 and share the minor. |
| PackageVersions.Rows | src/lib/data/package-versions.remote.ts:26-42 | There is a row per packument version exactly when every version parses. Each row has its group, its deprecation state and its parsed publication time. |
| PackageVersions.NewerOrEqualIsTotalPreorder | src/lib/data/package-versions.remote.ts:43 | The descending semver comparator is a total preorder. |
| PackageVersions.AssignLeads | src/lib/data/package-versions.remote.ts:45-58 | The lead loop marks a row as lead exactly when it is the first non-deprecated row of its group. Every other field is left unchanged. |
| PackageVersions.GetPackageVersions | src/lib/data/package-versions.remote.ts:23-61 | The list exists exactly when every version parses, and it is then a `ListFor` the packument. It holds the packument's versions, each once, with their deprecation. It is ordered newest first, and each entry carries its group and its publication date. Each group has at most one lead. A lead is at least as new as every non-deprecated version of its group. Every non-deprecated version has its group's lead at or before it, so a group that is all deprecated has no lead. |
| PackageVersions.LeadsUnique | src/lib/data/package-versions.remote.ts:51-57 | No two leads share a group. |
| PackageVersions.LeadIsNewest | src/lib/data/package-versions.remote.ts:45-57 | Over a newest-first list, a lead is at least as new as every non-deprecated member of its group. |
| PackageVersions.LeadExists | src/lib/data/package-versions.remote.ts:51-57 | Every non-deprecated version has a lead of its group at or before it. |
| PackageVersions.SummariesPreserved | src/lib/data/package-versions.remote.ts:26-43 | The entries, as version/deprecation pairs, are a permutation of the packument's versions. |
| PackageVersions.EntriesParse | src/lib/data/package-versions.remote.ts:28-40 | Each entry carries its row's parsed version, its group, and the parsed time entry of its version. |
| PackageVersions.VersionsKey | src/lib/data/package-versions.remote.ts:20 | The key is `package-versions:` followed by the package name. |
| PackageVersions.GetPackageVersionsCached | src/lib/data/package-versions.remote.ts:16-63 | A stored list is returned with no request and the store unchanged. Otherwise a failed request fails the call with its status. For a fetched packument the call succeeds exactly when every version parses, and the list then satisfies `ListFor`: the versions each once, newest first, grouped, dated and with their leads, as `GetPackageVersions` states. A built list is stored under the key for 60 seconds. A failure leaves the store unchanged, and with no store bound nothing is kept. |
| PackageFiles.MimeToLang | src/lib/data/package-files.remote.ts:40-48 | `text/typescript` gives `typescript`. Any other type gives its first registered extension when that extension is non-empty. It gives `txt` when the type is unknown, has no extensions, or its first extension is the empty string. The result is never empty. |
| PackageFiles.Segments | src/lib/data/package-files.remote.ts:69 | After one leading `/` is stripped, the path splits into `/`-free segments that join back to it. |
| PackageFiles.Child | src/lib/data/package-files.remote.ts:83-89 | `get` finds the entry with the name, or reports that none exists. |
| PackageFiles.SetChild | src/lib/data/package-files.remote.ts:77-84 | `set` makes the name map to the node and leaves every other name alone. Existing entries keep their places, and a new name goes at the end. |
| PackageFiles.Insert | src/lib/data/package-files.remote.ts:72-92 | Inserting one file keeps the existing entries in first-insertion order. |
| PackageFiles.InsertThenFind | src/lib/data/package-files.remote.ts:74-81 | After insertion, the file sits at its path with its size, its language, and the id `/` joined with the full path. A later file with the same path overwrites the earlier one. |
| PackageFiles.InsertKeepsOthers | src/lib/data/package-files.remote.ts:72-92 | Every path that parts ways with the inserted one finds the same node as before. |
| PackageFiles.InsertFailsOnFile | src/lib/data/package-files.remote.ts:89-90 | Insertion fails exactly when a file sits on a proper prefix of the path: the source then reads `children` of a file node. |
| PackageFiles.InsertWellFormed | src/lib/data/package-files.remote.ts:74-90 | Insertion keeps every node's id equal to `/` joined with its path, and keeps names distinct within each directory. |
| PackageFiles.Build | src/lib/data/package-files.remote.ts:66-93 | The tree built from any listing is well formed in that sense. |
| PackageFiles.BuildPrefixes | src/lib/data/package-files.remote.ts:68-93 | One failed insertion aborts the listing: a tree is built only when one is built for every prefix of the listing. |
| PackageFiles.BuildFindsEveryFile | src/lib/data/package-files.remote.ts:66-93 | When no listed path lies on another, every listed file is in the tree at its path. |
| PackageFiles.ToArray | src/lib/data/package-files.remote.ts:95-115 | `mapToArray` keeps one node per entry, in order, with the same ids and kinds. |
| PackageFiles.ToTree | src/lib/data/package-files.remote.ts:98-113 | A node keeps its id and its kind. A file keeps its size and language. A directory keeps one child per entry, with the entries' ids. |
| PackageFiles.SizesAreFileTotals | src/lib/data/package-files.remote.ts:103-112 | Every directory's size is the sum of the sizes of the files beneath it. |
| PackageFiles.InsertAddsSize | src/lib/data/package-files.remote.ts:72-92 | Inserting a file at a new path adds exactly its size to the files' total. |
| PackageFiles.BuildTotal | src/lib/data/package-files.remote.ts:66-117 | When no listed path lies on another, the files' sizes in the tree add up to the sizes of the listing. |
| PackageFiles.FilesKey | src/lib/data/package-files.remote.ts:58 | The key is `package-files:<name>-<version>`, with a null version printed as `null`. |
| PackageFiles.GetPackageFiles | src/lib/data/package-files.remote.ts:50-120 | A stored tree is returned with no request and the store unchanged. Otherwise the unpkg listing is built into a tree. A failed request, or a path through a file, fails the call and leaves the store unchanged. A built tree is stored under `package-files:<name>-<version>` for 600 seconds. With no store bound nothing is kept. |
| PackageScore.FetchReadme | src/lib/data/package-score.remote.ts:11-18 | A network rejection gives null. Otherwise the score is 1 exactly when the response is ok, else 0. |
| PackageScore.Score | src/lib/data/package-score.remote.ts:35-41 | The readme score is the probe result. The changelog score is 2 exactly for an npm changelog and 0 exactly when there is none. The types score is 1 exactly when types are included. The license score is 1 exactly for a non-empty license. Provenance is always null. |
| PackageScore.WithinCriteria | src/lib/data/package-score.remote.ts:35-41 | Every score that is not null lies between 0 and the maximum the criteria table gives it. |
| PackageScore.FullMarks | src/lib/data/package-score.remote.ts:35-41 | A package with a readme, an npm changelog, built-in types and a license reaches every maximum of the table. |
| PackageScore.ScoreKey | src/lib/data/package-score.remote.ts:24 | Scores are kept under a `score:` key. |
| PackageScore.GetPackageScore | src/lib/data/package-score.remote.ts:20-44 | A stored record is returned as it is. Without one the record is always computed from the package, its changelog and the readme probe; a success is stored under `score:<name>@<version>` for 600 seconds. A failed package or changelog lookup fails the call and leaves the store unchanged. |
| Scores.Position | src/lib/data/scores.ts:10-44 | Each criterion identifier has a row of the table with that id. |
| Scores.MaxOf | src/lib/data/scores.ts:15-36 | Each criterion's maximum comes from its row and lies between 1 and 2. |
| Scores.TableIsKeyedById | src/lib/data/scores.ts:8-44 | The four ids are distinct. Every row is named by exactly one identifier. Provenance is not a criterion. |
| Scores.TotalMax | src/lib/data/scores.ts:10-44 | The maxima add up to 5: readme 1, changelog 2, types 1, license 1. |
| Search.SearchRegistry | src/lib/data/search.remote.ts:39-63 | An empty query makes no request and returns done, total 0 and no results. Any other query makes one request with the query, size 20 and `from`. The call fails exactly when that request fails, with its status. Otherwise the response's objects and total are forwarded, and done holds exactly when the page length is not a multiple of 20. |
| Search.DoneMeansShortPage | src/lib/data/search.remote.ts:60 | For an answered request, a full page and an empty page both report not done. A short non-empty page reports done. |
| Search.Packages | src/lib/data/search.remote.ts:79-81 | The packages of a page are taken in response order. |
| Search.AuthorLoop | src/lib/data/search.remote.ts:70-82 | Each pass requests the page starting at the number gathered so far and appends its packages. Any list returned has a length that is not a multiple of 250 and extends what was gathered before. A failed first request ends the listing with its failure, and a listing fails only with the failure of some request it made. |
| Search.ListAuthorPackages | src/lib/data/search.remote.ts:67-85 | Any list returned has a length that is not a multiple of 250. A failed first request fails the listing, and a listing fails only with the failure of one of its requests. |
| Search.NextPage | src/lib/data/search.remote.ts:71-81 | When the request for the next page is served with that page of the author's list, one pass extends a prefix of the list by it. |
| Search.FailurePartWayLosesList | src/lib/data/search.remote.ts:67-85 | When the pages before some page boundary are served and the request for that page fails, the listing ends with that failure: the packages gathered so far are lost. |
| Search.AuthorLoopOnRegistry | src/lib/data/search.remote.ts:70-82 | Against such a registry, a list whose length is not a multiple of 250 is returned whole, given one pass per page. When the length is a multiple of 250, the loop never returns, whatever the fuel. |
| Search.NoPackagesNeverEnds | src/lib/data/search.remote.ts:70-82 | An author with no packages makes the listing run out of any fuel. |
| Search.AuthorLoopFixed | src/lib/data/search.remote.ts:70-82 | The corrected loop stops after the first page that is not full. Any list it returns extends what was gathered before. |
| Search.AuthorLoopFixedOnRegistry | src/lib/data/search.remote.ts:70-82 | Against a serving registry, the corrected loop returns the whole list from any page boundary. |
| Search.FixedListsEverything | src/lib/data/search.remote.ts:67-85 | The corrected listing returns every package of every author, within one pass per page plus one. |
| NpmSearch.SearchNpm | src/lib/client/npm-search.ts:43-69 | An empty query makes no request and returns total 0, done and no objects. Any other query makes one request with the query, size and `from`. The call rejects exactly when the fetch rejects or the body has no `objects` array; the status is never checked. Otherwise the objects and total are forwarded, and done holds exactly when the page length is not a multiple of the size; a size of 0 always reports done. |
| NpmSearch.AgreesWithServerSearch | src/lib/client/npm-search.ts:64-68 | With a size of 20 and the same answers, the browser-side search fails exactly when the server-side one does, and otherwise reports the same done flag and objects. |
| NpmSearch.DoneOnShortPage | src/lib/client/npm-search.ts:65 | For an answered request, a short non-empty page reports done. |
| ClientCache.ExpiryFor | src/lib/client/cache.ts:22 | A null or zero `ttlMs` stores no expiry. Any other `ttlMs` expires that many milliseconds after storing. |
| ClientCache.Cache | src/lib/client/cache.ts:8-28 | The stored record answers, without running `fn`, exactly when it has no expiry or expires strictly later than the check time. Otherwise `fn` runs and its outcome is returned. Content it resolves with is stored with its expiry. A rejection propagates and nothing is stored. A returned content is the stored content, and no other key changes. |
| ClientCache.NoTtlNeverExpires | src/lib/client/cache.ts:15-22 | Without a truthy `ttlMs`, a stored value answers every later call. |
| ClientCache.ExpiresAfterTtl | src/lib/client/cache.ts:15-22 | With a positive `ttlMs`, a freshly stored record answers before the TTL has passed and not after. |
| ClientCache.NegativeTtlIsStale | src/lib/client/cache.ts:15-22 | A negative `ttlMs` is truthy and stores a record that is already expired. |
| ClientCache.RejectionIsRetried | src/lib/client/cache.ts:19-24 | After `fn` rejects, the next call with the same key runs `fn` again. |

## Left out

- I/O is left out. This covers fetches to the registry, unpkg and GitHub, their retries and back-off, KV and IndexedDB access, and logging. Their outcomes are inputs. A store's own expiry is not modelled: the TTL is recorded in the entry.
- Libraries are parameters. `semver` is a `major.minor.patch` order or an abstract `satisfies`/`lte`, without pre-releases. `npm-package-arg`, `URL.parse`, `hosted-git-info`, `mime-db`, `@std/path` and date parsing are abstract too. `devalue` is taken to round-trip.
- `platform.ctx.waitUntil` in `getInternalPackage`, which refreshes the version cache in the background, is concurrency. So is the `Promise.all` in the score; neither is modelled.
- The GitHub releases `do … while` loop is modelled as one batch. It always requests page 1, so a non-zero multiple of 100 kept releases never leaves the loop; that case is the `NoExit` failure.
- Changelog.GetChangelogCached and PackageScore.GetPackageScore assume the options-object `cached` of src/lib/server/common.ts. That object carries no `version`, so the missing version is `ServerCommon.Unversioned`: the same `undefined` is stored and expected, and a stored entry is always of the expected version. The model does not give these two files the throw that the positional `cached` of src/lib/data/common.server.ts would produce.
- ServerPackage.GetInternalPackage: for a tag or range it states the resolution failure and the resolved name and version. What it then reads or builds follows ServerCommon.Cached and ServerPackage.BuildCore, as in the exact case, but is not restated.
- ServerPackage.GetInternalPackageVersions: states only the forced and the fresh-hit cases; the unforced miss follows ServerCommon.Cached.
- Search.AuthorLoop: the loop is bounded by `fuel`. A `StillRunning` result means the fuel ran out while the loop was still going; the source would keep requesting.
- Search.SearchRegistry: the request input already has `from` as an integer, so `from || 0` is `from` itself. The query validator's length limits are left out.
- ClientCache.Cache: the wrapper's extra `args` only reach `fn`. The lookup uses only the key, so the model takes the computed content as an input and has no `args`.
- The `try`/`catch` in `exportsHasTypes` is folded into the cases of TypesServer.HasTypes: a `.` object whose `types` is missing or not a string does not count.
- `@std/path`'s `join` is modelled as skipping empty segments; it does not normalise `.`, `..` or doubled slashes inside a segment.
- Json.Lookup, ServerPackage.DeclaredOptional and Specifier.DistTag read a JSON object as a map of its own keys, with distinct keys. Inherited members that a JavaScript property read would also see, such as `constructor`, are not modelled. On a repeated key Json.Lookup takes the first field, where `JSON.parse` keeps the last; parsed objects are taken to have distinct keys.
- Floating-point NaN as a number value, and JavaScript's truthiness of numbers, are not modelled beyond what the branches need.
- Rendering, highlighting, markdown, the SvelteKit route wiring, and the type-only and configuration files are outside this core.

## Findings

| source | as written | input that shows it | evidently intended | confidence | as-written member | corrected member |
|---|---|---|---|---|---|---|
| src/lib/data/search.remote.ts:70-82 | The loop continues while the number of packages gathered is a multiple of 250. | An author with no packages: every page is empty, 0 is a multiple of 250, and page 0 is requested forever. An author with exactly 250 packages behaves the same way after the first page. | Stop after the first page that is not full, so every author's list is returned. | not executed | Search.NoPackagesNeverEnds | Search.FixedListsEverything |

=== FILE: changelog.dfy ===
/** The changelog fallback chain of src/lib/data/package-changelog.server.ts:
    the npm bundle's CHANGELOG.md, then the repository's CHANGELOG.md, then
    GitHub releases. Every network answer is an input. */
module Changelog {
  import opened Wrappers
  import opened Strings
  import Sorting
  import ServerCommon

  datatype Source = NpmSource | GitSource | GhReleases

  datatype PackageChangelog = PackageChangelog(source: Source, content: string)

  /** What `hosted-git-info` recognises in a repository URL. */
  datatype HostedRepo = HostedRepo(domain: string, user: string, project: string)

  /** A release as the GitHub API lists it; `publishedAt` is
      `Date.parse(published_at)`. */
  datatype RawRelease = RawRelease(name: string, body: string, draft: bool, prerelease: bool, publishedAt: int)

  /** A kept release rendered as a markdown section. */
  datatype Release = Release(md: string, publishedAt: int)

  /** The requests the chain makes, in the order it makes them. */
  datatype Request = NpmFile | PackageLookup | GitFile(url: string) | ReleasesList(user: string, project: string)

  /** How a call can fail to produce a changelog: `getInternalPackage` or the
      releases request threw (neither is caught), or the releases loop never
      exits (see `ReleasesBatch`). */
  datatype Failure = LookupFailed | ReleasesFailed | NoExit

  /** Everything the chain reads from outside. */
  datatype Upstream = Upstream(
    npmChangelog: Option<string>,
    repoURL: Result<Option<string>, ()>,
    repoDir: Option<string>,
    fromUrl: string -> Option<HostedRepo>,
    fileUrl: (HostedRepo, string) -> string,
    gitFetch: string -> Option<string>,
    releases: Result<seq<RawRelease>, ()>)

  datatype ChangelogCall = ChangelogCall(result: Result<Option<PackageChangelog>, Failure>, requests: seq<Request>)

  const ReleasesPerPage := 100

  /** `changelog:<name>@<version>`, kept for 600 seconds. */
  function ChangelogKey(name: string, version: string): (k: string)
    ensures StartsWith(k, "changelog:")
  {
    "changelog:" + name + "@" + version
  }

  const ChangelogTtl := 600

  /** A release the filter keeps: neither a draft nor a prerelease. */
  predicate Qualifies(x: RawRelease) {
    !x.draft && !x.prerelease
  }

  /** `# name\n\nbody`, dated by publication. */
  function Render(x: RawRelease): Release {
    Release("# " + x.name + "\n\n" + x.body, x.publishedAt)
  }

  /** How many releases of `raw` qualify. */
  function CountKept(raw: seq<RawRelease>): nat {
    if |raw| == 0 then 0 else (if Qualifies(raw[0]) then 1 else 0) + CountKept(raw[1..])
  }

  /** The releases kept from `raw`, given those kept from its tail. */
  function KeepStep(raw: seq<RawRelease>, rest: seq<Release>): seq<Release>
    requires |raw| > 0
  {
    if Qualifies(raw[0]) then [Render(raw[0])] + rest else rest
  }

  /** Each qualifying release of `raw` lands after the ones listed before it. */
  predicate KeptInPlace(raw: seq<RawRelease>, r: seq<Release>) {
    forall j :: 0 <= j < |raw| && Qualifies(raw[j]) ==>
      CountKept(raw[..j]) < |r| && r[CountKept(raw[..j])] == Render(raw[j])
  }

  /** `x` renders a qualifying release of `raw`. */
  predicate RendersOneOf(raw: seq<RawRelease>, x: Release) {
    exists j :: 0 <= j < |raw| && Qualifies(raw[j]) && x == Render(raw[j])
  }

  /** Each kept release renders a qualifying one of `raw`. */
  predicate KeptFrom(raw: seq<RawRelease>, r: seq<Release>) {
    forall i :: 0 <= i < |r| ==> RendersOneOf(raw, r[i])
  }

  lemma KeepStepInPlace(raw: seq<RawRelease>, rest: seq<Release>)
    requires |raw| > 0 && KeptInPlace(raw[1..], rest)
    ensures KeptInPlace(raw, KeepStep(raw, rest))
  {
    var r := KeepStep(raw, rest);
    forall j | 0 <= j < |raw| && Qualifies(raw[j])
      ensures CountKept(raw[..j]) < |r| && r[CountKept(raw[..j])] == Render(raw[j])
    {
      if j == 0 {
        assert raw[..0] == [];
      } else {
        assert raw[..j][1..] == raw[1..][..j - 1];
        assert raw[1..][j - 1] == raw[j];
      }
    }
  }

  lemma KeepStepFrom(raw: seq<RawRelease>, rest: seq<Release>)
    requires |raw| > 0 && KeptFrom(raw[1..], rest)
    ensures KeptFrom(raw, KeepStep(raw, rest))
  {
    var r := KeepStep(raw, rest);
    forall i | 0 <= i < |r|
      ensures RendersOneOf(raw, r[i])
    {
      if Qualifies(raw[0]) && i == 0 {
        assert Qualifies(raw[0]) && r[0] == Render(raw[0]);
      } else {
        var k := if Qualifies(raw[0]) then i - 1 else i;
        assert r[i] == rest[k];
        assert RendersOneOf(raw[1..], rest[k]);
        var j :| 0 <= j < |raw[1..]| && Qualifies(raw[1..][j]) && rest[k] == Render(raw[1..][j]);
        assert raw[1..][j] == raw[j + 1];
        assert Qualifies(raw[j + 1]) && r[i] == Render(raw[j + 1]);
      }
    }
  }

  /** Nothing is kept exactly when no release qualifies. */
  lemma {:induction false} NoneKeptIffNoneQualify(raw: seq<RawRelease>)
    ensures CountKept(raw) == 0 <==> forall j :: 0 <= j < |raw| ==> !Qualifies(raw[j])
  {
    if |raw| > 0 {
      NoneKeptIffNoneQualify(raw[1..]);
      assert forall j :: 0 < j < |raw| ==> raw[j] == raw[1..][j - 1];
    }
  }

  /** Drafts and prereleases are dropped; the rest are rendered, in the
      order the API listed them: a qualifying release is preceded by
      exactly the qualifying releases listed before it. */
  function KeepReleases(raw: seq<RawRelease>): (r: seq<Release>)
    ensures |r| == CountKept(raw) <= |raw|
    ensures KeptInPlace(raw, r)
    ensures KeptFrom(raw, r)
    ensures (forall j :: 0 <= j < |raw| ==> !Qualifies(raw[j])) <==> |r| == 0
  {
    if |raw| == 0 then []
    else
      var rest := KeepReleases(raw[1..]);
      KeepStepInPlace(raw, rest);
      KeepStepFrom(raw, rest);
      NoneKeptIffNoneQualify(raw);
      KeepStep(raw, rest)
  }

  /** The comparator `(a, b) => b.publishedAt - a.publishedAt`. */
  predicate NewerFirst(a: Release, b: Release) {
    a.publishedAt >= b.publishedAt
  }

  lemma NewerFirstIsTotalPreorder()
    ensures Sorting.TotalPreorder(NewerFirst)
  {
  }

  function Sections(rs: seq<Release>): (mds: seq<string>)
    ensures |mds| == |rs|
    ensures forall i :: 0 <= i < |rs| ==> mds[i] == rs[i].md
  {
    if |rs| == 0 then [] else [rs[0].md] + Sections(rs[1..])
  }

  /** The releases that make up the changelog, newest first; releases
      published at the same time keep their listing order, as the stable
      `Array.prototype.sort` keeps them. */
  function NewestFirst(kept: seq<Release>): (r: seq<Release>)
    ensures multiset(r) == multiset(kept)
    ensures forall i, j :: 0 <= i < j < |r| ==> r[i].publishedAt >= r[j].publishedAt
    ensures Sorting.Stable(kept, r, NewerFirst)
  {
    NewerFirstIsTotalPreorder();
    Sorting.SortIsStable(kept, NewerFirst);
    Sorting.Sort(kept, NewerFirst)
  }

  /** Tied releases under the comparator are exactly those published at the
      same time. */
  lemma TiedIffSameTime(a: Release, b: Release)
    ensures Sorting.Tied(a, b, NewerFirst) <==> a.publishedAt == b.publishedAt
  {
  }

  /** One pass of the releases `do ... while` loop over the only page it
      requests. When the kept count is a non-zero multiple of 100 the loop
      requests page 1 again and keeps growing by the same amount, so it
      never exits. */
  function ReleasesBatch(raw: seq<RawRelease>): (r: Result<Option<PackageChangelog>, Failure>)
    ensures |KeepReleases(raw)| == 0 ==> r == Ok(None)
    ensures |KeepReleases(raw)| != 0 && |KeepReleases(raw)| % ReleasesPerPage == 0 ==> r == Err(NoExit)
    ensures |KeepReleases(raw)| % ReleasesPerPage != 0 ==>
              r == Ok(Some(PackageChangelog(GhReleases, Join(Sections(NewestFirst(KeepReleases(raw))), "\n\n"))))
  {
    var kept := KeepReleases(raw);
    if |kept| == 0 then Ok(None)
    else if |kept| % ReleasesPerPage == 0 then Err(NoExit)
    else Ok(Some(PackageChangelog(GhReleases, Join(Sections(NewestFirst(kept)), "\n\n"))))
  }

  /** The path of the repository changelog: the package's directory, if
      any, joined with CHANGELOG.md under the root. */
  function GitChangelogPath(repoDir: Option<string>): (p: string)
    ensures repoDir.None? || repoDir == Some("") ==> p == "/CHANGELOG.md"
    ensures repoDir.Some? && repoDir.value != "" ==> p == "/" + repoDir.value + "/CHANGELOG.md"
  {
    JoinTwoPaths(repoDir.GetOr(""), "CHANGELOG.md");
    assert "/" + "CHANGELOG.md" == "/CHANGELOG.md";
    JoinPaths([repoDir.GetOr(""), "CHANGELOG.md"])
  }

  /** The order in which sources are consulted. */
  predicate InChainOrder(requests: seq<Request>) {
    && (|requests| >= 1 ==> requests[0] == NpmFile)
    && (|requests| >= 2 ==> requests[1] == PackageLookup)
    && (|requests| >= 3 ==> requests[2].GitFile?)
    && (|requests| >= 4 ==> requests[3].ReleasesList?)
    && |requests| <= 4
  }

  /** A non-empty changelog file in the npm bundle. */
  predicate NpmFound(up: Upstream) {
    up.npmChangelog.Some? && up.npmChangelog.value != ""
  }

  /** The repository `hosted-git-info` recognises in the manifest's
      repository URL; an absent or empty URL is not looked at. */
  function RepoOf(repoURL: Option<string>, fromUrl: string -> Option<HostedRepo>): (repo: Option<HostedRepo>)
    ensures repo.Some? <==> repoURL.Some? && repoURL.value != "" && fromUrl(repoURL.value).Some?
    ensures repo.Some? ==> repo == fromUrl(repoURL.value)
  {
    if repoURL.Some? && repoURL.value != "" then fromUrl(repoURL.value) else None
  }

  /** The cache callback of `getChangelog`. */
  function GetChangelog(up: Upstream): (c: ChangelogCall)
    ensures 1 <= |c.requests| && InChainOrder(c.requests)
    // a non-empty npm changelog wins and nothing else is requested
    ensures up.npmChangelog.Some? && up.npmChangelog.value != "" ==>
              c == ChangelogCall(Ok(Some(PackageChangelog(NpmSource, up.npmChangelog.value))), [NpmFile])
    // without a recognised repository there is no changelog
    ensures (up.npmChangelog.None? || up.npmChangelog.value == "") && up.repoURL.Ok? &&
            (up.repoURL.value.None? || up.repoURL.value.value == "" || up.fromUrl(up.repoURL.value.value).None?) ==>
              c == ChangelogCall(Ok(None), [NpmFile, PackageLookup])
    // the repository changelog is fetched from the package directory
    ensures |c.requests| >= 3 ==>
              && up.repoURL.Ok? && up.repoURL.value.Some?
              && up.fromUrl(up.repoURL.value.value).Some?
              && c.requests[2] == GitFile(up.fileUrl(up.fromUrl(up.repoURL.value.value).value, GitChangelogPath(up.repoDir)))
    // a non-empty repository changelog comes before any releases request
    ensures |c.requests| >= 3 && up.gitFetch(c.requests[2].url).Some? && up.gitFetch(c.requests[2].url).value != "" ==>
              c.result == Ok(Some(PackageChangelog(GitSource, up.gitFetch(c.requests[2].url).value))) && |c.requests| == 3
    // releases are only consulted on github.com
    ensures |c.requests| == 4 ==>
              var repo := up.fromUrl(up.repoURL.value.value).value;
              && repo.domain == "github.com"
              && c.requests[3] == ReleasesList(repo.user, repo.project)
              && (up.releases.Ok? ==> c.result == ReleasesBatch(up.releases.value))
              && (up.releases.Err? ==> c.result == Err(ReleasesFailed))
    ensures |c.requests| == 3 && c.result.Ok? && c.result.value.Some? ==> c.result.value.value.source == GitSource
    // branch by branch: a failed package lookup propagates
    ensures !NpmFound(up) && up.repoURL.Err? ==> c == ChangelogCall(Err(LookupFailed), [NpmFile, PackageLookup])
    ensures !NpmFound(up) && up.repoURL.Ok? && RepoOf(up.repoURL.value, up.fromUrl).None? ==>
              c == ChangelogCall(Ok(None), [NpmFile, PackageLookup])
    // a recognised repository is always asked for its changelog file
    ensures !NpmFound(up) && up.repoURL.Ok? && RepoOf(up.repoURL.value, up.fromUrl).Some? ==>
              var repo := RepoOf(up.repoURL.value, up.fromUrl).value;
              var url := up.fileUrl(repo, GitChangelogPath(up.repoDir));
              var git := up.gitFetch(url);
              && |c.requests| >= 3
              && c.requests[..3] == [NpmFile, PackageLookup, GitFile(url)]
              && (git.Some? && git.value != "" ==>
                    c == ChangelogCall(Ok(Some(PackageChangelog(GitSource, git.value))), [NpmFile, PackageLookup, GitFile(url)]))
              // an empty repository changelog ends the chain off github.com
              && ((git.None? || git.value == "") && repo.domain != "github.com" ==>
                    c == ChangelogCall(Ok(None), [NpmFile, PackageLookup, GitFile(url)]))
              // and falls through to the releases on github.com
              && ((git.None? || git.value == "") && repo.domain == "github.com" ==>
                    && c.requests == [NpmFile, PackageLookup, GitFile(url), ReleasesList(repo.user, repo.project)]
                    && c.result == (if up.releases.Ok? then ReleasesBatch(up.releases.value) else Err(ReleasesFailed)))
  {
    if NpmFound(up) then
      ChangelogCall(Ok(Some(PackageChangelog(NpmSource, up.npmChangelog.value))), [NpmFile])
    else
      match up.repoURL
      case Err(_) => ChangelogCall(Err(LookupFailed), [NpmFile, PackageLookup])
      case Ok(repoURL) =>
        var repo := RepoOf(repoURL, up.fromUrl);
        if repo.None? then ChangelogCall(Ok(None), [NpmFile, PackageLookup])
        else
          var url := up.fileUrl(repo.value, GitChangelogPath(up.repoDir));
          var git := up.gitFetch(url);
          if git.Some? && git.value != "" then
            ChangelogCall(Ok(Some(PackageChangelog(GitSource, git.value))), [NpmFile, PackageLookup, GitFile(url)])
          else if repo.value.domain != "github.com" then
            ChangelogCall(Ok(None), [NpmFile, PackageLookup, GitFile(url)])
          else
            var requests := [NpmFile, PackageLookup, GitFile(url), ReleasesList(repo.value.user, repo.value.project)];
            match up.releases
            case Err(_) => ChangelogCall(Err(ReleasesFailed), requests)
            case Ok(raw) => ChangelogCall(ReleasesBatch(raw), requests)
  }

  /** `getChangelog(name, version, platform)`: the chain's answer, absent
      changelogs included, kept ten minutes under `changelog:<name>@<version>`
      with no shape version. */
  function GetChangelogCached(store: Option<ServerCommon.Store<Option<PackageChangelog>>>, name: string, version: string,
                              up: Upstream): (c: ServerCommon.CacheCall<Option<PackageChangelog>, Failure>)
    ensures store.Some? && ServerCommon.Fresh(store.value, ChangelogKey(name, version), ServerCommon.Unversioned) ==>
              c.result == Ok(store.value[ChangelogKey(name, version)].value) && !c.computed
    ensures c.computed ==> c.result == GetChangelog(up).result
    // without a fresh entry the chain runs and a failure leaves the store alone
    ensures !(store.Some? && ServerCommon.Fresh(store.value, ChangelogKey(name, version), ServerCommon.Unversioned)) ==>
              && c.computed
              && c.result == GetChangelog(up).result
              && (c.result.Err? ==> c.store == store)
    ensures store.Some? && c.computed && c.result.Ok? ==>
              c.store == Some(store.value[ChangelogKey(name, version) :=
                                ServerCommon.Entry(ServerCommon.Unversioned, c.result.value, ChangelogTtl)])
  {
    ServerCommon.Cached(store, ChangelogKey(name, version), ChangelogTtl, ServerCommon.Unversioned, false,
                        GetChangelog(up).result)
  }
}

=== FILE: client_cache.dfy ===
/** The browser-side TTL cache of src/lib/client/cache.ts over IndexedDB:
    a record per key holding the content and an optional expiry instant in
    milliseconds. */
module ClientCache {
  import opened Wrappers

  datatype Record = Record(expiresAt: Option<int>, content: string)

  type Db = map<string, Record>

  /** One call of the wrapped function: what it resolves or rejects with,
      the database afterwards, and whether `fn` ran. */
  datatype CacheCall<E> = CacheCall(value: Result<string, E>, db: Db, computed: bool)

  /** A record answers when it has no expiry or expires strictly later than
      `now`. */
  predicate Live(r: Record, now: int) {
    r.expiresAt.None? || r.expiresAt.value > now
  }

  /** `expiresAt` of a record written at `now`: `ttlMs` is truthy when
      present and non-zero. */
  function ExpiryFor(ttlMs: Option<int>, now: int): (e: Option<int>)
    ensures e.None? <==> ttlMs.None? || ttlMs.value == 0
    ensures e.Some? ==> e.value - now == ttlMs.value
  {
    if ttlMs.Some? && ttlMs.value != 0 then Some(now + ttlMs.value) else None
  }

  /** `cache(ttlMs, fn)(key, ...args)`. `computed` is what `fn(...args)`
      resolves to, or the reason it rejects with; `checkedAt` and `storedAt`
      are the two `Date.now()` readings, before and after `fn` runs. */
  function Cache<E>(db: Db, ttlMs: Option<int>, key: string, computed: Result<string, E>, checkedAt: int, storedAt: int)
    : (c: CacheCall<E>)
    ensures key in db && Live(db[key], checkedAt) <==> !c.computed
    ensures !c.computed ==> c.value == Ok(db[key].content) && c.db == db
    ensures c.computed ==> c.value == computed
    ensures c.computed && computed.Ok? ==> c.db == db[key := Record(ExpiryFor(ttlMs, storedAt), computed.value)]
    // a rejection of `fn` propagates before `set` runs
    ensures computed.Err? && c.computed ==> c.db == db
    ensures c.value.Ok? ==> key in c.db && c.db[key].content == c.value.value
    ensures forall k :: k != key ==> (k in c.db <==> k in db) && (k in db ==> c.db[k] == db[k])
  {
    if key in db && Live(db[key], checkedAt) then CacheCall(Ok(db[key].content), db, false)
    else
      match computed
      case Err(e) => CacheCall(Err(e), db, true)
      case Ok(v) => CacheCall(Ok(v), db[key := Record(ExpiryFor(ttlMs, storedAt), v)], true)
  }

  /** Without a truthy `ttlMs`, what `fn` produced is stored for good: a later call
      with the same key returns it without running `fn`, whatever the
      arguments and the clock. */
  lemma NoTtlNeverExpires<E>(db: Db, ttlMs: Option<int>, key: string, computed: string, t1: int, t2: int,
                             later: Result<string, E>, t3: int, t4: int)
    requires ttlMs.None? || ttlMs.value == 0
    ensures var c1 := Cache<E>(db, ttlMs, key, Ok(computed), t1, t2);
            var c2 := Cache(c1.db, ttlMs, key, later, t3, t4);
            c1.computed ==> !c2.computed && c2.value == Ok(computed) && c2.db == c1.db
  {
  }

  /** With a positive `ttlMs`, a freshly stored record answers until `ttlMs`
      milliseconds after it was written, and not from then on. */
  lemma ExpiresAfterTtl<E>(db: Db, ttl: int, key: string, computed: string, t1: int, t2: int,
                           later: Result<string, E>, t3: int, t4: int)
    requires ttl > 0
    requires key !in db
    ensures var c1 := Cache<E>(db, Some(ttl), key, Ok(computed), t1, t2);
            var c2 := Cache(c1.db, Some(ttl), key, later, t3, t4);
            (!c2.computed <==> t3 < t2 + ttl) && (!c2.computed ==> c2.value == Ok(computed))
  {
  }

  /** A negative `ttlMs` is truthy and stores a record that is already
      stale: the next call at or after the write runs `fn` again. */
  lemma NegativeTtlIsStale<E>(db: Db, ttl: int, key: string, computed: string, t1: int, t2: int,
                              later: Result<string, E>, t3: int, t4: int)
    requires ttl < 0 && t3 >= t2
    ensures var c1 := Cache<E>(db, Some(ttl), key, Ok(computed), t1, t2);
            var c2 := Cache(c1.db, Some(ttl), key, later, t3, t4);
            c1.computed ==> c2.computed && c2.value == later
  {
  }

  /** A rejection is not cached: after `fn` rejects, the next call with the
      same key, checked no earlier, runs `fn` again, whatever the TTL. */
  lemma RejectionIsRetried<E>(db: Db, ttlMs: Option<int>, key: string, reason: E, t1: int, t2: int,
                              later: Result<string, E>, t3: int, t4: int)
    requires t1 <= t3
    ensures var c1 := Cache(db, ttlMs, key, Err(reason), t1, t2);
            var c2 := Cache(c1.db, ttlMs, key, later, t3, t4);
            c1.computed ==> c1.value == Err(reason) && c2.computed && c2.value == later
  {
  }
}

=== FILE: data_common.dfy ===
/** The older, unversioned key/value cache and the duplicate specifier
    resolution of src/lib/data/common.server.ts. */
module DataCommon {
  import opened Wrappers
  import opened Json
  import opened Strings
  import Specifier
  import ServerPackage
  import Npm
  import ServerCommon

  /** A stored value with the time-to-live handed to the store. */
  datatype Entry<T> = Entry(value: T, ttl: int)

  type Store<T> = map<string, Entry<T>>

  datatype CacheCall<T, E> = CacheCall(result: Result<T, E>, store: Option<Store<T>>, computed: bool)

  /** `cached(key, platform, ttl, fn)`: `compute` is what `fn()` would
      return or throw. Any stored entry is a hit: the stored text is a
      `devalue` serialisation, never empty, hence truthy. */
  function Cached<T, E>(store: Option<Store<T>>, key: string, ttl: int, compute: Result<T, E>): (c: CacheCall<T, E>)
    ensures store.None? ==> c == CacheCall(compute, None, true)
    ensures store.Some? && key in store.value ==> c == CacheCall(Ok(store.value[key].value), store, false)
    ensures store.Some? && key !in store.value ==>
              && c.computed
              && c.result == compute
              && (compute.Ok? ==> c.store == Some(store.value[key := Entry(compute.value, ttl)]))
              && (compute.Err? ==> c.store == store)
  {
    match store
    case None => CacheCall(compute, None, true)
    case Some(s) =>
      if key in s then CacheCall(Ok(s[key].value), store, false)
      else
        match compute
        case Err(e) => CacheCall(Err(e), store, true)
        case Ok(v) => CacheCall(Ok(v), Some(s[key := Entry(v, ttl)]), true)
  }

  /** A successful miss makes the next call with the same key a hit that
      returns the same value without running `fn`. */
  lemma CachedTwiceComputesOnce<T, E>(store: Store<T>, key: string, ttl: int, first: Result<T, E>, second: Result<T, E>)
    requires Cached(Some(store), key, ttl, first).result.Ok?
    ensures var c1 := Cached(Some(store), key, ttl, first);
            var c2 := Cached(c1.store, key, ttl, second);
            !c2.computed && c2.result == c1.result && c2.store == c1.store
  {
  }

  function ParsedSpecifierKey(specText: string): (k: string)
    ensures StartsWith(k, "parsed-specifier:")
  {
    "parsed-specifier:" + specText
  }

  const ParsedSpecifierTtl := 60

  datatype ResolveCall = ResolveCall(
    result: Result<ServerPackage.Resolution, Option<int>>,
    store: Option<Store<ServerPackage.Resolution>>,
    fetches: nat)

  /** `resolveSpecifier(specifier, platform)`. `specText` is how the
      specifier prints inside the key's template literal. A failed registry
      request propagates its HTTP status unmapped. */
  function ResolveSpecifier(store: Option<Store<ServerPackage.Resolution>>, spec: Specifier.Spec, specText: string,
                            registry: ServerPackage.FetchOutcome, libs: ServerPackage.Libs): (c: ResolveCall)
    ensures spec.kind == Specifier.VersionKind ==>
              c == ResolveCall(Ok(ServerPackage.Resolution(spec.name, Some(spec.fetchSpec))), store, 0)
    ensures c.fetches <= 1
    ensures spec.kind != Specifier.VersionKind && store.Some? && ParsedSpecifierKey(specText) in store.value ==>
              c == ResolveCall(Ok(store.value[ParsedSpecifierKey(specText)].value), store, 0)
    // without a cached answer the packument is fetched once: a fetched
    // packument is resolved and the decision stored, a failed fetch passes
    // its status on and nothing is stored
    ensures spec.kind != Specifier.VersionKind && !(store.Some? && ParsedSpecifierKey(specText) in store.value) ==>
              && c.fetches == 1
              && (registry.Fetched? ==>
                    var p := registry.packument;
                    var v := Specifier.Resolve(spec, p.distTags, Keys(p.versions), libs.satisfies, libs.lte);
                    && c.result == Ok(ServerPackage.Resolution(spec.name, v))
                    && (store.Some? ==> c.store == Some(store.value[ParsedSpecifierKey(specText) :=
                                                          Entry(ServerPackage.Resolution(spec.name, v), ParsedSpecifierTtl)])))
              && (registry.FetchFailed? ==> c.result == Err(registry.status) && c.store == store)
  {
    if spec.kind == Specifier.VersionKind then
      ResolveCall(Ok(ServerPackage.Resolution(spec.name, Some(spec.fetchSpec))), store, 0)
    else
      var compute := match registry
                     case FetchFailed(status) => Err(status)
                     case Fetched(p) =>
                       Ok(ServerPackage.Resolution(spec.name, Specifier.Resolve(spec, p.distTags, Keys(p.versions), libs.satisfies, libs.lte)));
      var call := Cached(store, ParsedSpecifierKey(specText), ParsedSpecifierTtl, compute);
      ResolveCall(call.result, call.store, if call.computed then 1 else 0)
  }

  /** Both copies of `resolveSpecifier` decide a freshly fetched packument
      the same way. They differ in what they keep: the server copy stores
      the decision under `specifier:<name>@<fetchSpec>` for 300 seconds with
      a shape version, this copy under `parsed-specifier:<specifier>` for 60
      seconds without one. */
  lemma ResolutionsAgree(serverStore: Option<ServerCommon.Store<ServerPackage.Resolution>>,
                         dataStore: Option<Store<ServerPackage.Resolution>>,
                         spec: Specifier.Spec, specText: string, p: Npm.Packument, libs: ServerPackage.Libs)
    requires spec.kind != Specifier.VersionKind
    requires serverStore.None? ||
             !ServerCommon.Fresh(serverStore.value, ServerPackage.SpecifierKey(spec.name, spec.fetchSpec), ServerPackage.SpecifierShape)
    requires dataStore.None? || ParsedSpecifierKey(specText) !in dataStore.value
    ensures var s := ServerPackage.ResolveSpecifier(serverStore, ServerPackage.Parsed(spec), ServerPackage.Fetched(p), libs);
            var d := ResolveSpecifier(dataStore, spec, specText, ServerPackage.Fetched(p), libs);
            && s.fetches == 1 && d.fetches == 1
            && s.result.Ok? && d.result.Ok? && s.result.value.version == d.result.value.version
            && (serverStore.Some? ==>
                  s.store.Some? &&
                  s.store.value[ServerPackage.SpecifierKey(spec.name, spec.fetchSpec)] ==
                    ServerCommon.Entry(ServerPackage.SpecifierShape, d.result.value, ServerPackage.SpecifierTtl))
            && (dataStore.Some? ==>
                  d.store.Some? && d.store.value[ParsedSpecifierKey(specText)] == Entry(d.result.value, ParsedSpecifierTtl))
  {
  }
}

=== FILE: files.dfy ===
/** The file tree of a published package as
    src/lib/data/package-files.remote.ts builds it from unpkg's `?meta`
    listing: paths are split on `/` into nested directories kept in
    first-insertion order, each node carries its joined path as `id`, and
    each directory's size is the sum of its children's sizes. */
module PackageFiles {
  import opened Wrappers
  import opened Strings
  import DataCommon
  import ServerPackage

  /** One entry of the `files` array of unpkg's `?meta` response. */
  datatype MetaFile = MetaFile(path: string, size: int, mime: string)

  /** The raw tree: a directory's children are a `Map`, kept here as an
      ordered list of entries. */
  datatype Node =
    | File(id: string, size: int, lang: string)
    | Dir(id: string, children: seq<Entry>)

  datatype Entry = Entry(name: string, node: Node)

  type Children = seq<Entry>

  /** The returned tree, with directory sizes filled in. */
  datatype TreeNode =
    | FileNode(id: string, size: int, lang: string)
    | DirNode(id: string, size: int, children: seq<TreeNode>)

  /** The `mime-db` table: for each media type, its `extensions` field when
      present. */
  type MimeDb = map<string, Option<seq<string>>>

  /** `mimeToLang(mime)`: TypeScript is special-cased, otherwise the first
      registered extension, otherwise `txt`. */
  function MimeToLang(mime: string, db: MimeDb): (lang: string)
    ensures lang != ""
    ensures mime == "text/typescript" ==> lang == "typescript"
    ensures (mime != "text/typescript" && mime in db && db[mime].Some? && |db[mime].value| > 0 &&
             db[mime].value[0] != "") ==> lang == db[mime].value[0]
    ensures mime != "text/typescript" && (mime !in db || db[mime].None? || |db[mime].value| == 0) ==> lang == "txt"
    // an empty first extension is falsy and also falls back
    ensures (mime != "text/typescript" && mime in db && db[mime].Some? && |db[mime].value| > 0 &&
             db[mime].value[0] == "") ==> lang == "txt"
  {
    if mime == "text/typescript" then "typescript"
    else if mime in db && db[mime].Some? && |db[mime].value| > 0 && db[mime].value[0] != "" then db[mime].value[0]
    else "txt"
  }

  /** `path.replace(/^\//, '').split('/')`. */
  function Segments(path: string): (segs: seq<string>)
    ensures |segs| >= 1
    ensures forall i :: 0 <= i < |segs| ==> '/' !in segs[i]
    ensures Join(segs, "/") == (if |path| > 0 && path[0] == '/' then path[1..] else path)
  {
    Split(if |path| > 0 && path[0] == '/' then path[1..] else path, '/')
  }

  /** The position of the entry named `key`, or `|c|` if there is none. */
  function IndexOf(c: Children, key: string): (i: nat)
    ensures i <= |c|
    ensures i < |c| ==> c[i].name == key
    ensures forall j :: 0 <= j < i ==> c[j].name != key
  {
    if |c| == 0 then 0
    else if c[0].name == key then 0
    else 1 + IndexOf(c[1..], key)
  }

  /** `map.get(key)`. */
  function Child(c: Children, key: string): (r: Option<Node>)
    ensures r.None? <==> forall j :: 0 <= j < |c| ==> c[j].name != key
    ensures r.Some? ==> Entry(key, r.value) in c
  {
    var i := IndexOf(c, key);
    if i == |c| then None else Some(c[i].node)
  }

  /** A `Map` never holds a key twice. */
  predicate DistinctNames(c: Children) {
    forall i, j :: 0 <= i < j < |c| ==> c[i].name != c[j].name
  }

  /** The entries of `c` are the first entries of `r`, by name: `Map`
      iteration follows first insertion. */
  predicate KeepsOrder(c: Children, r: Children) {
    |c| <= |r| && forall i :: 0 <= i < |c| ==> r[i].name == c[i].name
  }

  /** `map.set(key, node)`: replaces the value in place when the key is
      present, appends the entry otherwise. */
  function SetChild(c: Children, key: string, n: Node): (r: Children)
    ensures Child(r, key) == Some(n)
    ensures forall k :: k != key ==> Child(r, k) == Child(c, k)
    ensures KeepsOrder(c, r)
    ensures DistinctNames(c) ==> DistinctNames(r)
  {
    var i := IndexOf(c, key);
    if i < |c| then
      var r := c[i := Entry(key, n)];
      IndexOfIs(r, key, i);
      SetKeepsOthers(c, i, key, n);
      r
    else
      var r := c + [Entry(key, n)];
      IndexOfIs(r, key, |c|);
      AppendKeepsOthers(c, key, n);
      r
  }

  /** The first position holding `key` is `i`. */
  lemma IndexOfIs(c: Children, key: string, i: int)
    requires 0 <= i <= |c| && (i < |c| ==> c[i].name == key)
    requires forall j :: 0 <= j < i ==> c[j].name != key
    ensures i < |c| ==> IndexOf(c, key) == i
  {
  }

  lemma {:induction false} SetKeepsOthers(c: Children, i: int, key: string, n: Node)
    requires 0 <= i < |c| && c[i].name == key
    ensures forall k :: k != key ==> IndexOf(c[i := Entry(key, n)], k) == IndexOf(c, k)
    decreases |c|
  {
    if i > 0 {
      assert c[i := Entry(key, n)][1..] == c[1..][i - 1 := Entry(key, n)];
      SetKeepsOthers(c[1..], i - 1, key, n);
    }
  }

  lemma {:induction false} AppendKeepsOthers(c: Children, key: string, n: Node)
    ensures forall k :: k != key ==>
              IndexOf(c + [Entry(key, n)], k) == if IndexOf(c, k) < |c| then IndexOf(c, k) else |c| + 1
    decreases |c|
  {
    if |c| > 0 {
      assert (c + [Entry(key, n)])[1..] == c[1..] + [Entry(key, n)];
      AppendKeepsOthers(c[1..], key, n);
    }
  }

  /** The node reached by following `path` from the root entries `c`. */
  function Find(c: Children, path: seq<string>): Option<Node>
    requires |path| >= 1
    decreases |path|
  {
    var n := Child(c, path[0]);
    if |path| == 1 then n
    else match n
      case Some(Dir(_, ch)) => Find(ch, path[1..])
      case _ => None
  }

  /** Whether a file sits at `path`. */
  predicate FileAt(c: Children, path: seq<string>)
    requires |path| >= 1
  {
    Find(c, path).Some? && Find(c, path).value.File?
  }

  /** Two paths part ways at some segment both have: neither lies on the
      other. */
  predicate Diverge(p: seq<string>, q: seq<string>) {
    exists k :: 0 <= k < |p| && k < |q| && p[k] != q[k]
  }

  /** The inner loop of the tree building for one file whose remaining
      segments are `rest`, below the directory reached by `prefix`. A
      directory is created for each missing segment but the last; the last
      segment is set to the file. Walking through a segment that holds a
      file reads `.children` of a file node and then throws: `None`. */
  function Insert(c: Children, prefix: seq<string>, rest: seq<string>, size: int, lang: string): (r: Option<Children>)
    requires |rest| >= 1
    ensures r.Some? ==> KeepsOrder(c, r.value)
    decreases |rest|
  {
    var seg := rest[0];
    var fullPath := JoinPaths(prefix + [seg]);
    if |rest| == 1 then Some(SetChild(c, seg, File(fullPath, size, lang)))
    else
      match Child(c, seg)
      case None =>
        (match Insert([], prefix + [seg], rest[1..], size, lang)
         case None => None
         case Some(ch) => Some(SetChild(c, seg, Dir(fullPath, ch))))
      case Some(Dir(id, ch)) =>
        (match Insert(ch, prefix + [seg], rest[1..], size, lang)
         case None => None
         case Some(ch') => Some(SetChild(c, seg, Dir(id, ch'))))
      case Some(File(_, _, _)) => None
  }

  /** After inserting, the file is found at its path, with its joined path
      as its id. */
  lemma {:induction false} InsertThenFind(c: Children, prefix: seq<string>, rest: seq<string>, size: int, lang: string)
    requires |rest| >= 1
    requires Insert(c, prefix, rest, size, lang).Some?
    ensures Find(Insert(c, prefix, rest, size, lang).value, rest) == Some(File(JoinPaths(prefix + rest), size, lang))
    decreases |rest|
  {
    var seg := rest[0];
    if |rest| == 1 {
      assert prefix + rest == prefix + [seg];
    } else {
      assert prefix + [seg] + rest[1..] == prefix + rest;
      var r := Insert(c, prefix, rest, size, lang).value;
      match Child(c, seg)
      case None =>
        InsertThenFind([], prefix + [seg], rest[1..], size, lang);
        assert Child(r, seg) == Some(Dir(JoinPaths(prefix + [seg]), Insert([], prefix + [seg], rest[1..], size, lang).value));
      case Some(Dir(id, ch)) =>
        InsertThenFind(ch, prefix + [seg], rest[1..], size, lang);
        assert Child(r, seg) == Some(Dir(id, Insert(ch, prefix + [seg], rest[1..], size, lang).value));
    }
  }

  /** Inserting leaves every path that parts ways with the inserted one as
      it was. */
  lemma {:induction false} InsertKeepsOthers(c: Children, prefix: seq<string>, rest: seq<string>, size: int, lang: string,
                                             q: seq<string>)
    requires |rest| >= 1 && |q| >= 1
    requires Insert(c, prefix, rest, size, lang).Some?
    requires Diverge(q, rest)
    ensures Find(Insert(c, prefix, rest, size, lang).value, q) == Find(c, q)
    decreases |rest|
  {
    var r := Insert(c, prefix, rest, size, lang).value;
    var seg := rest[0];
    if q[0] != seg {
      assert Child(r, q[0]) == Child(c, q[0]);
    } else {
      var k :| 0 <= k < |q| && k < |rest| && q[k] != rest[k];
      assert k >= 1;
      assert q[1..][k - 1] != rest[1..][k - 1];
      match Child(c, seg)
      case None =>
        InsertKeepsOthers([], prefix + [seg], rest[1..], size, lang, q[1..]);
        assert Find([], q[1..]) == None;
      case Some(Dir(id, ch)) =>
        InsertKeepsOthers(ch, prefix + [seg], rest[1..], size, lang, q[1..]);
    }
  }

  /** Insertion fails exactly when a file sits on a proper prefix of the
      path. */
  lemma {:induction false} InsertFailsOnFile(c: Children, prefix: seq<string>, rest: seq<string>, size: int, lang: string)
    requires |rest| >= 1
    ensures Insert(c, prefix, rest, size, lang).None? <==> exists k :: 1 <= k < |rest| && FileAt(c, rest[..k])
    decreases |rest|
  {
    if |rest| > 1 {
      var seg := rest[0];
      assert rest[..1] == [seg];
      match Child(c, seg)
      case None =>
        InsertFailsOnFile([], prefix + [seg], rest[1..], size, lang);
        NothingUnder(c, rest);
        forall k | 1 <= k < |rest[1..]|
          ensures !FileAt([], rest[1..][..k])
        {
          assert Child([], rest[1..][..k][0]) == None;
        }
      case Some(Dir(id, ch)) =>
        InsertFailsOnFile(ch, prefix + [seg], rest[1..], size, lang);
        if Insert(ch, prefix + [seg], rest[1..], size, lang).None? {
          var k :| 1 <= k < |rest[1..]| && FileAt(ch, rest[1..][..k]);
          assert rest[..k + 1][1..] == rest[1..][..k];
          assert FileAt(c, rest[..k + 1]);
        } else {
          forall k | 1 <= k < |rest|
            ensures !FileAt(c, rest[..k])
          {
            if k > 1 {
              assert rest[..k][1..] == rest[1..][..k - 1];
            }
          }
        }
      case Some(File(_, _, _)) =>
        assert FileAt(c, rest[..1]);
    }
  }

  /** With nothing at the first segment, nothing lies below it. */
  lemma NothingUnder(c: Children, rest: seq<string>)
    requires |rest| >= 1 && Child(c, rest[0]).None?
    ensures forall k :: 1 <= k <= |rest| ==> Find(c, rest[..k]).None?
  {
    forall k | 1 <= k <= |rest|
      ensures Find(c, rest[..k]).None?
    {
      assert rest[..k][0] == rest[0];
    }
  }

  /** Every node's id is the joined path that leads to it, and no directory
      repeats a name. */
  predicate WellFormed(c: Children, prefix: seq<string>)
    decreases c
  {
    && DistinctNames(c)
    && forall i :: 0 <= i < |c| ==>
         && c[i].node.id == JoinPaths(prefix + [c[i].name])
         && (c[i].node.Dir? ==> WellFormed(c[i].node.children, prefix + [c[i].name]))
  }

  /** Inserting keeps the tree well formed. */
  lemma {:induction false} InsertWellFormed(c: Children, prefix: seq<string>, rest: seq<string>, size: int, lang: string)
    requires |rest| >= 1
    requires WellFormed(c, prefix)
    requires Insert(c, prefix, rest, size, lang).Some?
    ensures WellFormed(Insert(c, prefix, rest, size, lang).value, prefix)
    decreases |rest|
  {
    var seg := rest[0];
    var fullPath := JoinPaths(prefix + [seg]);
    if |rest| == 1 {
      SetChildWellFormed(c, prefix, seg, File(fullPath, size, lang));
    } else {
      match Child(c, seg)
      case None =>
        InsertWellFormed([], prefix + [seg], rest[1..], size, lang);
        var ch := Insert([], prefix + [seg], rest[1..], size, lang).value;
        SetChildWellFormed(c, prefix, seg, Dir(fullPath, ch));
      case Some(Dir(id, ch)) =>
        assert Entry(seg, Dir(id, ch)) in c;
        InsertWellFormed(ch, prefix + [seg], rest[1..], size, lang);
        var ch' := Insert(ch, prefix + [seg], rest[1..], size, lang).value;
        SetChildWellFormed(c, prefix, seg, Dir(id, ch'));
    }
  }

  /** Setting a well-formed node under its own name keeps the directory well
      formed. */
  lemma SetChildWellFormed(c: Children, prefix: seq<string>, seg: string, n: Node)
    requires WellFormed(c, prefix)
    requires n.id == JoinPaths(prefix + [seg])
    requires n.Dir? ==> WellFormed(n.children, prefix + [seg])
    ensures WellFormed(SetChild(c, seg, n), prefix)
  {
    var r := SetChild(c, seg, n);
    forall i | 0 <= i < |r|
      ensures r[i].node.id == JoinPaths(prefix + [r[i].name])
      ensures r[i].node.Dir? ==> WellFormed(r[i].node.children, prefix + [r[i].name])
    {
      var k := r[i].name;
      assert IndexOf(r, k) == i;
      if k != seg {
        assert Child(c, k) == Some(r[i].node);
        var j := IndexOf(c, k);
      }
    }
  }

  /** The outer loop over the listing: each file inserted into the tree
      built from the files before it. */
  function Build(files: seq<MetaFile>, db: MimeDb): (t: Option<Children>)
    // a tree built from any listing is well formed
    ensures t.Some? ==> WellFormed(t.value, [])
    decreases |files|
  {
    if |files| == 0 then Some([])
    else
      var last := files[|files| - 1];
      match Build(files[..|files| - 1], db)
      case None => None
      case Some(t) =>
        var r := Insert(t, [], Segments(last.path), last.size, MimeToLang(last.mime, db));
        if r.Some? then
          InsertWellFormed(t, [], Segments(last.path), last.size, MimeToLang(last.mime, db));
          r
        else r
  }

  /** One failed insertion aborts the whole listing: a tree is built only
      when one is built for every prefix of the listing. */
  lemma {:induction false} BuildPrefixes(files: seq<MetaFile>, db: MimeDb)
    requires Build(files, db).Some?
    ensures forall k :: 0 <= k <= |files| ==> Build(files[..k], db).Some?
    decreases |files|
  {
    if |files| > 0 {
      var init := files[..|files| - 1];
      BuildPrefixes(init, db);
      forall k | 0 <= k <= |files| ensures Build(files[..k], db).Some? {
        if k < |files| {
          assert init[..k] == files[..k];
        } else {
          assert files[..k] == files;
        }
      }
    }
  }

  /** When no listed path lies on another, every file ends up in the tree
      at its path. */
  lemma {:induction false} BuildFindsEveryFile(files: seq<MetaFile>, db: MimeDb)
    requires Build(files, db).Some?
    requires forall i, j :: 0 <= i < j < |files| ==> Diverge(Segments(files[i].path), Segments(files[j].path))
    ensures forall i :: 0 <= i < |files| ==>
              Find(Build(files, db).value, Segments(files[i].path)) ==
              Some(File(JoinPaths(Segments(files[i].path)), files[i].size, MimeToLang(files[i].mime, db)))
    decreases |files|
  {
    if |files| > 0 {
      var n := |files| - 1;
      var last := files[n];
      var before := Build(files[..n], db).value;
      BuildFindsEveryFile(files[..n], db);
      InsertThenFind(before, [], Segments(last.path), last.size, MimeToLang(last.mime, db));
      assert [] + Segments(last.path) == Segments(last.path);
      forall i | 0 <= i < n
        ensures Find(Build(files, db).value, Segments(files[i].path)) ==
                Some(File(JoinPaths(Segments(files[i].path)), files[i].size, MimeToLang(files[i].mime, db)))
      {
        assert files[..n][i] == files[i];
        InsertKeepsOthers(before, [], Segments(last.path), last.size, MimeToLang(last.mime, db), Segments(files[i].path));
      }
    }
  }

  function SumSizes(ts: seq<TreeNode>): int {
    if |ts| == 0 then 0 else ts[0].size + SumSizes(ts[1..])
  }

  /** `mapToArray(map)`: entries in map order, each directory sized by the
      sum of its converted children. */
  function ToArray(c: Children): (r: seq<TreeNode>)
    ensures |r| == |c|
    ensures forall i :: 0 <= i < |c| ==> r[i].id == c[i].node.id && (r[i].DirNode? <==> c[i].node.Dir?)
    decreases c
  {
    if |c| == 0 then []
    else [ToTree(c[0].node)] + ToArray(c[1..])
  }

  function ToTree(n: Node): (t: TreeNode)
    ensures t.id == n.id && (t.DirNode? <==> n.Dir?)
    ensures n.File? ==> t.size == n.size && t.lang == n.lang
    ensures n.Dir? ==> |t.children| == |n.children| &&
                       forall i :: 0 <= i < |n.children| ==> t.children[i].id == n.children[i].node.id
    decreases n
  {
    match n
    case File(id, size, lang) => FileNode(id, size, lang)
    case Dir(id, ch) =>
      var kids := ToArray(ch);
      DirNode(id, SumSizes(kids), kids)
  }

  /** The sizes of all files below the entries `c`, depth first. */
  function FileSizes(c: Children): seq<int>
    decreases c
  {
    if |c| == 0 then []
    else
      (match c[0].node
       case File(_, size, _) => [size]
       case Dir(_, ch) => FileSizes(ch)) + FileSizes(c[1..])
  }

  function Sum(xs: seq<int>): int {
    if |xs| == 0 then 0 else xs[0] + Sum(xs[1..])
  }

  lemma {:induction false} SumConcat(xs: seq<int>, ys: seq<int>)
    ensures Sum(xs + ys) == Sum(xs) + Sum(ys)
    decreases |xs|
  {
    if |xs| > 0 {
      assert (xs + ys)[1..] == xs[1..] + ys;
      SumConcat(xs[1..], ys);
    } else {
      assert xs + ys == ys;
    }
  }

  /** The sizes of the converted entries add up to the total size of every
      file below them; in particular a directory's size is the sum of the
      sizes of all files anywhere beneath it. */
  lemma {:induction false} SizesAreFileTotals(c: Children)
    ensures SumSizes(ToArray(c)) == Sum(FileSizes(c))
    ensures forall i :: 0 <= i < |c| && c[i].node.Dir? ==>
              ToArray(c)[i].size == Sum(FileSizes(c[i].node.children))
    decreases c
  {
    if |c| > 0 {
      var head := c[0].node;
      SizesAreFileTotals(c[1..]);
      match head
      case File(_, _, _) =>
        SumConcat([head.size], FileSizes(c[1..]));
      case Dir(_, ch) =>
        SizesAreFileTotals(ch);
        SumConcat(FileSizes(ch), FileSizes(c[1..]));
      forall i | 0 <= i < |c| && c[i].node.Dir?
        ensures ToArray(c)[i].size == Sum(FileSizes(c[i].node.children))
      {
        if i > 0 {
          assert ToArray(c)[i] == ToArray(c[1..])[i - 1];
          assert c[i] == c[1..][i - 1];
        }
      }
    }
  }

  lemma {:induction false} FileSizesConcat(a: Children, b: Children)
    ensures FileSizes(a + b) == FileSizes(a) + FileSizes(b)
    decreases |a|
  {
    if |a| > 0 {
      assert (a + b)[1..] == a[1..] + b;
      FileSizesConcat(a[1..], b);
    } else {
      assert a + b == b;
    }
  }

  /** The total file size below `c` with the entry at `i` replaced. */
  lemma ReplaceTotal(c: Children, i: int, e: Entry)
    requires 0 <= i < |c|
    ensures Sum(FileSizes(c[i := e])) == Sum(FileSizes(c)) - Sum(FileSizes([c[i]])) + Sum(FileSizes([e]))
  {
    assert c == c[..i] + [c[i]] + c[i + 1..];
    assert c[i := e] == c[..i] + [e] + c[i + 1..];
    FileSizesConcat(c[..i] + [c[i]], c[i + 1..]);
    FileSizesConcat(c[..i], [c[i]]);
    FileSizesConcat(c[..i] + [e], c[i + 1..]);
    FileSizesConcat(c[..i], [e]);
    SumConcat(FileSizes(c[..i]) + FileSizes([c[i]]), FileSizes(c[i + 1..]));
    SumConcat(FileSizes(c[..i]), FileSizes([c[i]]));
    SumConcat(FileSizes(c[..i]) + FileSizes([e]), FileSizes(c[i + 1..]));
    SumConcat(FileSizes(c[..i]), FileSizes([e]));
  }

  /** The total file size below `c` with `e` appended. */
  lemma AppendTotal(c: Children, e: Entry)
    ensures Sum(FileSizes(c + [e])) == Sum(FileSizes(c)) + Sum(FileSizes([e]))
  {
    FileSizesConcat(c, [e]);
    SumConcat(FileSizes(c), FileSizes([e]));
  }

  /** Inserting a file at a path where nothing is yet adds its size to the
      total below the root. */
  lemma {:induction false} InsertAddsSize(c: Children, prefix: seq<string>, rest: seq<string>, size: int, lang: string)
    requires |rest| >= 1
    requires Insert(c, prefix, rest, size, lang).Some?
    requires Find(c, rest).None?
    ensures Sum(FileSizes(Insert(c, prefix, rest, size, lang).value)) == Sum(FileSizes(c)) + size
    decreases |rest|
  {
    var seg := rest[0];
    var fullPath := JoinPaths(prefix + [seg]);
    if |rest| == 1 {
      AppendTotal(c, Entry(seg, File(fullPath, size, lang)));
    } else {
      match Child(c, seg)
      case None =>
        var ch := Insert([], prefix + [seg], rest[1..], size, lang).value;
        InsertAddsSize([], prefix + [seg], rest[1..], size, lang);
        AppendTotal(c, Entry(seg, Dir(fullPath, ch)));
        assert FileSizes([Entry(seg, Dir(fullPath, ch))]) == FileSizes(ch);
      case Some(Dir(id, ch)) =>
        var ch' := Insert(ch, prefix + [seg], rest[1..], size, lang).value;
        InsertAddsSize(ch, prefix + [seg], rest[1..], size, lang);
        var i := IndexOf(c, seg);
        ReplaceTotal(c, i, Entry(seg, Dir(id, ch')));
        assert FileSizes([Entry(seg, Dir(id, ch'))]) == FileSizes(ch');
        assert FileSizes([c[i]]) == FileSizes(ch);
    }
  }

  /** A path that parts ways with every listed path leads nowhere in the
      built tree. */
  lemma {:induction false} BuildMissesOthers(files: seq<MetaFile>, db: MimeDb, q: seq<string>)
    requires |q| >= 1
    requires Build(files, db).Some?
    requires forall i :: 0 <= i < |files| ==> Diverge(q, Segments(files[i].path))
    ensures Find(Build(files, db).value, q).None?
    decreases |files|
  {
    if |files| > 0 {
      var n := |files| - 1;
      var last := files[n];
      forall i | 0 <= i < n
        ensures Diverge(q, Segments(files[..n][i].path))
      {
        assert files[..n][i] == files[i];
      }
      BuildMissesOthers(files[..n], db, q);
      InsertKeepsOthers(Build(files[..n], db).value, [], Segments(last.path), last.size, MimeToLang(last.mime, db), q);
    }
  }

  function SizesOf(files: seq<MetaFile>): (sizes: seq<int>)
    ensures |sizes| == |files|
  {
    if |files| == 0 then [] else SizesOf(files[..|files| - 1]) + [files[|files| - 1].size]
  }

  lemma DivergeSymmetric(p: seq<string>, q: seq<string>)
    requires Diverge(p, q)
    ensures Diverge(q, p)
  {
    var k :| 0 <= k < |p| && k < |q| && p[k] != q[k];
  }

  /** Dropping the last file keeps the listed paths pairwise apart, and the
      last path apart from all the others. */
  lemma ApartWithoutLast(files: seq<MetaFile>)
    requires |files| > 0
    requires forall i, j :: 0 <= i < j < |files| ==> Diverge(Segments(files[i].path), Segments(files[j].path))
    ensures var n := |files| - 1;
            && (forall i, j :: 0 <= i < j < n ==> Diverge(Segments(files[..n][i].path), Segments(files[..n][j].path)))
            && (forall i :: 0 <= i < n ==> Diverge(Segments(files[n].path), Segments(files[..n][i].path)))
  {
    var n := |files| - 1;
    forall i | 0 <= i < n
      ensures Diverge(Segments(files[n].path), Segments(files[..n][i].path))
    {
      assert files[..n][i] == files[i];
      DivergeSymmetric(Segments(files[i].path), Segments(files[n].path));
    }
  }

  /** When no listed path lies on another and the tree builds, its file
      sizes add up to the sizes of the listing. */
  lemma {:induction false} BuildTotal(files: seq<MetaFile>, db: MimeDb)
    requires Build(files, db).Some?
    requires forall i, j :: 0 <= i < j < |files| ==> Diverge(Segments(files[i].path), Segments(files[j].path))
    ensures Sum(FileSizes(Build(files, db).value)) == Sum(SizesOf(files))
    decreases |files|
  {
    if |files| > 0 {
      var n := |files| - 1;
      var last := files[n];
      ApartWithoutLast(files);
      BuildTotal(files[..n], db);
      BuildMissesOthers(files[..n], db, Segments(last.path));
      InsertAddsSize(Build(files[..n], db).value, [], Segments(last.path), last.size, MimeToLang(last.mime, db));
      SumConcat(SizesOf(files[..n]), [last.size]);
    }
  }

  function FilesKey(name: string, version: Option<string>): (k: string)
    ensures StartsWith(k, "package-files:")
  {
    "package-files:" + name + "-" + ServerPackage.VersionText(version)
  }

  const FilesTtl := 600

  /** Why no tree came back: the unpkg request failed (with its HTTP status
      when there was a response), or a path ran through a file. */
  datatype FilesFailure = MetaFailed(status: Option<int>) | PathThroughFile

  /** `getPackageFiles(specifier)` once the specifier is resolved to `name`
      and `version`: the tree, kept ten minutes under
      `package-files:<name>-<version>`. `meta` is the outcome of the unpkg
      request. */
  function GetPackageFiles(store: Option<DataCommon.Store<seq<TreeNode>>>, name: string, version: Option<string>,
                           meta: Result<seq<MetaFile>, Option<int>>, db: MimeDb)
    : (c: DataCommon.CacheCall<seq<TreeNode>, FilesFailure>)
    ensures store.Some? && FilesKey(name, version) in store.value ==>
              c.result == Ok(store.value[FilesKey(name, version)].value) && !c.computed
    ensures !(store.Some? && FilesKey(name, version) in store.value) ==>
              && c.computed
              && (meta.Err? ==> c.result == Err(MetaFailed(meta.error)))
              && (meta.Ok? && Build(meta.value, db).None? ==> c.result == Err(PathThroughFile))
              && (meta.Ok? && Build(meta.value, db).Some? ==> c.result == Ok(ToArray(Build(meta.value, db).value)))
    // a hit leaves the store as it was; a built tree is kept ten minutes; a
    // failure is never stored
    ensures store.Some? && FilesKey(name, version) in store.value ==> c.store == store
    ensures store.Some? && FilesKey(name, version) !in store.value && c.result.Ok? ==>
              c.store == Some(store.value[FilesKey(name, version) := DataCommon.Entry(c.result.value, FilesTtl)])
    ensures c.result.Err? ==> c.store == store
    ensures store.None? ==> c.store == None
  {
    var computed :=
      match meta
      case Err(status) => Err(MetaFailed(status))
      case Ok(files) =>
        match Build(files, db)
        case None => Err(PathThroughFile)
        case Some(t) => Ok(ToArray(t));
    DataCommon.Cached(store, FilesKey(name, version), FilesTtl, computed)
  }
}

=== FILE: json.dfy ===
/** JSON values as the registry serves them, and lookups in JSON objects,
    which are kept as sequences of fields so that `Object.entries` order is
    available. */
module Json {
  import opened Wrappers

  datatype Json =
    | JNull
    | JBool(b: bool)
    | JNum(n: int)
    | JStr(s: string)
    | JArr(items: seq<Json>)
    | JObj(fields: seq<(string, Json)>)

  /** JavaScript truthiness (`!!v`) of a JSON value. NaN is not modelled. */
  predicate Truthy(v: Json) {
    match v
    case JNull => false
    case JBool(b) => b
    case JNum(n) => n != 0
    case JStr(s) => s != ""
    case _ => true
  }

  /** The index of the first field named `key`, or `|fields|` if none. */
  function KeyIndex<V>(fields: seq<(string, V)>, key: string): (i: nat)
    ensures i <= |fields|
    ensures i < |fields| ==> fields[i].0 == key
    ensures forall j :: 0 <= j < i ==> fields[j].0 != key
  {
    if |fields| == 0 then 0
    else if fields[0].0 == key then 0
    else 1 + KeyIndex(fields[1..], key)
  }

  /** `obj[key]` on a record; `None` for a missing key. */
  function Lookup<V>(fields: seq<(string, V)>, key: string): (r: Option<V>)
    ensures r.None? <==> forall j :: 0 <= j < |fields| ==> fields[j].0 != key
    ensures r.Some? ==> (key, r.value) in fields
  {
    var i := KeyIndex(fields, key);
    if i == |fields| then None else Some(fields[i].1)
  }

  function Keys<V>(fields: seq<(string, V)>): (ks: seq<string>)
    ensures |ks| == |fields|
    ensures forall i :: 0 <= i < |ks| ==> ks[i] == fields[i].0
  {
    if |fields| == 0 then [] else [fields[0].0] + Keys(fields[1..])
  }

  /** JSON objects cannot repeat a key. */
  predicate DistinctKeys<V>(fields: seq<(string, V)>) {
    forall i, j :: 0 <= i < j < |fields| ==> fields[i].0 != fields[j].0
  }
}

=== FILE: npm.dfy ===
/** The shapes of the registry documents the core reads: a packument (all
    versions of a package) and the manifest of one version. Only the fields
    the core reads are kept. */
module Npm {
  import opened Wrappers
  import opened Json

  /** The polymorphic `funding` field: a URL string, an object with an
      optional type and url, or an array of either. */
  datatype RawFunding =
    | FundingString(s: string)
    | FundingObject(kind: Option<string>, url: Option<string>)
    | FundingList(items: seq<RawFunding>)

  datatype Repository = Repository(url: Option<string>, directory: Option<string>)

  /** An entry of `peerDependenciesMeta`. */
  datatype PeerMeta = PeerMeta(optional: Option<bool>)

  type Deps = seq<(string, string)>

  datatype Manifest = Manifest(
    version: string,
    dependencies: Option<Deps>,
    devDependencies: Option<Deps>,
    optionalDependencies: Option<Deps>,
    peerDependencies: Option<Deps>,
    peerDependenciesMeta: Option<seq<(string, PeerMeta)>>,
    funding: Option<RawFunding>,
    types: Option<Json>,
    exports: Option<Json>,
    repository: Option<Repository>,
    homepage: Option<string>,
    deprecated: Option<string>,
    license: Option<string>,
    unpackedSize: Option<int>)

  /** `dist-tags`, the `versions` record in key order, and the `time` map. */
  datatype Packument = Packument(
    distTags: map<string, string>,
    versions: seq<(string, Manifest)>,
    time: map<string, string>)
}

=== FILE: npm_search.dfy ===
/** The browser-side search of src/lib/client/npm-search.ts: one page of a
    registry text search with a caller-chosen page size. */
module NpmSearch {
  import opened Wrappers
  import Search

  datatype SearchResult<P> = SearchResult(total: int, done: bool, objects: seq<Search.SearchObject<P>>)

  /** `Err` is a rejected promise: `fetch` itself failed, or the body had no
      `objects` array to read. */
  datatype NpmSearchCall<P> = NpmSearchCall(result: Result<SearchResult<P>, Option<int>>, requests: seq<Search.SearchRequest>)

  /** `objects.length % size !== 0`. JavaScript's `%` keeps the sign of the
      (non-negative) dividend, which agrees with the Euclidean remainder
      for any non-zero divisor; `n % 0` is `NaN`, and `NaN !== 0`. */
  predicate NotMultiple(count: nat, size: int) {
    size == 0 || count % size != 0
  }

  /** `searchNPM(query, from, size)`. `respond` gives the body read as a
      search response, or `Err` where the call throws: `fetch` rejects, or
      the body has no `objects` array. The status is never checked, so an
      error response whose body does carry `objects` is read like any
      other. */
  function SearchNpm<P>(query: string, from: int, size: int, respond: Search.Registry<P>): (c: NpmSearchCall<P>)
    ensures query == "" <==> c.requests == []
    ensures query == "" ==> c.result == Ok(SearchResult(0, true, []))
    ensures query != "" ==>
              var req := Search.SearchRequest(query, size, from);
              && c.requests == [req]
              && (c.result.Ok? <==> respond(req).Ok?)
              && (respond(req).Err? ==> c.result == Err(respond(req).error))
              && (respond(req).Ok? ==>
                    && c.result.value.objects == respond(req).value.objects
                    && c.result.value.total == respond(req).value.total
                    && (c.result.value.done <==> NotMultiple(|respond(req).value.objects|, size)))
  {
    if query == "" then NpmSearchCall(Ok(SearchResult(0, true, [])), [])
    else
      var req := Search.SearchRequest(query, size, from);
      match respond(req)
      case Err(status) => NpmSearchCall(Err(status), [req])
      case Ok(data) => NpmSearchCall(Ok(SearchResult(data.total, NotMultiple(|data.objects|, size), data.objects)), [req])
  }

  /** With a page size of 20 and the same answers, the browser-side search
      fails exactly when the server search does, and otherwise agrees with
      it on the flag and the objects. */
  lemma AgreesWithServerSearch<P>(query: string, from: int, respond: Search.Registry<P>)
    ensures SearchNpm(query, from, Search.SearchBatchSize, respond).result.Ok? <==>
            Search.SearchRegistry(query, from, respond).result.Ok?
    ensures SearchNpm(query, from, Search.SearchBatchSize, respond).result.Ok? ==>
            && SearchNpm(query, from, Search.SearchBatchSize, respond).result.value.done ==
               Search.SearchRegistry(query, from, respond).result.value.done
            && SearchNpm(query, from, Search.SearchBatchSize, respond).result.value.objects ==
               Search.SearchRegistry(query, from, respond).result.value.results
  {
  }

  /** A non-empty page shorter than a positive page size sets the flag. */
  lemma DoneOnShortPage<P>(query: string, from: int, size: int, respond: Search.Registry<P>)
    requires query != "" && size > 0 && respond(Search.SearchRequest(query, size, from)).Ok?
    requires 0 < |respond(Search.SearchRequest(query, size, from)).value.objects| < size
    ensures SearchNpm(query, from, size, respond).result.value.done
  {
  }
}

=== FILE: package.dfy ===
/** The package assembler of src/lib/server/package.ts: packument fetch
    errors, funding normalisation, dependency list assembly, specifier
    resolution behind the versioned cache, and the cached internal package
    and version list. */
module ServerPackage {
  import opened Wrappers
  import opened Json
  import opened Npm
  import opened Strings
  import ServerCommon
  import Specifier
  import TypesServer

  /** The foreign libraries the file calls, as pure functions:
      `URL.parse`, `npm-package-arg` validity of `name@version`,
      `semver.satisfies`, `semver.lte` and `Date` parsing (`None` for an
      invalid date). */
  datatype Libs = Libs(
    parseUrl: string -> Option<ServerCommon.Url>,
    isRegistry: (string, string) -> bool,
    satisfies: (string, string) -> bool,
    lte: (string, string) -> bool,
    parseDate: string -> Option<int>)

  /** What `ofetch` finally yields for the packument, after its retries: the
      document, or a failure with the HTTP status when there was one. */
  datatype FetchOutcome = Fetched(packument: Packument) | FetchFailed(status: Option<int>)

  /** Errors that end the request: a SvelteKit `error(status, message)`, or
      a JavaScript `TypeError` from reading a field of `undefined`. */
  datatype Failure = HttpError(status: int, message: string) | TypeError

  /** `getPackument`: a 404 becomes "Package not found", any other failure
      a retryable 500. */
  function GetPackument(outcome: FetchOutcome): (r: Result<Packument, Failure>)
    ensures outcome.Fetched? ==> r == Ok(outcome.packument)
    ensures outcome.FetchFailed? && outcome.status == Some(404) ==> r == Err(HttpError(404, "Package not found"))
    ensures outcome.FetchFailed? && outcome.status != Some(404) ==>
              r == Err(HttpError(500, "Failed to fetch package, try again?"))
  {
    match outcome
    case Fetched(p) => Ok(p)
    case FetchFailed(status) =>
      if status == Some(404) then Err(HttpError(404, "Package not found"))
      else Err(HttpError(500, "Failed to fetch package, try again?"))
  }

  // ---------------------------------------------------------------- funding

  /** A normalised funding entry; `kind` is `patreon` or `individual`. */
  datatype Funding = Funding(kind: Option<string>, url: string)

  predicate IsFundingType(t: string) {
    t in {"patreon", "individual"}
  }

  /** `parseFunding` on one value of the polymorphic field. An object with no
      url is rejected: `URL.parse(undefined)` parses the text "undefined",
      which is not an absolute URL. */
  function ParseFundingValue(f: RawFunding, parseUrl: string -> Option<ServerCommon.Url>): (r: seq<Funding>)
    ensures forall i :: 0 <= i < |r| ==> StartsWith(r[i].url, "https:")
    ensures forall i :: 0 <= i < |r| ==> r[i].kind.None? || IsFundingType(r[i].kind.value)
    ensures f.FundingString? && f.s == "" ==> r == []
    ensures f.FundingString? && f.s != "" ==>
              r == (if ServerCommon.CheckUrl(f.s, parseUrl).Some? then [Funding(None, ServerCommon.CheckUrl(f.s, parseUrl).value)] else [])
    ensures f.FundingObject? && (f.url.None? || ServerCommon.CheckUrl(f.url.value, parseUrl).None?) ==> r == []
    ensures f.FundingObject? && f.url.Some? && ServerCommon.CheckUrl(f.url.value, parseUrl).Some? ==>
              && |r| == 1
              && r[0].url == ServerCommon.CheckUrl(f.url.value, parseUrl).value
              && (r[0].kind.Some? <==> f.kind.Some? && IsFundingType(f.kind.value))
              && (r[0].kind.Some? ==> r[0].kind == f.kind)
    decreases f, 0
  {
    match f
    case FundingString(s) =>
      // an empty string is falsy and yields [] before checkURL; checkURL
      // rejects it too
      var url := ServerCommon.CheckUrl(s, parseUrl);
      if s == "" || url.None? then [] else [Funding(None, url.value)]
    case FundingList(items) => ParseFundingList(items, parseUrl)
    case FundingObject(kind, rawUrl) =>
      if rawUrl.None? then []
      else
        var url := ServerCommon.CheckUrl(rawUrl.value, parseUrl);
        if url.None? then []
        else if kind.Some? && IsFundingType(kind.value) then [Funding(kind, url.value)]
        else [Funding(None, url.value)]
  }

  /** `funding.flatMap((f) => parseFunding(f))`. */
  function ParseFundingList(items: seq<RawFunding>, parseUrl: string -> Option<ServerCommon.Url>): (r: seq<Funding>)
    ensures forall i :: 0 <= i < |r| ==> StartsWith(r[i].url, "https:")
    ensures forall i :: 0 <= i < |r| ==> r[i].kind.None? || IsFundingType(r[i].kind.value)
    decreases items, 1
  {
    if |items| == 0 then []
    else ParseFundingValue(items[0], parseUrl) + ParseFundingList(items[1..], parseUrl)
  }

  /** `parseFunding(manifest.funding)`: an absent field yields no entries. */
  function ParseFunding(f: Option<RawFunding>, parseUrl: string -> Option<ServerCommon.Url>): (r: seq<Funding>)
    ensures f.None? ==> r == []
    ensures forall i :: 0 <= i < |r| ==> StartsWith(r[i].url, "https:")
  {
    match f
    case None => []
    case Some(v) => ParseFundingValue(v, parseUrl)
  }

  /** An array is normalised element by element, in order: the entries of a
      concatenation are the concatenation of the entries. */
  lemma {:induction false} FundingListConcat(a: seq<RawFunding>, b: seq<RawFunding>, parseUrl: string -> Option<ServerCommon.Url>)
    ensures ParseFundingValue(FundingList(a + b), parseUrl) ==
            ParseFundingValue(FundingList(a), parseUrl) + ParseFundingValue(FundingList(b), parseUrl)
  {
    if |a| == 0 {
      assert a + b == b;
    } else {
      assert (a + b)[1..] == a[1..] + b;
      FundingListConcat(a[1..], b, parseUrl);
    }
  }

  /** Nesting an array inside an array changes nothing. */
  lemma FundingListFlattens(items: seq<RawFunding>, parseUrl: string -> Option<ServerCommon.Url>)
    ensures ParseFundingValue(FundingList([FundingList(items)]), parseUrl) == ParseFundingValue(FundingList(items), parseUrl)
  {
    assert [FundingList(items)][1..] == [];
    assert ParseFundingList([FundingList(items)], parseUrl) ==
           ParseFundingValue(FundingList(items), parseUrl) + ParseFundingList([], parseUrl);
  }

  // ----------------------------------------------------------- dependencies

  datatype DepKind = Prod | Dev | Peer

  datatype Dependency = Dependency(kind: DepKind, name: string, version: string, registry: bool, optional: bool)

  /** `collect(deps, type, optional, skip)` over the record's entries. */
  function Collect(deps: Option<Deps>, kind: DepKind, optional: string -> bool, skip: string -> bool,
                   isRegistry: (string, string) -> bool): (r: seq<Dependency>)
    ensures forall i :: 0 <= i < |r| ==>
              && r[i].kind == kind
              && r[i].optional == optional(r[i].name)
              && !skip(r[i].name)
              && r[i].registry == isRegistry(r[i].name, r[i].version)
              && deps.Some? && (r[i].name, r[i].version) in deps.value
  {
    match deps
    case None => []
    case Some(ds) => CollectEntries(ds, kind, optional, skip, isRegistry)
  }

  function CollectEntries(ds: Deps, kind: DepKind, optional: string -> bool, skip: string -> bool,
                          isRegistry: (string, string) -> bool): (r: seq<Dependency>)
    ensures forall i :: 0 <= i < |r| ==>
              && r[i].kind == kind
              && r[i].optional == optional(r[i].name)
              && !skip(r[i].name)
              && r[i].registry == isRegistry(r[i].name, r[i].version)
              && (r[i].name, r[i].version) in ds
  {
    if |ds| == 0 then []
    else
      var rest := CollectEntries(ds[1..], kind, optional, skip, isRegistry);
      var (name, version) := ds[0];
      if skip(name) then rest
      else [Dependency(kind, name, version, isRegistry(name, version), optional(name))] + rest
  }

  /** Every entry not skipped is collected. */
  lemma {:induction false} CollectIncludes(ds: Deps, kind: DepKind, optional: string -> bool, skip: string -> bool,
                                           isRegistry: (string, string) -> bool, e: (string, string))
    requires e in ds && !skip(e.0)
    ensures Dependency(kind, e.0, e.1, isRegistry(e.0, e.1), optional(e.0)) in CollectEntries(ds, kind, optional, skip, isRegistry)
  {
    if ds[0] != e {
      assert e in ds[1..];
      CollectIncludes(ds[1..], kind, optional, skip, isRegistry, e);
    }
  }

  /** `!!manifest.optionalDependencies?.[name]`: the name is declared
      optional with a non-empty range. */
  predicate DeclaredOptional(m: Manifest, name: string) {
    m.optionalDependencies.Some? &&
    var v := Lookup(m.optionalDependencies.value, name);
    v.Some? && v.value != ""
  }

  /** `manifest.peerDependenciesMeta?.[name]?.optional ?? false`. */
  predicate PeerOptional(m: Manifest, name: string) {
    m.peerDependenciesMeta.Some? &&
    var meta := Lookup(m.peerDependenciesMeta.value, name);
    meta.Some? && meta.value.optional.GetOr(false)
  }

  /** Where each kind of entry sits in the assembled list. */
  function Section(d: Dependency): nat {
    match d.kind
    case Prod => if d.optional then 2 else 0
    case Dev => 1
    case Peer => 3
  }

  /** The manifest record that `d`'s kind and optional flag say it was
      collected from lists `d`'s name and range. */
  predicate FromSection(m: Manifest, d: Dependency) {
    var ds := match d.kind
              case Dev => m.devDependencies
              case Peer => m.peerDependencies
              case Prod => if d.optional then m.optionalDependencies else m.dependencies;
    ds.Some? && (d.name, d.version) in ds.value
  }

  /** What holds of every entry of the dependency list: its registry flag,
      the record it comes from, and its optional flag as its kind decides. */
  predicate Listed(m: Manifest, isRegistry: (string, string) -> bool, d: Dependency) {
    && d.registry == isRegistry(d.name, d.version)
    && FromSection(m, d)
    && (d.kind == Dev ==> !d.optional)
    && (d.kind == Peer ==> d.optional == PeerOptional(m, d.name))
    && (d.kind == Prod && !d.optional ==> !DeclaredOptional(m, d.name))
  }

  /** `dependencies`, less the names also declared optional. */
  function ProdEntries(m: Manifest, isRegistry: (string, string) -> bool): (r: seq<Dependency>)
    ensures forall i :: 0 <= i < |r| ==> r[i].kind == Prod && !r[i].optional && Listed(m, isRegistry, r[i])
    ensures m.dependencies.Some? ==>
              forall e :: e in m.dependencies.value && !DeclaredOptional(m, e.0) ==>
                Dependency(Prod, e.0, e.1, isRegistry(e.0, e.1), false) in r
  {
    var optional := _ => false;
    var skip := name => DeclaredOptional(m, name);
    if m.dependencies.Some? then
      var ds := m.dependencies.value;
      assert forall e :: e in ds && !DeclaredOptional(m, e.0) ==> Dependency(Prod, e.0, e.1, isRegistry(e.0, e.1), false) in CollectEntries(ds, Prod, optional, skip, isRegistry) by {
        forall e | e in ds && !DeclaredOptional(m, e.0) ensures Dependency(Prod, e.0, e.1, isRegistry(e.0, e.1), false) in CollectEntries(ds, Prod, optional, skip, isRegistry) {
          CollectIncludes(ds, Prod, optional, skip, isRegistry, e);
        }
      }
      Collect(m.dependencies, Prod, optional, skip, isRegistry)
    else
      Collect(m.dependencies, Prod, optional, skip, isRegistry)
  }

  /** `devDependencies`, never optional. */
  function DevEntries(m: Manifest, isRegistry: (string, string) -> bool): (r: seq<Dependency>)
    ensures forall i :: 0 <= i < |r| ==> r[i].kind == Dev && !r[i].optional && Listed(m, isRegistry, r[i])
    ensures m.devDependencies.Some? ==>
              forall e :: e in m.devDependencies.value ==> Dependency(Dev, e.0, e.1, isRegistry(e.0, e.1), false) in r
  {
    var optional := _ => false;
    var skip := _ => false;
    if m.devDependencies.Some? then
      var ds := m.devDependencies.value;
      assert forall e :: e in ds ==> Dependency(Dev, e.0, e.1, isRegistry(e.0, e.1), false) in CollectEntries(ds, Dev, optional, skip, isRegistry) by {
        forall e | e in ds ensures Dependency(Dev, e.0, e.1, isRegistry(e.0, e.1), false) in CollectEntries(ds, Dev, optional, skip, isRegistry) {
          CollectIncludes(ds, Dev, optional, skip, isRegistry, e);
        }
      }
      Collect(m.devDependencies, Dev, optional, skip, isRegistry)
    else
      Collect(m.devDependencies, Dev, optional, skip, isRegistry)
  }

  /** `optionalDependencies`, as optional production entries. */
  function OptEntries(m: Manifest, isRegistry: (string, string) -> bool): (r: seq<Dependency>)
    ensures forall i :: 0 <= i < |r| ==> r[i].kind == Prod && r[i].optional && Listed(m, isRegistry, r[i])
    ensures m.optionalDependencies.Some? ==>
              forall e :: e in m.optionalDependencies.value ==> Dependency(Prod, e.0, e.1, isRegistry(e.0, e.1), true) in r
  {
    var optional := _ => true;
    var skip := _ => false;
    if m.optionalDependencies.Some? then
      var ds := m.optionalDependencies.value;
      assert forall e :: e in ds ==> Dependency(Prod, e.0, e.1, isRegistry(e.0, e.1), true) in CollectEntries(ds, Prod, optional, skip, isRegistry) by {
        forall e | e in ds ensures Dependency(Prod, e.0, e.1, isRegistry(e.0, e.1), true) in CollectEntries(ds, Prod, optional, skip, isRegistry) {
          CollectIncludes(ds, Prod, optional, skip, isRegistry, e);
        }
      }
      Collect(m.optionalDependencies, Prod, optional, skip, isRegistry)
    else
      Collect(m.optionalDependencies, Prod, optional, skip, isRegistry)
  }

  /** `peerDependencies`, optional as `peerDependenciesMeta` says. */
  function PeerEntries(m: Manifest, isRegistry: (string, string) -> bool): (r: seq<Dependency>)
    ensures forall i :: 0 <= i < |r| ==> r[i].kind == Peer && Listed(m, isRegistry, r[i])
    ensures m.peerDependencies.Some? ==>
              forall e :: e in m.peerDependencies.value ==>
                Dependency(Peer, e.0, e.1, isRegistry(e.0, e.1), PeerOptional(m, e.0)) in r
  {
    var optional := name => PeerOptional(m, name);
    var skip := _ => false;
    if m.peerDependencies.Some? then
      var ds := m.peerDependencies.value;
      assert forall e :: e in ds ==> Dependency(Peer, e.0, e.1, isRegistry(e.0, e.1), PeerOptional(m, e.0)) in CollectEntries(ds, Peer, optional, skip, isRegistry) by {
        forall e | e in ds ensures Dependency(Peer, e.0, e.1, isRegistry(e.0, e.1), PeerOptional(m, e.0)) in CollectEntries(ds, Peer, optional, skip, isRegistry) {
          CollectIncludes(ds, Peer, optional, skip, isRegistry, e);
        }
      }
      Collect(m.peerDependencies, Peer, optional, skip, isRegistry)
    else
      Collect(m.peerDependencies, Peer, optional, skip, isRegistry)
  }

  /** The dependency list of an internal package: production dependencies
      not also declared optional, development dependencies, optional
      dependencies (as optional production dependencies), then peers. */
  function DependencyList(m: Manifest, isRegistry: (string, string) -> bool): (r: seq<Dependency>)
    // sections come in order: prod, dev, optional, peer
    ensures forall i, j :: 0 <= i < j < |r| ==> Section(r[i]) <= Section(r[j])
    ensures forall i :: 0 <= i < |r| && r[i].kind == Dev ==> !r[i].optional
    ensures forall i :: 0 <= i < |r| && r[i].kind == Peer ==> r[i].optional == PeerOptional(m, r[i].name)
    ensures forall i :: 0 <= i < |r| && r[i].kind == Prod && !r[i].optional ==> !DeclaredOptional(m, r[i].name)
    ensures forall i :: 0 <= i < |r| ==> r[i].registry == isRegistry(r[i].name, r[i].version)
    // every listed entry comes from the record its kind names
    ensures forall i :: 0 <= i < |r| ==> FromSection(m, r[i])
    // and every declared entry is listed, with its kind and flags
    ensures m.dependencies.Some? ==>
              forall e :: e in m.dependencies.value && !DeclaredOptional(m, e.0) ==>
                Dependency(Prod, e.0, e.1, isRegistry(e.0, e.1), false) in r
    ensures m.devDependencies.Some? ==>
              forall e :: e in m.devDependencies.value ==> Dependency(Dev, e.0, e.1, isRegistry(e.0, e.1), false) in r
    ensures m.optionalDependencies.Some? ==>
              forall e :: e in m.optionalDependencies.value ==> Dependency(Prod, e.0, e.1, isRegistry(e.0, e.1), true) in r
    ensures m.peerDependencies.Some? ==>
              forall e :: e in m.peerDependencies.value ==>
                Dependency(Peer, e.0, e.1, isRegistry(e.0, e.1), PeerOptional(m, e.0)) in r
  {
    var prod := ProdEntries(m, isRegistry);
    var dev := DevEntries(m, isRegistry);
    var opt := OptEntries(m, isRegistry);
    var peer := PeerEntries(m, isRegistry);
    SectionsOrdered(prod, dev, opt, peer);
    AllListed(m, isRegistry, prod, dev, opt, peer);
    PartsInConcat(prod, dev, opt, peer);
    prod + dev + opt + peer
  }

  lemma PartsInConcat(a: seq<Dependency>, b: seq<Dependency>, c: seq<Dependency>, d: seq<Dependency>)
    ensures forall x :: x in a ==> x in a + b + c + d
    ensures forall x :: x in b ==> x in a + b + c + d
    ensures forall x :: x in c ==> x in a + b + c + d
    ensures forall x :: x in d ==> x in a + b + c + d
  {
  }

  lemma AllListed(m: Manifest, isRegistry: (string, string) -> bool,
                  a: seq<Dependency>, b: seq<Dependency>, c: seq<Dependency>, d: seq<Dependency>)
    requires forall i :: 0 <= i < |a| ==> Listed(m, isRegistry, a[i])
    requires forall i :: 0 <= i < |b| ==> Listed(m, isRegistry, b[i])
    requires forall i :: 0 <= i < |c| ==> Listed(m, isRegistry, c[i])
    requires forall i :: 0 <= i < |d| ==> Listed(m, isRegistry, d[i])
    ensures var r := a + b + c + d;
            forall i :: 0 <= i < |r| ==> Listed(m, isRegistry, r[i])
  {
    var r := a + b + c + d;
    forall i | 0 <= i < |r| ensures Listed(m, isRegistry, r[i]) {
      if i < |a| { assert r[i] == a[i]; }
      else if i < |a| + |b| { assert r[i] == b[i - |a|]; }
      else if i < |a| + |b| + |c| { assert r[i] == c[i - |a| - |b|]; }
      else { assert r[i] == d[i - |a| - |b| - |c|]; }
    }
  }

  predicate InSection(s: seq<Dependency>, k: nat) {
    forall i :: 0 <= i < |s| ==> Section(s[i]) == k
  }

  lemma SectionsOrdered(a: seq<Dependency>, b: seq<Dependency>, c: seq<Dependency>, d: seq<Dependency>)
    requires InSection(a, 0) && InSection(b, 1) && InSection(c, 2) && InSection(d, 3)
    ensures var r := a + b + c + d;
            forall i, j :: 0 <= i < j < |r| ==> Section(r[i]) <= Section(r[j])
  {
    var r := a + b + c + d;
    forall i | 0 <= i < |r|
      ensures Section(r[i]) == if i < |a| then 0 else if i < |a| + |b| then 1 else if i < |a| + |b| + |c| then 2 else 3
    {
      if i < |a| { assert r[i] == a[i]; }
      else if i < |a| + |b| { assert r[i] == b[i - |a|]; }
      else if i < |a| + |b| + |c| { assert r[i] == c[i - |a| - |b|]; }
      else { assert r[i] == d[i - |a| - |b| - |c|]; }
    }
  }

  /** The number of production entries named `name`. */
  function CountProd(r: seq<Dependency>, name: string): nat {
    if |r| == 0 then 0
    else (if r[0].kind == Prod && r[0].name == name then 1 else 0) + CountProd(r[1..], name)
  }

  lemma {:induction false} CountProdConcat(a: seq<Dependency>, b: seq<Dependency>, name: string)
    ensures CountProd(a + b, name) == CountProd(a, name) + CountProd(b, name)
  {
    if |a| == 0 {
      assert a + b == b;
    } else {
      assert (a + b)[1..] == a[1..] + b;
      CountProdConcat(a[1..], b, name);
    }
  }

  /** Entries collected from a record with distinct keys mention a name at
      most once, and exactly once when it is a key not skipped. */
  lemma {:induction false} CollectCountsOnce(ds: Deps, kind: DepKind, optional: string -> bool, skip: string -> bool,
                                             isRegistry: (string, string) -> bool, name: string)
    requires DistinctKeys(ds)
    requires kind == Prod
    ensures CountProd(CollectEntries(ds, kind, optional, skip, isRegistry), name) ==
            (if Lookup(ds, name).Some? && !skip(name) then 1 else 0)
  {
    if |ds| > 0 {
      var rest := ds[1..];
      assert DistinctKeys(rest);
      CollectCountsOnce(rest, kind, optional, skip, isRegistry, name);
      var (n, v) := ds[0];
      if n == name {
        assert Lookup(rest, name).None? by {
          forall j | 0 <= j < |rest| ensures rest[j].0 != name {
            assert rest[j] == ds[j + 1];
          }
        }
      } else {
        assert Lookup(ds, name).Some? <==> Lookup(rest, name).Some? by {
          if Lookup(rest, name).Some? {
            var j := KeyIndex(rest, name);
            assert ds[j + 1] == rest[j];
          }
          if Lookup(ds, name).Some? {
            var j := KeyIndex(ds, name);
            assert j > 0 && rest[j - 1] == ds[j];
          }
        }
      }
    }
  }

  lemma CollectNoProd(ds: Deps, kind: DepKind, optional: string -> bool, skip: string -> bool,
                      isRegistry: (string, string) -> bool, name: string)
    requires kind != Prod
    ensures CountProd(CollectEntries(ds, kind, optional, skip, isRegistry), name) == 0
  {
    var r := CollectEntries(ds, kind, optional, skip, isRegistry);
    CountProdZero(r, name);
  }

  lemma {:induction false} CountProdZero(r: seq<Dependency>, name: string)
    requires forall i :: 0 <= i < |r| ==> r[i].kind != Prod
    ensures CountProd(r, name) == 0
  {
    if |r| > 0 {
      CountProdZero(r[1..], name);
    }
  }

  /** A name declared both as a dependency and (with a non-empty range) as
      an optional dependency appears once among the production entries, as
      an optional one carrying the optional declaration's range. */
  lemma OptionalFolded(m: Manifest, isRegistry: (string, string) -> bool, name: string, range: string)
    requires m.dependencies.Some? && m.optionalDependencies.Some?
    requires DistinctKeys(m.dependencies.value) && DistinctKeys(m.optionalDependencies.value)
    requires Lookup(m.dependencies.value, name).Some?
    requires Lookup(m.optionalDependencies.value, name) == Some(range) && range != ""
    ensures var r := DependencyList(m, isRegistry);
            && CountProd(r, name) == 1
            && Dependency(Prod, name, range, isRegistry(name, range), true) in r
  {
    var prod := Collect(m.dependencies, Prod, _ => false, n => DeclaredOptional(m, n), isRegistry);
    var dev := Collect(m.devDependencies, Dev, _ => false, _ => false, isRegistry);
    var opt := Collect(m.optionalDependencies, Prod, _ => true, _ => false, isRegistry);
    var peer := Collect(m.peerDependencies, Peer, n => PeerOptional(m, n), _ => false, isRegistry);
    assert DependencyList(m, isRegistry) == prod + dev + opt + peer;
    FoldedInSections(m, isRegistry, name, range, prod, dev, opt, peer);
  }

  /** `OptionalFolded` over the four collected sections. */
  lemma FoldedInSections(m: Manifest, isRegistry: (string, string) -> bool, name: string, range: string,
                         prod: seq<Dependency>, dev: seq<Dependency>, opt: seq<Dependency>, peer: seq<Dependency>)
    requires m.dependencies.Some? && m.optionalDependencies.Some?
    requires DistinctKeys(m.dependencies.value) && DistinctKeys(m.optionalDependencies.value)
    requires Lookup(m.dependencies.value, name).Some?
    requires Lookup(m.optionalDependencies.value, name) == Some(range) && range != ""
    requires prod == Collect(m.dependencies, Prod, _ => false, n => DeclaredOptional(m, n), isRegistry)
    requires dev == Collect(m.devDependencies, Dev, _ => false, _ => false, isRegistry)
    requires opt == Collect(m.optionalDependencies, Prod, _ => true, _ => false, isRegistry)
    requires peer == Collect(m.peerDependencies, Peer, n => PeerOptional(m, n), _ => false, isRegistry)
    ensures CountProd(prod + dev + opt + peer, name) == 1
    ensures Dependency(Prod, name, range, isRegistry(name, range), true) in prod + dev + opt + peer
  {
    CollectCountsOnce(m.dependencies.value, Prod, _ => false, n => DeclaredOptional(m, n), isRegistry, name);
    CollectCountsOnce(m.optionalDependencies.value, Prod, _ => true, _ => false, isRegistry, name);
    if m.devDependencies.Some? {
      CollectNoProd(m.devDependencies.value, Dev, _ => false, _ => false, isRegistry, name);
    }
    if m.peerDependencies.Some? {
      CollectNoProd(m.peerDependencies.value, Peer, n => PeerOptional(m, n), _ => false, isRegistry, name);
    }
    CountProdConcat(prod, dev, name);
    CountProdConcat(prod + dev, opt, name);
    CountProdConcat(prod + dev + opt, peer, name);
    var i := KeyIndex(m.optionalDependencies.value, name);
    assert (name, range) in m.optionalDependencies.value by {
      assert m.optionalDependencies.value[i] == (name, range);
    }
    CollectIncludes(m.optionalDependencies.value, Prod, _ => true, _ => false, isRegistry, (name, range));
  }

  // ------------------------------------------------- specifier resolution

  /** What `resolveSpecifier` accepts: an exact `{name, version}` pair or a
      parsed specifier. */
  datatype Resolvable = Exact(name: string, version: string) | Parsed(spec: Specifier.Spec)

  function NameOf(input: Resolvable): string {
    match input
    case Exact(name, _) => name
    case Parsed(spec) => spec.name
  }

  /** The cached resolution; a `None` version is the `null` the callback
      returns when nothing matched. */
  datatype Resolution = Resolution(name: string, version: Option<string>)

  /** A resolution together with the packument when this call fetched it. */
  datatype Resolved = Resolved(name: string, version: Option<string>, pkg: Option<Packument>)

  datatype ResolveCall = ResolveCall(
    result: Result<Resolved, Failure>,
    store: Option<ServerCommon.Store<Resolution>>,
    fetches: nat)

  function SpecifierKey(name: string, fetchSpec: string): (k: string)
    ensures StartsWith(k, "specifier:")
  {
    "specifier:" + name + "@" + fetchSpec
  }

  const SpecifierTtl := 300
  const SpecifierShape := 1

  /** The callback's answer for a packument fetch outcome. */
  function ResolutionOf(spec: Specifier.Spec, registry: FetchOutcome, libs: Libs): Result<Resolution, Failure> {
    match GetPackument(registry)
    case Err(e) => Err(e)
    case Ok(p) => Ok(Resolution(spec.name, Specifier.Resolve(spec, p.distTags, Keys(p.versions), libs.satisfies, libs.lte)))
  }

  /** `resolveSpecifier(specifier, platform)`. `registry` is what fetching
      the packument would yield; `fetches` counts the fetches made. */
  function ResolveSpecifier(store: Option<ServerCommon.Store<Resolution>>, input: Resolvable,
                            registry: FetchOutcome, libs: Libs): (c: ResolveCall)
    // exact versions pass through without the cache or the registry
    ensures input.Exact? ==> c == ResolveCall(Ok(Resolved(input.name, Some(input.version), None)), store, 0)
    ensures input.Parsed? && input.spec.kind == Specifier.VersionKind ==>
              c == ResolveCall(Ok(Resolved(input.spec.name, Some(input.spec.fetchSpec), None)), store, 0)
    ensures c.fetches <= 1
    // a fresh cached resolution answers without a fetch
    ensures input.Parsed? && input.spec.kind != Specifier.VersionKind && store.Some? &&
            ServerCommon.Fresh(store.value, SpecifierKey(input.spec.name, input.spec.fetchSpec), SpecifierShape) ==>
              var e := store.value[SpecifierKey(input.spec.name, input.spec.fetchSpec)].value;
              c == ResolveCall(Ok(Resolved(e.name, e.version, None)), store, 0)
    // otherwise the packument is fetched once and the resolution decided:
    // a fetched packument is resolved and the decision stored, a failed
    // fetch is mapped to its error and nothing is stored
    ensures input.Parsed? && input.spec.kind != Specifier.VersionKind &&
            !(store.Some? && ServerCommon.Fresh(store.value, SpecifierKey(input.spec.name, input.spec.fetchSpec), SpecifierShape)) ==>
              && c.fetches == 1
              && (registry.Fetched? ==>
                    var p := registry.packument;
                    var v := Specifier.Resolve(input.spec, p.distTags, Keys(p.versions), libs.satisfies, libs.lte);
                    && c.result == Ok(Resolved(input.spec.name, v, Some(p)))
                    && (store.Some? ==> c.store == Some(store.value[SpecifierKey(input.spec.name, input.spec.fetchSpec) :=
                                                          ServerCommon.Entry(SpecifierShape, Resolution(input.spec.name, v), SpecifierTtl)])))
              && (registry.FetchFailed? ==> c.result == Err(GetPackument(registry).error) && c.store == store)
  {
    match input
    case Exact(name, version) => ResolveCall(Ok(Resolved(name, Some(version), None)), store, 0)
    case Parsed(spec) =>
      if spec.kind == Specifier.VersionKind then
        ResolveCall(Ok(Resolved(spec.name, Some(spec.fetchSpec), None)), store, 0)
      else
        var call := ServerCommon.Cached(store, SpecifierKey(spec.name, spec.fetchSpec), SpecifierTtl, SpecifierShape,
                                        false, ResolutionOf(spec, registry, libs));
        var pkg := if call.computed && registry.Fetched? then Some(registry.packument) else None;
        var result := match call.result
                      case Err(e) => Err(e)
                      case Ok(res) => Ok(Resolved(res.name, res.version, pkg));
        ResolveCall(result, call.store, if call.computed then 1 else 0)
  }

  // ------------------------------------------------------ internal package

  /** The cached part of an internal package. Dates are `None` where
      `new Date(...)` would be an invalid date. */
  datatype PackageCore = PackageCore(
    repoURL: Option<string>,
    repoDir: Option<string>,
    homepage: Option<string>,
    deprecated: Option<string>,
    license: Option<string>,
    size: Option<int>,
    publishedAt: Option<int>,
    createdAt: Option<int>,
    updatedAt: Option<int>,
    typesIncluded: bool,
    funding: seq<Funding>,
    dependencies: seq<Dependency>)

  datatype InternalPackage = InternalPackage(name: string, version: string, core: PackageCore)

  /** `${spec.version}`: a null version prints as "null". */
  function VersionText(v: Option<string>): string {
    v.GetOr("null")
  }

  function PkgKey(name: string, version: string): (k: string)
    ensures StartsWith(k, "pkg:")
  {
    "pkg:" + name + "@" + version
  }

  const PkgTtl := 86400
  const PkgShape := 1

  /** `new Date(pkg.time[key])`. */
  function DateOf(time: map<string, string>, key: string, parseDate: string -> Option<int>): Option<int> {
    if key in time then parseDate(time[key]) else None
  }

  /** The cache callback of `getInternalPackage` once it holds the
      packument: the manifest of `version` is projected; a version the
      packument does not list leaves `manifest` undefined and the first
      field read throws. */
  function BuildCore(p: Packument, version: string, libs: Libs): (r: Result<PackageCore, Failure>)
    ensures Lookup(p.versions, version).None? ==> r == Err(TypeError)
    ensures Lookup(p.versions, version).Some? ==>
              var m := Lookup(p.versions, version).value;
              && r.Ok?
              && r.value.dependencies == DependencyList(m, libs.isRegistry)
              && r.value.funding == ParseFunding(m.funding, libs.parseUrl)
              && r.value.typesIncluded == TypesServer.TypesIncluded(m.types, m.exports)
              && r.value.license == m.license
              && r.value.publishedAt == DateOf(p.time, version, libs.parseDate)
  {
    match Lookup(p.versions, version)
    case None => Err(TypeError)
    case Some(m) =>
      Ok(PackageCore(
        if m.repository.Some? then m.repository.value.url else None,
        if m.repository.Some? then m.repository.value.directory else None,
        m.homepage, m.deprecated, m.license, m.unpackedSize,
        DateOf(p.time, version, libs.parseDate),
        DateOf(p.time, "created", libs.parseDate),
        DateOf(p.time, "modified", libs.parseDate),
        TypesServer.TypesIncluded(m.types, m.exports),
        ParseFunding(m.funding, libs.parseUrl),
        DependencyList(m, libs.isRegistry)))
  }

  datatype PackageCall = PackageCall(
    result: Result<InternalPackage, Failure>,
    specStore: Option<ServerCommon.Store<Resolution>>,
    pkgStore: Option<ServerCommon.Store<PackageCore>>,
    fetches: nat)

  /** `getInternalPackage(specifier, platform)`: resolve, then read or build
      the cached core under `pkg:<name>@<version>`. The two stores are the
      same KV namespace; their key prefixes are disjoint. */
  function GetInternalPackage(specStore: Option<ServerCommon.Store<Resolution>>,
                              pkgStore: Option<ServerCommon.Store<PackageCore>>,
                              input: Resolvable, registry: FetchOutcome, libs: Libs): (c: PackageCall)
    // the packument is fetched at most once per call
    ensures c.fetches <= 1
    ensures input.Exact? && c.result.Ok? ==> c.result.value.name == input.name && c.result.value.version == input.version
    // an exact version whose core is cached needs no registry request
    ensures input.Exact? && pkgStore.Some? && ServerCommon.Fresh(pkgStore.value, PkgKey(input.name, input.version), PkgShape) ==>
              && c.fetches == 0
              && c.result == Ok(InternalPackage(input.name, input.version, pkgStore.value[PkgKey(input.name, input.version)].value))
    // a built core is stored under its key
    ensures input.Exact? && pkgStore.Some? && c.result.Ok? ==>
              && c.pkgStore.Some?
              && PkgKey(input.name, input.version) in c.pkgStore.value
              && c.pkgStore.value[PkgKey(input.name, input.version)].value == c.result.value.core
    // an exact version with no fresh core is built from one packument fetch;
    // a failed fetch or a version the packument lacks is the call's error
    ensures input.Exact? && !(pkgStore.Some? && ServerCommon.Fresh(pkgStore.value, PkgKey(input.name, input.version), PkgShape)) ==>
              && c.fetches == 1
              && (GetPackument(registry).Err? ==> c.result == Err(GetPackument(registry).error) && c.pkgStore == pkgStore)
              && (GetPackument(registry).Ok? ==>
                    var built := BuildCore(GetPackument(registry).value, input.version, libs);
                    && (built.Ok? ==> c.result == Ok(InternalPackage(input.name, input.version, built.value)))
                    && (built.Err? ==> c.result == Err(built.error) && c.pkgStore == pkgStore))
    // for any specifier, a failed resolution is the call's error
    ensures ResolveSpecifier(specStore, input, registry, libs).result.Err? ==>
              c.result == Err(ResolveSpecifier(specStore, input, registry, libs).result.error) && c.pkgStore == pkgStore
    // otherwise the package carries the resolved name and version
    ensures c.result.Ok? ==>
              var spec := ResolveSpecifier(specStore, input, registry, libs).result;
              && spec.Ok?
              && c.result.value.name == spec.value.name
              && c.result.value.version == VersionText(spec.value.version)
  {
    var r := ResolveSpecifier(specStore, input, registry, libs);
    match r.result
    case Err(e) => PackageCall(Err(e), r.store, pkgStore, r.fetches)
    case Ok(spec) =>
      var version := VersionText(spec.version);
      var packument := if spec.pkg.Some? then Ok(spec.pkg.value) else GetPackument(registry);
      var compute := match packument
                     case Err(e) => Err(e)
                     case Ok(p) => BuildCore(p, version, libs);
      var call := ServerCommon.Cached(pkgStore, PkgKey(spec.name, version), PkgTtl, PkgShape, false, compute);
      var result := match call.result
                    case Err(e) => Err(e)
                    case Ok(core) => Ok(InternalPackage(spec.name, version, core));
      PackageCall(result, r.store, call.store,
                  r.fetches + (if call.computed && spec.pkg.None? then 1 else 0))
  }

  /** Once an exact version has been assembled, asking again is answered
      from the cache with no registry request, whatever the registry would
      now say. */
  lemma SecondLookupIsCached(specStore: Option<ServerCommon.Store<Resolution>>,
                             pkgStore: Option<ServerCommon.Store<PackageCore>>,
                             name: string, version: string,
                             registry: FetchOutcome, later: FetchOutcome, libs: Libs)
    requires pkgStore.Some?
    requires GetInternalPackage(specStore, pkgStore, Exact(name, version), registry, libs).result.Ok?
    ensures var first := GetInternalPackage(specStore, pkgStore, Exact(name, version), registry, libs);
            var second := GetInternalPackage(first.specStore, first.pkgStore, Exact(name, version), later, libs);
            && second.fetches == 0
            && second.result == first.result
  {
  }

  // ------------------------------------------------------- version summary

  datatype VersionSummary = VersionSummary(
    version: string,
    deprecated: bool,
    license: Option<string>,
    size: Option<int>,
    publishedAt: Option<int>)

  /** `!!pkv.deprecated`. */
  predicate IsDeprecated(m: Manifest) {
    m.deprecated.Some? && m.deprecated.value != ""
  }

  /** `Object.values(pkg.versions).map(...)`. */
  function Summaries(p: Packument, parseDate: string -> Option<int>): (r: seq<VersionSummary>)
    ensures |r| == |p.versions|
    ensures forall i :: 0 <= i < |r| ==>
              && r[i].version == p.versions[i].1.version
              && (r[i].deprecated <==> IsDeprecated(p.versions[i].1))
              && r[i].license == p.versions[i].1.license
              && r[i].publishedAt == DateOf(p.time, p.versions[i].1.version, parseDate)
  {
    seq(|p.versions|, i requires 0 <= i < |p.versions| =>
      var m := p.versions[i].1;
      VersionSummary(m.version, IsDeprecated(m), m.license, m.unpackedSize, DateOf(p.time, m.version, parseDate)))
  }

  function VersionsKey(name: string): (k: string)
    ensures StartsWith(k, "versions:")
  {
    "versions:" + name
  }

  const VersionsTtl := 300
  const VersionsShape := 1

  datatype VersionsCall = VersionsCall(
    result: Result<seq<VersionSummary>, Failure>,
    specStore: Option<ServerCommon.Store<Resolution>>,
    versionsStore: Option<ServerCommon.Store<seq<VersionSummary>>>,
    fetches: nat)

  /** `getInternalPackageVersions(specifier, platform, force)`. */
  function GetInternalPackageVersions(specStore: Option<ServerCommon.Store<Resolution>>,
                                      versionsStore: Option<ServerCommon.Store<seq<VersionSummary>>>,
                                      input: Resolvable, force: bool, registry: FetchOutcome, libs: Libs): (c: VersionsCall)
    ensures c.fetches <= 1
    // forcing always rebuilds from the registry, for an exact version
    // without consulting the cache
    ensures input.Exact? && force && versionsStore.Some? && registry.Fetched? ==>
              && c.fetches == 1
              && c.result == Ok(Summaries(registry.packument, libs.parseDate))
              && c.versionsStore == Some(versionsStore.value[VersionsKey(input.name) :=
                   ServerCommon.Entry(VersionsShape, Summaries(registry.packument, libs.parseDate), VersionsTtl)])
    ensures input.Exact? && !force && versionsStore.Some? && ServerCommon.Fresh(versionsStore.value, VersionsKey(input.name), VersionsShape) ==>
              && c.fetches == 0
              && c.result == Ok(versionsStore.value[VersionsKey(input.name)].value)
  {
    var r := ResolveSpecifier(specStore, input, registry, libs);
    match r.result
    case Err(e) => VersionsCall(Err(e), r.store, versionsStore, r.fetches)
    case Ok(spec) =>
      var packument := if spec.pkg.Some? then Ok(spec.pkg.value) else GetPackument(registry);
      var compute := match packument
                     case Err(e) => Err(e)
                     case Ok(p) => Ok(Summaries(p, libs.parseDate));
      var call := ServerCommon.Cached(versionsStore, VersionsKey(spec.name), VersionsTtl, VersionsShape, force, compute);
      VersionsCall(call.result, r.store, call.store,
                   r.fetches + (if call.computed && spec.pkg.None? then 1 else 0))
  }

  /** The three caches of this file share one key/value namespace but
      never one key: their prefixes already differ in the first
      character. */
  lemma {:induction false} KeySpacesDisjoint(name1: string, fetchSpec: string, name2: string, version: string, name3: string)
    ensures SpecifierKey(name1, fetchSpec) != PkgKey(name2, version)
    ensures PkgKey(name2, version) != VersionsKey(name3)
    ensures SpecifierKey(name1, fetchSpec) != VersionsKey(name3)
  {
    assert SpecifierKey(name1, fetchSpec)[0] == 's';
    assert PkgKey(name2, version)[0] == 'p';
    assert VersionsKey(name3)[0] == 'v';
  }
}

=== FILE: package_score.dfy ===
/** The per-version score of src/lib/data/package-score.remote.ts: a readme
    probe, the changelog source, built-in types and a license, each scored
    against the criteria table. */
module PackageScore {
  import opened Wrappers
  import opened Strings
  import Scores
  import Changelog
  import ServerPackage
  import ServerCommon

  /** The points per criterion; `readme` is `None` when the probe request
      itself failed, and `provenance` is always `None`. */
  datatype ScoreResults = ScoreResults(
    readme: Option<nat>,
    changelog: nat,
    types: nat,
    license: nat,
    provenance: Option<nat>)

  /** `fetchREADME(pkg)`: `probe` is the `ok` flag of the response, `None`
      when the request threw. */
  function FetchReadme(probe: Option<bool>): (r: Option<nat>)
    ensures r.None? <==> probe.None?
    ensures r.Some? ==> (r.value == 1 <==> probe.value) && r.value <= 1
  {
    match probe
    case None => None
    case Some(ok) => Some(if ok then 1 else 0)
  }

  /** The record the cache callback returns for a package, its changelog
      and the readme probe. */
  function Score(pkg: ServerPackage.InternalPackage, changelog: Option<Changelog.PackageChangelog>,
                 probe: Option<bool>): (s: ScoreResults)
    ensures s.readme == FetchReadme(probe)
    ensures s.changelog == 2 <==> changelog.Some? && changelog.value.source == Changelog.NpmSource
    ensures s.changelog == 0 <==> changelog.None?
    ensures s.types == 1 <==> pkg.core.typesIncluded
    ensures s.license == 1 <==> pkg.core.license.Some? && pkg.core.license.value != ""
    ensures s.provenance.None?
  {
    ScoreResults(
      FetchReadme(probe),
      if changelog.None? then 0 else if changelog.value.source == Changelog.NpmSource then 2 else 1,
      if pkg.core.typesIncluded then 1 else 0,
      if pkg.core.license.Some? && pkg.core.license.value != "" then 1 else 0,
      None)
  }

  /** The points a record gives a criterion (`None` for an unknown readme). */
  function ValueOf(s: ScoreResults, id: Scores.CriteriaId): Option<nat> {
    match id
    case ReadmeId => s.readme
    case ChangelogId => Some(s.changelog)
    case TypesId => Some(s.types)
    case LicenseId => Some(s.license)
  }

  /** No criterion is ever scored above the maximum the table gives it. */
  lemma WithinCriteria(pkg: ServerPackage.InternalPackage, changelog: Option<Changelog.PackageChangelog>,
                       probe: Option<bool>, id: Scores.CriteriaId)
    ensures ValueOf(Score(pkg, changelog, probe), id).Some? ==>
              ValueOf(Score(pkg, changelog, probe), id).value <= Scores.MaxOf(id)
  {
  }

  /** A package with a readme, an npm changelog, built-in types and a
      license reaches the table's total. */
  lemma FullMarks(pkg: ServerPackage.InternalPackage, content: string)
    requires pkg.core.typesIncluded && pkg.core.license.Some? && pkg.core.license.value != ""
    ensures var s := Score(pkg, Some(Changelog.PackageChangelog(Changelog.NpmSource, content)), Some(true));
            s.readme.value + s.changelog + s.types + s.license == Scores.TotalMax()
  {
  }

  function ScoreKey(name: string, version: string): (k: string)
    ensures StartsWith(k, "score:")
  {
    "score:" + name + "@" + version
  }

  const ScoreTtl := 600

  /** What the score depends on: the package lookup and the changelog
      lookup, either of which can throw. */
  datatype ScoreFailure = PackageFailed | ChangelogFailed

  /** `getPackageScore({ name, version })`: the record kept ten minutes
      under `score:<name>@<version>`. The cache call passes no shape
      version, so stored and expected versions are both absent
      (`ServerCommon.Unversioned`). */
  function GetPackageScore(store: Option<ServerCommon.Store<ScoreResults>>, name: string, version: string,
                           pkg: Result<ServerPackage.InternalPackage, ()>,
                           changelog: Result<Option<Changelog.PackageChangelog>, ()>,
                           probe: Option<bool>): (c: ServerCommon.CacheCall<ScoreResults, ScoreFailure>)
    ensures store.Some? && ServerCommon.Fresh(store.value, ScoreKey(name, version), ServerCommon.Unversioned) ==>
              c.result == Ok(store.value[ScoreKey(name, version)].value) && !c.computed
    ensures c.computed ==>
              && (pkg.Err? ==> c.result == Err(PackageFailed))
              && (pkg.Ok? && changelog.Err? ==> c.result == Err(ChangelogFailed))
              && (pkg.Ok? && changelog.Ok? ==> c.result == Ok(Score(pkg.value, changelog.value, probe)))
    // without a fresh entry the score is computed; a success is kept for
    // ten minutes, a failure leaves the store alone
    ensures !(store.Some? && ServerCommon.Fresh(store.value, ScoreKey(name, version), ServerCommon.Unversioned)) ==>
              c.computed
    ensures store.Some? && c.computed && c.result.Ok? ==>
              c.store == Some(store.value[ScoreKey(name, version) :=
                                ServerCommon.Entry(ServerCommon.Unversioned, c.result.value, ScoreTtl)])
    ensures c.result.Err? ==> c.store == store
  {
    var computed :=
      match pkg
      case Err(_) => Err(PackageFailed)
      case Ok(p) =>
        match changelog
        case Err(_) => Err(ChangelogFailed)
        case Ok(ch) => Ok(Score(p, ch, probe));
    ServerCommon.Cached(store, ScoreKey(name, version), ScoreTtl, ServerCommon.Unversioned, false, computed)
  }
}

=== FILE: scores.dfy ===
/** The score criteria table of src/lib/data/scores.ts. */
module Scores {

  /** The identifiers of the criteria; provenance is not one of them. */
  datatype CriteriaId = ReadmeId | ChangelogId | TypesId | LicenseId

  datatype Criterion = Criterion(id: string, name: string, max: nat)

  const Criteria: seq<Criterion> := [
    Criterion("readme", "Has a readme", 1),
    Criterion("changelog", "Has a changelog", 2),
    Criterion("types", "Has type definitions", 1),
    Criterion("license", "Has a license", 1)
  ]

  function IdText(id: CriteriaId): string {
    match id
    case ReadmeId => "readme"
    case ChangelogId => "changelog"
    case TypesId => "types"
    case LicenseId => "license"
  }

  /** The position of a criterion in the table. */
  function Position(id: CriteriaId): (i: nat)
    ensures i < |Criteria| && Criteria[i].id == IdText(id)
  {
    match id
    case ReadmeId => 0
    case ChangelogId => 1
    case TypesId => 2
    case LicenseId => 3
  }

  /** The most points a criterion awards. */
  function MaxOf(id: CriteriaId): (m: nat)
    ensures m == Criteria[Position(id)].max
    ensures 1 <= m <= 2
  {
    Criteria[Position(id)].max
  }

  /** Each identifier names exactly one row, every row is named by one, and
      provenance is not a criterion. */
  lemma TableIsKeyedById()
    ensures forall i, j :: 0 <= i < j < |Criteria| ==> Criteria[i].id != Criteria[j].id
    ensures forall i :: 0 <= i < |Criteria| ==> exists id :: Position(id) == i && Criteria[i].id == IdText(id)
    ensures forall id1, id2 :: Position(id1) == Position(id2) ==> id1 == id2
    ensures forall i :: 0 <= i < |Criteria| ==> Criteria[i].id != "provenance"
  {
    assert Position(ReadmeId) == 0 && Position(ChangelogId) == 1 && Position(TypesId) == 2 && Position(LicenseId) == 3;
  }

  /** The highest total a package can reach. */
  function TotalMax(): (t: nat)
    ensures t == MaxOf(ReadmeId) + MaxOf(ChangelogId) + MaxOf(TypesId) + MaxOf(LicenseId)
    ensures t == 5
  {
    SumMax(Criteria)
  }

  function SumMax(cs: seq<Criterion>): nat {
    if |cs| == 0 then 0 else cs[0].max + SumMax(cs[1..])
  }
}

=== FILE: search.dfy ===
/** Registry search as src/lib/data/search.remote.ts runs it: one page of a
    text search, and the listing of every package an author maintains,
    which pages through the search endpoint. The registry's answer to a
    request is a function of the request: the response, or `Err` where
    `registry` throws, which it does for a failed request once its three
    retries are spent (with the HTTP status when a response came back). */
module Search {
  import opened Wrappers
  import opened Strings

  /** The query parameters of a `/-/v1/search` request. */
  datatype SearchRequest = SearchRequest(text: string, size: int, from: int)

  /** A search hit; only the package it carries is modelled. */
  datatype SearchObject<P> = SearchObject(package: P)

  datatype SearchResponse<P> = SearchResponse(objects: seq<SearchObject<P>>, total: int)

  /** How the registry answers a search request. */
  type Registry<P> = SearchRequest -> Result<SearchResponse<P>, Option<int>>

  datatype PageResult<P> = PageResult(done: bool, total: int, results: seq<SearchObject<P>>)

  /** One search call: its result and the requests it made. */
  datatype SearchCall<P> = SearchCall(result: Result<PageResult<P>, Option<int>>, requests: seq<SearchRequest>)

  const SearchBatchSize := 20
  const AuthorBatchSize := 250

  /** `searchRegistry({ query, from })`. `from` is an integer, so `from || 0`
      is `from` itself. */
  function SearchRegistry<P>(query: string, from: int, respond: Registry<P>): (c: SearchCall<P>)
    ensures query == "" <==> c.requests == []
    ensures query == "" ==> c.result == Ok(PageResult(true, 0, []))
    ensures query != "" ==>
              var req := SearchRequest(query, SearchBatchSize, from);
              && c.requests == [req]
              && (c.result.Ok? <==> respond(req).Ok?)
              && (respond(req).Err? ==> c.result == Err(respond(req).error))
              && (respond(req).Ok? ==>
                    && c.result.value.results == respond(req).value.objects
                    && c.result.value.total == respond(req).value.total
                    && (c.result.value.done <==> |respond(req).value.objects| % SearchBatchSize != 0))
  {
    if |query| == 0 then SearchCall(Ok(PageResult(true, 0, [])), [])
    else
      var req := SearchRequest(query, SearchBatchSize, if from != 0 then from else 0);
      match respond(req)
      case Err(status) => SearchCall(Err(status), [req])
      case Ok(data) => SearchCall(Ok(PageResult(|data.objects| % SearchBatchSize != 0, data.total, data.objects)), [req])
  }

  /** A full page never reports the end, a short one always does, and an
      empty page (the one after an exact multiple of the page size) does
      not either. */
  lemma DoneMeansShortPage<P>(query: string, from: int, respond: Registry<P>)
    requires query != "" && respond(SearchRequest(query, SearchBatchSize, from)).Ok?
    ensures var objects := respond(SearchRequest(query, SearchBatchSize, from)).value.objects;
            var c := SearchRegistry(query, from, respond);
            && (|objects| == SearchBatchSize ==> !c.result.value.done)
            && (0 < |objects| < SearchBatchSize ==> c.result.value.done)
            && (|objects| == 0 ==> !c.result.value.done)
  {
  }

  function AuthorRequest(author: string, from: int): SearchRequest {
    SearchRequest("maintainer:" + author, AuthorBatchSize, from)
  }

  function Packages<P>(objects: seq<SearchObject<P>>): (ps: seq<P>)
    ensures |ps| == |objects|
    ensures forall i :: 0 <= i < |objects| ==> ps[i] == objects[i].package
  {
    if |objects| == 0 then [] else [objects[0].package] + Packages(objects[1..])
  }

  /** How a listing ends: with the packages, with a failed request (the
      whole listing is lost), or not within the passes allowed. */
  datatype Listing<P> = Listed(packages: seq<P>) | RequestFailed(status: Option<int>) | StillRunning

  /** The `do … while` loop of `listAuthorPackages` as written, given `fuel`
      more passes: each pass requests the page starting at the number of
      packages gathered so far and appends its packages; the loop goes on
      while that number is a multiple of 250. A failed request ends the
      listing with its failure. */
  function AuthorLoop<P>(author: string, acc: seq<P>, respond: Registry<P>, fuel: nat): (r: Listing<P>)
    ensures r.Listed? ==> |r.packages| % AuthorBatchSize != 0 && |acc| <= |r.packages| && r.packages[..|acc|] == acc
    // the first request failing fails the listing, and a listing fails only
    // through a failed request
    ensures fuel > 0 && respond(AuthorRequest(author, |acc|)).Err? ==>
              r == RequestFailed(respond(AuthorRequest(author, |acc|)).error)
    ensures r.RequestFailed? ==> exists from :: respond(AuthorRequest(author, from)) == Err(r.status)
    decreases fuel
  {
    if fuel == 0 then StillRunning
    else
      match respond(AuthorRequest(author, |acc|))
      case Err(status) => RequestFailed(status)
      case Ok(page) =>
        var acc' := acc + Packages(page.objects);
        assert acc'[..|acc|] == acc;
        if |acc'| % AuthorBatchSize == 0 then
          var r := AuthorLoop(author, acc', respond, fuel - 1);
          assert r.Listed? ==> r.packages[..|acc|] == r.packages[..|acc'|][..|acc|];
          r
        else Listed(acc')
  }

  /** `listAuthorPackages(author)` as written, within `fuel` passes. */
  function ListAuthorPackages<P>(author: string, respond: Registry<P>, fuel: nat): (r: Listing<P>)
    ensures r.Listed? ==> |r.packages| % AuthorBatchSize != 0
    ensures fuel > 0 && respond(AuthorRequest(author, 0)).Err? ==>
              r == RequestFailed(respond(AuthorRequest(author, 0)).error)
    ensures r.RequestFailed? ==> exists from :: respond(AuthorRequest(author, from)) == Err(r.status)
  {
    AuthorLoop(author, [], respond, fuel)
  }

  /** The request for the page at `from` succeeds with that page of the
      author's packages `all`. */
  ghost predicate PageServed<P>(respond: Registry<P>, author: string, all: seq<P>, from: nat) {
    && respond(AuthorRequest(author, from)).Ok?
    && var objects := respond(AuthorRequest(author, from)).value.objects;
    && |objects| == (if from >= |all| then 0 else if from + AuthorBatchSize <= |all| then AuthorBatchSize else |all| - from)
    && forall i :: 0 <= i < |objects| ==> objects[i].package == all[from + i]
  }

  /** The registry holds exactly the packages `all` for the author and
      serves them page by page. */
  ghost predicate Serves<P>(respond: Registry<P>, author: string, all: seq<P>) {
    forall from: nat :: PageServed(respond, author, all, from)
  }

  /** One pass that is served its page extends a prefix of the list by the
      next page. */
  lemma NextPage<P>(respond: Registry<P>, author: string, all: seq<P>, acc: seq<P>)
    requires PageServed(respond, author, all, |acc|)
    requires |acc| <= |all| && acc == all[..|acc|]
    ensures var page := Packages(respond(AuthorRequest(author, |acc|)).value.objects);
            var n := if |acc| + AuthorBatchSize <= |all| then |acc| + AuthorBatchSize else |all|;
            acc + page == all[..n]
  {
    var from: nat := |acc|;
    var objects := respond(AuthorRequest(author, from)).value.objects;
    var page := Packages(objects);
    var n := if |acc| + AuthorBatchSize <= |all| then |acc| + AuthorBatchSize else |all|;
    assert |objects| == n - |acc|;
    assert forall i :: 0 <= i < |page| ==> page[i] == all[from + i];
    assert acc + page == all[..n];
  }

  /** Against a registry that serves the list faithfully, the loop as
      written returns the whole list when its length is not a multiple of
      250, and never stops when it is (an author with no packages
      included). */
  lemma {:induction false} AuthorLoopOnRegistry<P>(respond: Registry<P>, author: string,
                                                   all: seq<P>, acc: seq<P>, fuel: nat)
    requires Serves(respond, author, all)
    requires |acc| <= |all| && acc == all[..|acc|] && |acc| % AuthorBatchSize == 0
    ensures |all| % AuthorBatchSize == 0 ==> AuthorLoop(author, acc, respond, fuel) == StillRunning
    ensures |all| % AuthorBatchSize != 0 && fuel > (|all| - |acc|) / AuthorBatchSize ==>
              AuthorLoop(author, acc, respond, fuel) == Listed(all)
    decreases fuel
  {
    if fuel > 0 {
      NextPage(respond, author, all, acc);
      var acc' := acc + Packages(respond(AuthorRequest(author, |acc|)).value.objects);
      if |acc| + AuthorBatchSize <= |all| {
        assert |acc'| == |acc| + AuthorBatchSize;
        assert acc' == all[..|acc'|];
        AuthorLoopOnRegistry(respond, author, all, acc', fuel - 1);
      } else {
        assert acc' == all;
        if |all| % AuthorBatchSize == 0 {
          AuthorLoopOnRegistry(respond, author, all, acc', fuel - 1);
        }
      }
    }
  }

  /** A request that fails part-way through the listing loses every page
      gathered before it: the listing ends with that failure. */
  lemma {:induction false} FailurePartWayLosesList<P>(respond: Registry<P>, author: string, all: seq<P>,
                                                      acc: seq<P>, stop: nat, fuel: nat)
    requires forall from: nat :: from < stop ==> PageServed(respond, author, all, from)
    requires respond(AuthorRequest(author, stop)).Err?
    requires stop <= |all| && stop % AuthorBatchSize == 0
    requires |acc| <= stop && acc == all[..|acc|] && |acc| % AuthorBatchSize == 0
    requires fuel > (stop - |acc|) / AuthorBatchSize
    ensures AuthorLoop(author, acc, respond, fuel) == RequestFailed(respond(AuthorRequest(author, stop)).error)
    decreases fuel
  {
    if |acc| < stop {
      assert |acc| + AuthorBatchSize <= stop by {
        assert |acc| == AuthorBatchSize * (|acc| / AuthorBatchSize);
        assert stop == AuthorBatchSize * (stop / AuthorBatchSize);
        assert |acc| / AuthorBatchSize < stop / AuthorBatchSize;
      }
      NextPage(respond, author, all, acc);
      var acc' := acc + Packages(respond(AuthorRequest(author, |acc|)).value.objects);
      assert |acc'| == |acc| + AuthorBatchSize;
      assert acc' == all[..|acc'|];
      FailurePartWayLosesList(respond, author, all, acc', stop, fuel - 1);
    }
  }

  /** An author with no packages: the loop as written runs out of any fuel,
      requesting the first page again and again. */
  lemma NoPackagesNeverEnds<P>(author: string, respond: Registry<P>, fuel: nat)
    requires forall req :: respond(req).Ok? && respond(req).value.objects == []
    ensures ListAuthorPackages(author, respond, fuel) == StillRunning
  {
    AuthorLoopOnRegistry(respond, author, [], [], fuel);
  }

  /** The loop with the evidently intended exit: stop after the first page
      that is not full. */
  function AuthorLoopFixed<P>(author: string, acc: seq<P>, respond: Registry<P>, fuel: nat): (r: Listing<P>)
    ensures r.Listed? ==> |acc| <= |r.packages| && r.packages[..|acc|] == acc
    ensures fuel > 0 && respond(AuthorRequest(author, |acc|)).Err? ==>
              r == RequestFailed(respond(AuthorRequest(author, |acc|)).error)
    decreases fuel
  {
    if fuel == 0 then StillRunning
    else
      match respond(AuthorRequest(author, |acc|))
      case Err(status) => RequestFailed(status)
      case Ok(page) =>
        var acc' := acc + Packages(page.objects);
        assert acc'[..|acc|] == acc;
        if |page.objects| == AuthorBatchSize then
          var r := AuthorLoopFixed(author, acc', respond, fuel - 1);
          assert r.Listed? ==> r.packages[..|acc|] == r.packages[..|acc'|][..|acc|];
          r
        else Listed(acc')
  }

  function ListAuthorPackagesFixed<P>(author: string, respond: Registry<P>, fuel: nat): (r: Listing<P>)
  {
    AuthorLoopFixed(author, [], respond, fuel)
  }

  /** The corrected loop returns the author's whole list, whatever its
      length, within one pass per page plus one. */
  lemma {:induction false} AuthorLoopFixedOnRegistry<P>(respond: Registry<P>, author: string,
                                                        all: seq<P>, acc: seq<P>, fuel: nat)
    requires Serves(respond, author, all)
    requires |acc| <= |all| && acc == all[..|acc|] && |acc| % AuthorBatchSize == 0
    requires fuel > (|all| - |acc|) / AuthorBatchSize
    ensures AuthorLoopFixed(author, acc, respond, fuel) == Listed(all)
    decreases fuel
  {
    NextPage(respond, author, all, acc);
    var acc' := acc + Packages(respond(AuthorRequest(author, |acc|)).value.objects);
    if |acc| + AuthorBatchSize <= |all| {
      assert |acc'| == |acc| + AuthorBatchSize;
      assert acc' == all[..|acc'|];
      AuthorLoopFixedOnRegistry(respond, author, all, acc', fuel - 1);
    } else {
      assert acc' == all;
    }
  }

  /** The corrected listing is complete for every author. */
  lemma FixedListsEverything<P>(respond: Registry<P>, author: string, all: seq<P>)
    requires Serves(respond, author, all)
    ensures ListAuthorPackagesFixed(author, respond, |all| / AuthorBatchSize + 1) == Listed(all)
  {
    AuthorLoopFixedOnRegistry(respond, author, all, [], |all| / AuthorBatchSize + 1);
  }
}

=== FILE: semver.dfy ===
/** Semantic versions as `major.minor.patch` triples with their precedence
    order. Pre-release tags and build metadata are not modelled. */
module SemVer {
  import Sorting

  datatype Version = Version(major: nat, minor: nat, patch: nat)

  /** `semver.lte(a, b)`: `a` has lower or equal precedence. */
  predicate Lte(a: Version, b: Version) {
    || a.major < b.major
    || (a.major == b.major && a.minor < b.minor)
    || (a.major == b.major && a.minor == b.minor && a.patch <= b.patch)
  }

  /** `semver.compare(a, b)`: -1, 0 or 1. */
  function Compare(a: Version, b: Version): (c: int)
    ensures c == 0 <==> a == b
    ensures c <= 0 <==> Lte(a, b)
    ensures c >= 0 <==> Lte(b, a)
  {
    if a == b then 0 else if Lte(a, b) then -1 else 1
  }

  lemma LteTotalPreorder()
    ensures Sorting.TotalPreorder(Lte)
    ensures Sorting.TotalPreorder((a: Version, b: Version) => Lte(b, a))
  {
  }
}

=== FILE: server_common.dfy ===
/** The server-side key/value cache over Cloudflare KV with value versioning
    and forced refresh, and the URL filter used when normalising funding
    links (src/lib/server/common.ts). */
module ServerCommon {
  import opened Wrappers
  import opened Strings

  /** What is stored under a key: the shape version, the value and the
      time-to-live in seconds handed to the store. The store itself expires
      entries; a key absent from the map is an expired or never-written one.
      The value round-trips through `devalue` unchanged. */
  datatype Entry<T> = Entry(version: int, value: T, ttl: int)

  type Store<T> = map<string, Entry<T>>

  /** The outcome word of the log line of one call. */
  datatype Label = Unavailable | Hit | Miss | Force | VersionMiss

  /** One call of `cached`: what it returned or threw, the store afterwards
      (`None` when no store is bound), whether `value()` ran, and the log
      label (`None` when `value()` threw before anything was logged). */
  datatype CacheCall<T, E> = CacheCall(
    result: Result<T, E>,
    store: Option<Store<T>>,
    computed: bool,
    log: Option<Label>)

  /** The shape version of callers that pass none: `undefined` is stored
      and expected alike. */
  const Unversioned := 0

  /** True when the store holds an entry for `key` of the expected version. */
  predicate Fresh<T>(store: Store<T>, key: string, version: int) {
    key in store && store[key].version == version
  }

  /** `cached(o)`: `compute` is what `o.value()` would return or throw if it
      were called; `computed` says whether it was. */
  function Cached<T, E>(
    store: Option<Store<T>>, key: string, ttl: int, version: int,
    force: bool, compute: Result<T, E>): (c: CacheCall<T, E>)
    // with no store bound, value() is the answer and nothing is stored
    ensures store.None? ==> c == CacheCall(compute, None, true, Some(Unavailable))
    // a stored entry of the expected version answers, unless forced
    ensures store.Some? && !force && Fresh(store.value, key, version) ==>
              c == CacheCall(Ok(store.value[key].value), store, false, Some(Hit))
    // otherwise value() runs, its value is written with the version and ttl
    ensures store.Some? && (force || !Fresh(store.value, key, version)) ==>
              && c.computed
              && c.result == compute
              && (compute.Ok? ==> c.store == Some(store.value[key := Entry(version, compute.value, ttl)]))
              && (compute.Err? ==> c.store == store && c.log == None)
    // a stored entry of another version is reported as such; force is only
    // reported when there was no version mismatch to report
    ensures store.Some? && compute.Ok? && !Fresh(store.value, key, version) && !force && key in store.value ==>
              c.log == Some(VersionMiss)
    ensures store.Some? && compute.Ok? && force ==> c.log == Some(Force)
    ensures store.Some? && compute.Ok? && !force && key !in store.value ==> c.log == Some(Miss)
  {
    match store
    case None => CacheCall(compute, None, true, Some(Unavailable))
    case Some(s) =>
      var versionMismatch := !force && key in s && s[key].version != version;
      if !force && key in s && !versionMismatch then
        CacheCall(Ok(s[key].value), store, false, Some(Hit))
      else
        match compute
        case Err(e) => CacheCall(Err(e), store, true, None)
        case Ok(v) =>
          var word := if versionMismatch then VersionMiss else if force then Force else Miss;
          CacheCall(Ok(v), Some(s[key := Entry(version, v, ttl)]), true, Some(word))
  }

  /** Two consecutive unforced calls with the same key and version run
      `value()` at most once: the second is a hit returning the first's
      result and leaves the store as the first left it. */
  lemma CachedTwiceComputesOnce<T, E>(
    store: Option<Store<T>>, key: string, ttl: int, version: int,
    first: Result<T, E>, second: Result<T, E>)
    requires store.Some?
    requires Cached(store, key, ttl, version, false, first).result.Ok?
    ensures var c1 := Cached(store, key, ttl, version, false, first);
            var c2 := Cached(c1.store, key, ttl, version, false, second);
            && !c2.computed
            && c2.result == c1.result
            && c2.store == c1.store
  {
  }

  /** A stored entry of another version behaves exactly like a miss: the
      call returns and stores what it would had the key been absent. */
  lemma VersionMismatchIsMiss<T, E>(
    s: Store<T>, key: string, ttl: int, version: int, force: bool, compute: Result<T, E>)
    requires key in s && s[key].version != version
    ensures var stale := Cached(Some(s), key, ttl, version, force, compute);
            var absent := Cached(Some(s - {key}), key, ttl, version, force, compute);
            && stale.result == absent.result
            && stale.computed == absent.computed
            && (compute.Ok? ==> stale.store == Some(s[key := Entry(version, compute.value, ttl)]))
            && (compute.Ok? ==> absent.store == Some((s - {key})[key := Entry(version, compute.value, ttl)]))
  {
  }

  /** A forced call never reads the store: what is stored under `key` does
      not influence the result or the store afterwards. */
  lemma ForceIgnoresStoredEntry<T, E>(
    s1: Store<T>, s2: Store<T>, key: string, ttl: int, version: int, compute: Result<T, E>)
    requires s1 - {key} == s2 - {key}
    requires compute.Ok?
    ensures var c1 := Cached(Some(s1), key, ttl, version, true, compute);
            var c2 := Cached(Some(s2), key, ttl, version, true, compute);
            c1 == c2
  {
    var e := Entry(version, compute.value, ttl);
    var m1, m2 := s1[key := e], s2[key := e];
    assert m1.Keys == m2.Keys by {
      assert m1.Keys == (s1 - {key}).Keys + {key};
      assert m2.Keys == (s2 - {key}).Keys + {key};
    }
    forall k | k in m1 ensures m1[k] == m2[k] {
      if k != key {
        assert m1[k] == (s1 - {key})[k];
        assert m2[k] == (s2 - {key})[k];
      }
    }
    assert m1 == m2;
  }

  /** A parsed URL: its scheme with the trailing colon (`url.protocol`),
      the authority before the port, the port (`""` when absent or the
      scheme's default), and everything `url.toString()` prints after the
      port. */
  datatype Url = Url(protocol: string, host: string, port: string, tail: string)

  function Href(u: Url): string {
    u.protocol + "//" + u.host + (if u.port == "" then "" else ":" + u.port) + u.tail
  }

  /** Setting `url.protocol`: a port that is the new scheme's default is
      cleared, as the URL standard's protocol setter does. */
  function WithProtocol(u: Url, scheme: string, defaultPort: string): (v: Url)
    ensures v.protocol == scheme && v.host == u.host && v.tail == u.tail
    ensures v.port == "" <==> u.port == "" || u.port == defaultPort
    ensures v.port != "" ==> v.port == u.port
  {
    Url(scheme, u.host, if u.port == defaultPort then "" else u.port, u.tail)
  }

  /** `checkURL(raw)`: `parse` stands for `URL.parse`. Only http and https
      URLs are accepted, and they come back upgraded to https; an explicit
      port 443 on an http URL is then the default and disappears. */
  function CheckUrl(raw: string, parse: string -> Option<Url>): (r: Option<string>)
    ensures parse(raw).None? ==> r.None?
    ensures parse(raw).Some? && parse(raw).value.protocol !in {"http:", "https:"} ==> r.None?
    ensures r.Some? <==> parse(raw).Some? && parse(raw).value.protocol in {"http:", "https:"}
    ensures r.Some? ==> StartsWith(r.value, "https://")
    // any other port, the host and the rest of the URL are kept
    ensures r.Some? && parse(raw).value.port != "443" ==>
              var u := parse(raw).value;
              r.value == "https:" + Href(u)[|u.protocol|..]
    ensures r.Some? && parse(raw).value.port == "443" ==>
              var u := parse(raw).value;
              r.value == "https://" + u.host + u.tail
  {
    match parse(raw)
    case None => None
    case Some(url) =>
      if url.protocol !in {"http:", "https:"} then None
      else Some(Href(WithProtocol(url, "https:", "443")))
  }
}

=== FILE: sorting.dfy ===
/** A stable insertion sort over sequences, parameterised by an ordering,
    standing in for JavaScript's (stable) `Array.prototype.sort` with a
    comparator. */
module Sorting {

  /** `le` is total and transitive: the orderings a comparator can express. */
  ghost predicate TotalPreorder<T(!new)>(le: (T, T) -> bool) {
    && (forall a, b :: le(a, b) || le(b, a))
    && (forall a, b, c :: le(a, b) && le(b, c) ==> le(a, c))
  }

  predicate Sorted<T>(s: seq<T>, le: (T, T) -> bool) {
    forall i, j :: 0 <= i < j < |s| ==> le(s[i], s[j])
  }

  /** Inserts `x` after every element that is not above it. */
  function Insert<T(!new)>(x: T, s: seq<T>, le: (T, T) -> bool): (r: seq<T>)
    requires TotalPreorder(le)
    requires Sorted(s, le)
    ensures Sorted(r, le)
    ensures multiset(r) == multiset(s) + multiset{x}
  {
    if |s| == 0 then [x]
    else if le(s[0], x) then
      var rest := Insert(x, s[1..], le);
      assert s == [s[0]] + s[1..];
      BoundBelow(s[0], rest, s[1..], x, le);
      [s[0]] + rest
    else
      assert le(x, s[0]);
      [x] + s
  }

  /** A lower bound of `x` and of every element of `s` bounds every element
      of a sequence holding exactly those. */
  lemma BoundBelow<T>(a: T, r: seq<T>, s: seq<T>, x: T, le: (T, T) -> bool)
    requires multiset(r) == multiset(s) + multiset{x}
    requires le(a, x) && forall i :: 0 <= i < |s| ==> le(a, s[i])
    ensures forall j :: 0 <= j < |r| ==> le(a, r[j])
  {
    forall j | 0 <= j < |r|
      ensures le(a, r[j])
    {
      assert r[j] in multiset(r);
      if r[j] != x {
        assert r[j] in multiset(s);
        var k :| 0 <= k < |s| && s[k] == r[j];
      }
    }
  }

  /** Sorts `s` so that `le` holds between every earlier and later element. */
  function Sort<T(!new)>(s: seq<T>, le: (T, T) -> bool): (r: seq<T>)
    requires TotalPreorder(le)
    ensures Sorted(r, le)
    ensures multiset(r) == multiset(s)
    ensures |r| == |s|
  {
    if |s| == 0 then []
    else
      var init := s[..|s| - 1];
      assert s == init + [s[|s| - 1]];
      var r := Insert(s[|s| - 1], Sort(init, le), le);
      assert |r| == |multiset(r)| == |multiset(s)| == |s|;
      r
  }

  /** `a` and `b` are tied under `le`: neither comes strictly first. */
  predicate Tied<T>(a: T, b: T, le: (T, T) -> bool) {
    le(a, b) && le(b, a)
  }

  /** The elements of `s` tied with `x`, in their order in `s`. */
  function Ties<T>(s: seq<T>, x: T, le: (T, T) -> bool): (r: seq<T>)
    ensures |r| <= |s|
  {
    if |s| == 0 then [] else (if Tied(s[0], x, le) then [s[0]] else []) + Ties(s[1..], x, le)
  }

  /** Stability: every run of tied elements keeps its order. */
  ghost predicate Stable<T(!new)>(s: seq<T>, r: seq<T>, le: (T, T) -> bool) {
    forall x :: Ties(r, x, le) == Ties(s, x, le)
  }

  lemma {:induction false} TiesConcat<T>(a: seq<T>, b: seq<T>, x: T, le: (T, T) -> bool)
    ensures Ties(a + b, x, le) == Ties(a, x, le) + Ties(b, x, le)
    decreases |a|
  {
    if |a| == 0 {
      assert a + b == b;
    } else {
      var h := if Tied(a[0], x, le) then [a[0]] else [];
      assert (a + b)[0] == a[0] && (a + b)[1..] == a[1..] + b;
      assert Ties(a + b, x, le) == h + Ties(a[1..] + b, x, le);
      TiesConcat(a[1..], b, x, le);
      assert h + (Ties(a[1..], x, le) + Ties(b, x, le)) == (h + Ties(a[1..], x, le)) + Ties(b, x, le);
    }
  }

  /** A sequence none of whose elements is tied with `x` has no ties. */
  lemma {:induction false} NoTies<T>(s: seq<T>, x: T, le: (T, T) -> bool)
    requires forall i :: 0 <= i < |s| ==> !Tied(s[i], x, le)
    ensures Ties(s, x, le) == []
    decreases |s|
  {
    if |s| > 0 {
      NoTies(s[1..], x, le);
    }
  }

  /** Inserting `y` puts it after every element it is tied with. */
  lemma {:induction false} InsertKeepsTies<T(!new)>(y: T, t: seq<T>, x: T, le: (T, T) -> bool)
    requires TotalPreorder(le)
    requires Sorted(t, le)
    ensures Ties(Insert(y, t, le), x, le) == Ties(t, x, le) + Ties([y], x, le)
    decreases |t|, 1
  {
    if |t| == 0 {
    } else if le(t[0], y) {
      InsertAfterHeadKeepsTies(y, t, x, le);
    } else {
      assert Insert(y, t, le) == [y] + t;
      InsertFirstKeepsTies(y, t, x, le);
    }
  }

  /** When `y` goes after the head, the head's ties come first. */
  lemma {:induction false} InsertAfterHeadKeepsTies<T(!new)>(y: T, t: seq<T>, x: T, le: (T, T) -> bool)
    requires TotalPreorder(le)
    requires Sorted(t, le) && |t| > 0 && le(t[0], y)
    ensures Ties(Insert(y, t, le), x, le) == Ties(t, x, le) + Ties([y], x, le)
    decreases |t|, 0
  {
    var rest := Insert(y, t[1..], le);
    assert Insert(y, t, le) == [t[0]] + rest;
    InsertKeepsTies(y, t[1..], x, le);
    assert t == [t[0]] + t[1..];
    ConsKeepsTies(t[0], rest, t[1..], y, x, le);
  }

  /** Putting the same head in front of two sequences keeps a relation
      between their ties. */
  lemma ConsKeepsTies<T>(h: T, rest: seq<T>, tail: seq<T>, y: T, x: T, le: (T, T) -> bool)
    requires Ties(rest, x, le) == Ties(tail, x, le) + Ties([y], x, le)
    ensures Ties([h] + rest, x, le) == Ties([h] + tail, x, le) + Ties([y], x, le)
  {
    var a, m, e := Ties([h], x, le), Ties(tail, x, le), Ties([y], x, le);
    TiesConcat([h], rest, x, le);
    TiesConcat([h], tail, x, le);
    ConcatAssoc(a, m, e);
  }

  lemma ConcatAssoc<T>(a: seq<T>, b: seq<T>, c: seq<T>)
    ensures a + (b + c) == (a + b) + c
  {
  }

  /** When `y` goes in front, whatever is tied with it was not in `t`. */
  lemma InsertFirstKeepsTies<T(!new)>(y: T, t: seq<T>, x: T, le: (T, T) -> bool)
    requires TotalPreorder(le)
    requires Sorted(t, le) && |t| > 0 && !le(t[0], y)
    ensures Ties([y] + t, x, le) == Ties(t, x, le) + Ties([y], x, le)
  {
    TiesConcat([y], t, x, le);
    if Tied(y, x, le) {
      NothingTiedBelow(y, t, x, le);
    } else {
      assert Ties([y], x, le) == [];
    }
  }

  /** When `y` comes strictly before the head of a sorted sequence, nothing
      in it is tied with anything tied with `y`. */
  lemma NothingTiedBelow<T(!new)>(y: T, t: seq<T>, x: T, le: (T, T) -> bool)
    requires TotalPreorder(le)
    requires Sorted(t, le) && |t| > 0 && !le(t[0], y) && Tied(y, x, le)
    ensures Ties(t, x, le) == []
  {
    forall i | 0 <= i < |t|
      ensures !Tied(t[i], x, le)
    {
      if i > 0 {
        assert le(t[0], t[i]);
      }
    }
    NoTies(t, x, le);
  }

  /** The sort is stable. */
  lemma {:induction false} SortIsStable<T(!new)>(s: seq<T>, le: (T, T) -> bool)
    requires TotalPreorder(le)
    ensures Stable(s, Sort(s, le), le)
    decreases |s|
  {
    if |s| > 0 {
      var init, last := s[..|s| - 1], s[|s| - 1];
      assert s == init + [last];
      SortIsStable(init, le);
      forall x
        ensures Ties(Sort(s, le), x, le) == Ties(s, x, le)
      {
        InsertKeepsTies(last, Sort(init, le), x, le);
        TiesConcat(init, [last], x, le);
      }
    }
  }

  /** `s.map(f)`. */
  function Project<A, B>(s: seq<A>, f: A -> B): (r: seq<B>)
    ensures |r| == |s|
  {
    if |s| == 0 then [] else [f(s[0])] + Project(s[1..], f)
  }

  lemma {:induction false} ProjectAt<A, B>(s: seq<A>, f: A -> B)
    ensures forall i :: 0 <= i < |s| ==> Project(s, f)[i] == f(s[i])
    decreases |s|
  {
    if |s| > 0 {
      ProjectAt(s[1..], f);
    }
  }

  lemma {:induction false} ProjectConcat<A, B>(a: seq<A>, b: seq<A>, f: A -> B)
    ensures Project(a + b, f) == Project(a, f) + Project(b, f)
    decreases |a|
  {
    if |a| > 0 {
      assert (a + b)[1..] == a[1..] + b;
      ProjectConcat(a[1..], b, f);
    } else {
      assert a + b == b;
    }
  }

  /** An index at which an element of a sequence sits. */
  lemma IndexIn<T>(x: T, s: seq<T>) returns (k: int)
    requires x in multiset(s)
    ensures 0 <= k < |s| && s[k] == x
  {
    k :| 0 <= k < |s| && s[k] == x;
  }

  /** Removing the element at `k` removes one occurrence of it. */
  lemma RemoveAt<A>(t: seq<A>, k: int)
    requires 0 <= k < |t|
    ensures multiset(t[..k] + t[k + 1..]) == multiset(t) - multiset{t[k]}
  {
    assert t == t[..k] + [t[k]] + t[k + 1..];
  }

  /** Mapping a sequence with one element taken out takes out its image. */
  lemma ProjectRemoveAt<A, B>(t: seq<A>, k: int, f: A -> B)
    requires 0 <= k < |t|
    ensures multiset(Project(t, f)) == multiset{f(t[k])} + multiset(Project(t[..k] + t[k + 1..], f))
  {
    var a, b := t[..k], t[k + 1..];
    assert t == a + ([t[k]] + b);
    ProjectConcat(a, [t[k]] + b, f);
    ProjectConcat([t[k]], b, f);
    ProjectConcat(a, b, f);
    var pa, pb := Project(a, f), Project(b, f);
    assert Project([t[k]], f) == [f(t[k])];
    assert multiset(Project(t, f)) == multiset(pa) + multiset{f(t[k])} + multiset(pb);
    assert multiset(Project(a + b, f)) == multiset(pa) + multiset(pb);
  }

  /** Mapping two permutations of each other gives permutations of each
      other. */
  lemma {:induction false} ProjectPermutation<A, B>(s: seq<A>, t: seq<A>, f: A -> B)
    requires multiset(s) == multiset(t)
    ensures multiset(Project(s, f)) == multiset(Project(t, f))
    decreases |s|
  {
    if |s| > 0 {
      var k := IndexIn(s[0], t);
      var rest := t[..k] + t[k + 1..];
      assert multiset(s[1..]) == multiset(rest) by {
        RemoveAt(t, k);
        assert s == [s[0]] + s[1..];
        assert multiset(s) == multiset{s[0]} + multiset(s[1..]);
      }
      ProjectPermutation(s[1..], rest, f);
      ProjectRemoveAt(t, k, f);
      assert Project(s, f) == [f(s[0])] + Project(s[1..], f);
    } else {
      assert t == [];
    }
  }
}

=== FILE: specifier.dfy ===
/** Resolution of a tag or range specifier against a packument's dist-tags
    and version keys. Both copies of `resolveSpecifier`
    (src/lib/server/package.ts and src/lib/data/common.server.ts) run this
    same decision inside their cache callbacks. `semver.satisfies` and
    `semver.lte` are parameters. */
module Specifier {
  import opened Wrappers
  import SemVer

  datatype Kind = Tag | Range | VersionKind

  /** A parsed specifier as `npm-package-arg` yields it. */
  datatype Spec = Spec(kind: Kind, name: string, fetchSpec: string)

  /** `distTags[tag] || null`. */
  function DistTag(distTags: map<string, string>, tag: string): (r: Option<string>)
    ensures r.Some? <==> tag in distTags && distTags[tag] != ""
    ensures r.Some? ==> r.value == distTags[tag]
  {
    if tag in distTags && distTags[tag] != "" then Some(distTags[tag]) else None
  }

  /** The `latest` tag, kept as a ceiling only if it satisfies the range. */
  function Ceiling(distTags: map<string, string>, range: string,
                   satisfies: (string, string) -> bool): (c: Option<string>)
    ensures c.Some? ==> c == DistTag(distTags, "latest") && satisfies(c.value, range)
    ensures c.None? ==> DistTag(distTags, "latest").None? || !satisfies(DistTag(distTags, "latest").value, range)
  {
    var latest := DistTag(distTags, "latest");
    if latest.Some? && satisfies(latest.value, range) then latest else None
  }

  /** A key the scan would take: it satisfies the range and, when there is a
      ceiling, does not exceed it. */
  predicate Qualifies(v: string, range: string, ceiling: Option<string>,
                      satisfies: (string, string) -> bool, lte: (string, string) -> bool) {
    satisfies(v, range) && (ceiling.None? || lte(v, ceiling.value))
  }

  /** The `for (const ver of Object.keys(pkg.versions))` loop from key `i`
      on, with `found` the value of `version` so far. */
  function Scan(keys: seq<string>, i: nat, found: Option<string>, range: string, ceiling: Option<string>,
                satisfies: (string, string) -> bool, lte: (string, string) -> bool): Option<string>
    requires i <= |keys|
    decreases |keys| - i
  {
    if i == |keys| then found
    else
      var next := if Qualifies(keys[i], range, ceiling, satisfies, lte) then Some(keys[i]) else found;
      Scan(keys, i + 1, next, range, ceiling, satisfies, lte)
  }

  /** The index of the last qualifying key, if any. */
  predicate LastQualifyingAt(keys: seq<string>, i: int, range: string, ceiling: Option<string>,
                             satisfies: (string, string) -> bool, lte: (string, string) -> bool) {
    && 0 <= i < |keys|
    && Qualifies(keys[i], range, ceiling, satisfies, lte)
    && forall j :: i < j < |keys| ==> !Qualifies(keys[j], range, ceiling, satisfies, lte)
  }

  lemma {:induction false} ScanIsLastQualifying(
    keys: seq<string>, i: nat, found: Option<string>, range: string, ceiling: Option<string>,
    satisfies: (string, string) -> bool, lte: (string, string) -> bool)
    requires i <= |keys|
    ensures var r := Scan(keys, i, found, range, ceiling, satisfies, lte);
            && ((forall j :: i <= j < |keys| ==> !Qualifies(keys[j], range, ceiling, satisfies, lte)) ==> r == found)
            && (forall j :: i <= j < |keys| && LastQualifyingAt(keys, j, range, ceiling, satisfies, lte) ==> r == Some(keys[j]))
    decreases |keys| - i
  {
    if i < |keys| {
      var next := if Qualifies(keys[i], range, ceiling, satisfies, lte) then Some(keys[i]) else found;
      ScanIsLastQualifying(keys, i + 1, next, range, ceiling, satisfies, lte);
    }
  }

  /** The range branch: the last key, in the packument's key order, that
      satisfies the range and does not exceed `latest` when `latest`
      satisfies the range. This is not a maximum search. */
  function ResolveRange(distTags: map<string, string>, keys: seq<string>, range: string,
                        satisfies: (string, string) -> bool, lte: (string, string) -> bool): (r: Option<string>)
    ensures var ceiling := Ceiling(distTags, range, satisfies);
            && (r.None? <==> forall j :: 0 <= j < |keys| ==> !Qualifies(keys[j], range, ceiling, satisfies, lte))
            && (r.Some? ==> exists j :: LastQualifyingAt(keys, j, range, ceiling, satisfies, lte) && r.value == keys[j])
    ensures r.Some? ==> satisfies(r.value, range)
    ensures r.Some? && DistTag(distTags, "latest").Some? && satisfies(DistTag(distTags, "latest").value, range) ==>
              lte(r.value, DistTag(distTags, "latest").value)
  {
    var ceiling := Ceiling(distTags, range, satisfies);
    ScanIsLastQualifying(keys, 0, None, range, ceiling, satisfies, lte);
    LastQualifyingExists(keys, range, ceiling, satisfies, lte);
    Scan(keys, 0, None, range, ceiling, satisfies, lte)
  }

  /** Some key qualifies exactly when a last qualifying key exists. */
  lemma {:induction false} LastQualifyingExists(
    keys: seq<string>, range: string, ceiling: Option<string>,
    satisfies: (string, string) -> bool, lte: (string, string) -> bool)
    ensures (exists j :: 0 <= j < |keys| && Qualifies(keys[j], range, ceiling, satisfies, lte)) ==>
              exists j :: LastQualifyingAt(keys, j, range, ceiling, satisfies, lte)
  {
    if exists j :: 0 <= j < |keys| && Qualifies(keys[j], range, ceiling, satisfies, lte) {
      var last := |keys| - 1;
      if Qualifies(keys[last], range, ceiling, satisfies, lte) {
        assert LastQualifyingAt(keys, last, range, ceiling, satisfies, lte);
      } else {
        var init := keys[..last];
        var j :| 0 <= j < |keys| && Qualifies(keys[j], range, ceiling, satisfies, lte);
        assert j < last && init[j] == keys[j];
        LastQualifyingExists(init, range, ceiling, satisfies, lte);
        var k :| LastQualifyingAt(init, k, range, ceiling, satisfies, lte);
        assert LastQualifyingAt(keys, k, range, ceiling, satisfies, lte) by {
          forall m | k < m < |keys| ensures !Qualifies(keys[m], range, ceiling, satisfies, lte) {
            if m < last { assert init[m] == keys[m]; }
          }
        }
      }
    }
  }

  /** The decision inside the cache callback: tags are looked up, `*` and
      `latest` ranges take the `latest` tag, other ranges are scanned. A
      `version` specifier never reaches the callback and leaves `version`
      null. */
  function Resolve(spec: Spec, distTags: map<string, string>, keys: seq<string>,
                   satisfies: (string, string) -> bool, lte: (string, string) -> bool): (r: Option<string>)
    ensures spec.kind == Tag ==> r == DistTag(distTags, spec.fetchSpec)
    ensures spec.kind == Range && spec.fetchSpec in {"*", "latest"} ==> r == DistTag(distTags, "latest")
    ensures spec.kind == Range && spec.fetchSpec !in {"*", "latest"} && r.Some? ==>
              && r.value in keys
              && satisfies(r.value, spec.fetchSpec)
              && (DistTag(distTags, "latest").Some? && satisfies(DistTag(distTags, "latest").value, spec.fetchSpec) ==>
                    lte(r.value, DistTag(distTags, "latest").value))
    ensures spec.kind == Range && spec.fetchSpec !in {"*", "latest"} ==>
              r == ResolveRange(distTags, keys, spec.fetchSpec, satisfies, lte)
    ensures spec.kind == VersionKind ==> r.None?
  {
    match spec.kind
    case Tag => DistTag(distTags, spec.fetchSpec)
    case Range =>
      if spec.fetchSpec in {"*", "latest"} then DistTag(distTags, "latest")
      else ResolveRange(distTags, keys, spec.fetchSpec, satisfies, lte)
    case VersionKind => None
  }

  /** When the keys come in ascending order, the last qualifying key is also
      the greatest qualifying one. */
  lemma AscendingKeysGiveGreatest(
    distTags: map<string, string>, keys: seq<string>, range: string,
    satisfies: (string, string) -> bool, lte: (string, string) -> bool)
    requires forall i, j :: 0 <= i <= j < |keys| ==> lte(keys[i], keys[j])
    ensures var r := ResolveRange(distTags, keys, range, satisfies, lte);
            var ceiling := Ceiling(distTags, range, satisfies);
            r.Some? ==> forall k :: 0 <= k < |keys| && Qualifies(keys[k], range, ceiling, satisfies, lte) ==> lte(keys[k], r.value)
  {
    var r := ResolveRange(distTags, keys, range, satisfies, lte);
    var ceiling := Ceiling(distTags, range, satisfies);
    if r.Some? {
      var j :| LastQualifyingAt(keys, j, range, ceiling, satisfies, lte) && r.value == keys[j];
      forall k | 0 <= k < |keys| && Qualifies(keys[k], range, ceiling, satisfies, lte)
        ensures lte(keys[k], r.value)
      {
        assert k <= j;
      }
    }
  }

  /** A table of version strings for the examples below. */
  function Parsed(v: string): SemVer.Version {
    if v == "1.0.0" then SemVer.Version(1, 0, 0)
    else if v == "1.2.0" then SemVer.Version(1, 2, 0)
    else if v == "1.2.3" then SemVer.Version(1, 2, 3)
    else if v == "1.2.5" then SemVer.Version(1, 2, 5)
    else if v == "1.3.0" then SemVer.Version(1, 3, 0)
    else if v == "2.0.0" then SemVer.Version(2, 0, 0)
    else SemVer.Version(0, 0, 0)
  }

  /** `semver.satisfies(v, "^1.0.0")` on the table above. */
  predicate CaretOne(v: string, range: string) {
    range == "^1.0.0" && Parsed(v).major == 1
  }

  predicate LteParsed(a: string, b: string) {
    SemVer.Lte(Parsed(a), Parsed(b))
  }

  /** With `latest` = 2.0.0 outside `^1.0.0`, the scan is unconstrained and
      picks 1.2.3 from 1.0.0, 1.2.0, 1.2.3. */
  lemma UnconstrainedRangeExample()
    ensures Resolve(Spec(Range, "pkg", "^1.0.0"), map["latest" := "2.0.0"], ["1.0.0", "1.2.0", "1.2.3"],
                    CaretOne, LteParsed) == Some("1.2.3")
  {
    var keys := ["1.0.0", "1.2.0", "1.2.3"];
    var tags := map["latest" := "2.0.0"];
    assert Ceiling(tags, "^1.0.0", CaretOne) == None;
    assert LastQualifyingAt(keys, 2, "^1.0.0", None, CaretOne, LteParsed);
  }

  /** A backport published after a higher release wins: with keys 1.0.0,
      1.3.0, 1.2.5 the range `^1.0.0` resolves to 1.2.5 although 1.3.0
      satisfies it and is greater. */
  lemma LastSeenIsNotGreatest()
    ensures var r := Resolve(Spec(Range, "pkg", "^1.0.0"), map["latest" := "2.0.0"], ["1.0.0", "1.3.0", "1.2.5"],
                             CaretOne, LteParsed);
            && r == Some("1.2.5")
            && CaretOne("1.3.0", "^1.0.0")
            && !LteParsed("1.3.0", "1.2.5")
  {
    var keys := ["1.0.0", "1.3.0", "1.2.5"];
    assert LastQualifyingAt(keys, 2, "^1.0.0", None, CaretOne, LteParsed);
  }
}

=== FILE: strings.dfy ===
/** String helpers standing in for the JavaScript string methods the source
    uses: `startsWith`, `endsWith`, `split`, `join`, `replace` with a string
    pattern, and number-to-string conversion in template literals. */
module Strings {

  predicate StartsWith(s: string, prefix: string) {
    |prefix| <= |s| && s[..|prefix|] == prefix
  }

  predicate EndsWith(s: string, suffix: string) {
    |suffix| <= |s| && s[|s| - |suffix|..] == suffix
  }

  /** `parts.join(sep)`. */
  function Join(parts: seq<string>, sep: string): string {
    if |parts| == 0 then ""
    else if |parts| == 1 then parts[0]
    else parts[0] + sep + Join(parts[1..], sep)
  }

  /** `s.split(c)` for a one-character separator: the maximal runs of
      characters other than `c`, including empty runs. */
  function Split(s: string, c: char): (parts: seq<string>)
    ensures |parts| >= 1
    ensures forall i :: 0 <= i < |parts| ==> c !in parts[i]
    ensures Join(parts, [c]) == s
  {
    if |s| == 0 then [""]
    else
      var rest := Split(s[1..], c);
      if s[0] == c then [""] + rest
      else
        var head := [s[0]] + rest[0];
        assert s == [s[0]] + s[1..];
        JoinConsHead(s[0], rest, [c]);
        [head] + rest[1..]
  }

  lemma JoinConsHead(ch: char, parts: seq<string>, sep: string)
    requires |parts| >= 1
    ensures Join([[ch] + parts[0]] + parts[1..], sep) == [ch] + Join(parts, sep)
  {
  }

  /** Splitting is injective: two strings with the same parts are equal. */
  lemma SplitInjective(s: string, t: string, c: char)
    requires Split(s, c) == Split(t, c)
    ensures s == t
  {
  }

  /** The segments of a `/`-separated path, joined by `@std/path`'s `join`
      onto the root `/`: empty segments are skipped. Normalisation of `.`
      and `..` segments is not modelled. */
  function JoinPaths(segments: seq<string>): (r: string)
    ensures StartsWith(r, "/")
  {
    "/" + Join(NonEmpty(segments), "/")
  }

  /** Joining a directory, possibly empty, and a non-empty name. */
  lemma JoinTwoPaths(dir: string, name: string)
    requires name != ""
    ensures JoinPaths([dir, name]) == if dir == "" then "/" + name else "/" + dir + "/" + name
  {
    var parts := [dir, name];
    assert parts[1..] == [name];
    assert NonEmpty([name]) == [name] by { assert [name][1..] == []; }
    if dir == "" {
      assert NonEmpty(parts) == [name];
    } else {
      assert NonEmpty(parts) == parts;
      assert Join(parts, "/") == dir + "/" + name;
    }
  }

  function NonEmpty(segments: seq<string>): (r: seq<string>)
    ensures forall i :: 0 <= i < |r| ==> r[i] != "" && r[i] in segments
  {
    if |segments| == 0 then []
    else if segments[0] == "" then NonEmpty(segments[1..])
    else [segments[0]] + NonEmpty(segments[1..])
  }

  /** The index of the first occurrence of `c` in `s`, or `|s|` if none. */
  function IndexOf(s: string, c: char): (i: nat)
    ensures i <= |s|
    ensures c !in s[..i]
    ensures i < |s| ==> s[i] == c
    ensures i == |s| <==> c !in s
  {
    if |s| == 0 then 0
    else if s[0] == c then 0
    else
      var j := IndexOf(s[1..], c);
      assert s[..j + 1] == [s[0]] + s[1..][..j];
      1 + j
  }

  /** `s.replace(pat, rep)` for a one-character string pattern: only the
      first occurrence is replaced. */
  function ReplaceFirst(s: string, pat: char, rep: string): string {
    var i := IndexOf(s, pat);
    if i == |s| then s else s[..i] + rep + s[i + 1..]
  }

  function Digit(d: nat): char
    requires d < 10
  {
    "0123456789"[d]
  }

  /** The decimal rendering of a natural number, as `${n}` produces. */
  function NatToString(n: nat): (r: string)
    ensures |r| >= 1
    ensures forall i :: 0 <= i < |r| ==> '0' <= r[i] <= '9'
    ensures n >= 10 ==> |r| >= 2
    ensures n > 0 ==> r[0] != '0'
  {
    if n < 10 then [Digit(n)] else NatToString(n / 10) + [Digit(n % 10)]
  }

  lemma {:induction false} NatToStringInjective(m: nat, n: nat)
    requires NatToString(m) == NatToString(n)
    ensures m == n
  {
    if m < 10 && n < 10 {
      assert Digit(m) == NatToString(m)[0] == NatToString(n)[0] == Digit(n);
    } else if m >= 10 && n >= 10 {
      var a, b := NatToString(m), NatToString(n);
      assert a[|a| - 1] == b[|b| - 1];
      assert Digit(m % 10) == Digit(n % 10);
      assert a[..|a| - 1] == NatToString(m / 10);
      assert b[..|b| - 1] == NatToString(n / 10);
      NatToStringInjective(m / 10, n / 10);
    }
  }
}

=== FILE: types_server.dfy ===
/** Whether a package ships TypeScript types, and where to look for them
    otherwise (src/lib/data/types.server.ts). */
module TypesServer {
  import opened Wrappers
  import opened Json
  import opened Strings

  /** One branch of `exportsHasTypes` applied to a JSON value. A thrown
      `TypeError` (reading `.endsWith` of a missing or non-string `types`)
      is caught by the function and yields false, which the object case
      below already returns. */
  function HasTypes(e: Json): (r: bool)
    // a string target counts when it ends with "ts" (not ".ts")
    ensures e.JStr? ==> (r <==> EndsWith(e.s, "ts"))
    // arrays, numbers, booleans and null never count at the top level
    ensures e.JArr? || e.JNum? || e.JBool? || e.JNull? ==> !r
    // an object is judged only by its "." entry
    ensures e.JObj? && Lookup(e.fields, ".").None? ==> !r
    ensures e.JObj? && Lookup(e.fields, ".").Some? ==>
              var dot := Lookup(e.fields, ".").value;
              && (dot.JStr? ==> (r <==> EndsWith(dot.s, "ts")))
              && (dot.JObj? ==> (r <==> (&& Lookup(dot.fields, "types").Some?
                                         && Lookup(dot.fields, "types").value.JStr?
                                         && EndsWith(Lookup(dot.fields, "types").value.s, "ts"))))
              && (dot.JArr? ==> (r <==> exists k :: 0 <= k < |dot.items| && HasTypes(dot.items[k])))
              && (dot.JNull? || dot.JBool? || dot.JNum? ==> !r)
    decreases e, 0
  {
    match e
    case JStr(s) => EndsWith(s, "ts")
    case JObj(fs) =>
      var i := KeyIndex(fs, ".");
      if i == |fs| then false
      else
        (match fs[i].1
         case JStr(s) => EndsWith(s, "ts")
         case JObj(gs) =>
           var types := Lookup(gs, "types");
           types.Some? && types.value.JStr? && EndsWith(types.value.s, "ts")
         case JArr(items) => AnyHasTypes(fs[i].1, 0)
         case _ => false)
    case _ => false
  }

  /** `exports['.'].some((e) => exportsHasTypes(e))` from element `k` on. */
  function AnyHasTypes(arr: Json, k: nat): (r: bool)
    requires arr.JArr? && k <= |arr.items|
    ensures r <==> exists j :: k <= j < |arr.items| && HasTypes(arr.items[j])
    decreases arr, |arr.items| - k
  {
    if k == |arr.items| then false
    else HasTypes(arr.items[k]) || AnyHasTypes(arr, k + 1)
  }

  /** `exportsHasTypes(manifest.exports)`: an absent field has no types. */
  function ExportsHasTypes(exports: Option<Json>): (r: bool)
    ensures exports.None? ==> !r
    ensures exports.Some? ==> r == HasTypes(exports.value)
  {
    exports.Some? && HasTypes(exports.value)
  }

  /** `typesIncluded(manifest)`: a truthy `types` field, or types found in
      `exports`. */
  function TypesIncluded(types: Option<Json>, exports: Option<Json>): (r: bool)
    ensures types.Some? && Truthy(types.value) ==> r
    ensures r <==> (types.Some? && Truthy(types.value)) || ExportsHasTypes(exports)
  {
    (types.Some? && Truthy(types.value)) || ExportsHasTypes(exports)
  }

  /** Inside an array under ".", an object element is judged by its own "."
      entry: a `types` condition there does not count, a "." target does. */
  lemma ArrayElementsJudgedByDot()
    ensures !HasTypes(JObj([(".", JArr([JObj([("types", JStr("./index.d.ts"))])]))]))
    ensures HasTypes(JObj([(".", JArr([JObj([(".", JStr("./index.d.ts"))])]))]))
  {
    var inner := JObj([(".", JStr("./index.d.ts"))]);
    assert HasTypes(inner);
    assert AnyHasTypes(JArr([inner]), 0);
  }

  /** Only the "." entry is consulted: a subpath export or a top-level
      `types` key inside `exports` does not count. */
  lemma OnlyRootExportCounts()
    ensures !HasTypes(JObj([("./util", JStr("./util.ts"))]))
    ensures !HasTypes(JObj([("types", JStr("./index.d.ts"))]))
    ensures HasTypes(JStr("./index.mts"))
  {
    assert EndsWith("./index.mts", "ts");
  }

  // ---------------------------------------------------------- type status

  datatype TypeStatus = BuiltIn | DefinitelyTyped(pkg: string) | NoTypes

  /** The DefinitelyTyped package name for `name`. */
  function DefinitelyTypedName(name: string): (r: string)
    ensures StartsWith(r, "@types/")
    ensures !StartsWith(name, "@") ==> r == "@types/" + name
  {
    if StartsWith(name, "@") then
      var once := ReplaceFirst(name, '/', "__");
      assert once[0] == '@' by {
        var i := IndexOf(name, '/');
        if i < |name| { assert i > 0; assert once[0] == name[..i][0]; }
      }
      assert IndexOf(once, '@') == 0;
      ReplaceFirst(once, '@', "@types/")
    else "@types/" + name
  }

  /** A scoped name `@scope/n` maps to `@types/scope__n`. */
  lemma ScopedDefinitelyTypedName(scope: string, n: string)
    requires '/' !in scope
    ensures DefinitelyTypedName("@" + scope + "/" + n) == "@types/" + scope + "__" + n
  {
    var name := "@" + scope + "/" + n;
    assert name[..1] == "@";
    assert '/' !in name[..|scope| + 1] by {
      assert name[..|scope| + 1] == "@" + scope;
    }
    assert name[|scope| + 1] == '/';
    assert IndexOf(name, '/') == |scope| + 1;
    var once := ReplaceFirst(name, '/', "__");
    assert once == "@" + scope + "__" + n by {
      assert name[..|scope| + 1] == "@" + scope;
      assert name[|scope| + 2..] == n;
    }
    assert IndexOf(once, '@') == 0;
    assert once[1..] == scope + "__" + n;
  }

  /** The result of `packageTypeStatus` and the DefinitelyTyped package it
      looked up, if any. `dtExists` stands for whether
      `getInternalPackage('<dt>@latest')` succeeds. */
  datatype StatusCall = StatusCall(status: TypeStatus, lookedUp: Option<string>)

  function PackageTypeStatus(name: string, typesIncluded: bool, dtExists: string -> bool): (c: StatusCall)
    ensures typesIncluded ==> c == StatusCall(BuiltIn, None)
    ensures !typesIncluded ==> c.lookedUp == Some(DefinitelyTypedName(name))
    ensures !typesIncluded && dtExists(DefinitelyTypedName(name)) ==>
              c.status == DefinitelyTyped(DefinitelyTypedName(name))
    ensures !typesIncluded && !dtExists(DefinitelyTypedName(name)) ==> c.status == NoTypes
  {
    if typesIncluded then StatusCall(BuiltIn, None)
    else
      var dt := DefinitelyTypedName(name);
      StatusCall(if dtExists(dt) then DefinitelyTyped(dt) else NoTypes, Some(dt))
  }
}

=== FILE: versions.dfy ===
/** The version list of a package as src/lib/data/package-versions.remote.ts
    builds it: one entry per packument version, newest first, grouped by
    `<major>.x` (or `0.<minor>`), with the newest non-deprecated version of
    each group marked as its lead. */
module PackageVersions {
  import opened Wrappers
  import opened Strings
  import opened Npm
  import SemVer
  import Sorting
  import DataCommon

  datatype GroupState = Deprecated | Lead | Unmarked

  datatype PackageVersion = PackageVersion(
    version: string,
    group: string,
    groupState: GroupState,
    license: Option<string>,
    unpackedSize: Option<int>,
    publishedAt: Option<int>)

  /** An entry together with its parsed version (the `_v` field). */
  datatype Row = Row(pv: PackageVersion, v: SemVer.Version)

  /** The group label of a version. */
  function GroupOf(v: SemVer.Version): string {
    if v.major != 0 then NatToString(v.major) + ".x" else "0." + NatToString(v.minor)
  }

  /** Two versions share a group exactly when they share a non-zero major,
      or both have major 0 and the same minor. */
  lemma SameGroupIff(a: SemVer.Version, b: SemVer.Version)
    ensures GroupOf(a) == GroupOf(b) <==> a.major == b.major && (a.major != 0 || a.minor == b.minor)
  {
    var ga, gb := GroupOf(a), GroupOf(b);
    if ga == gb {
      if a.major != 0 && b.major != 0 {
        assert NatToString(a.major) == ga[..|ga| - 2];
        assert NatToString(b.major) == gb[..|gb| - 2];
        NatToStringInjective(a.major, b.major);
      } else if a.major == 0 && b.major == 0 {
        assert NatToString(a.minor) == ga[2..];
        assert NatToString(b.minor) == gb[2..];
        NatToStringInjective(a.minor, b.minor);
      }
    }
  }

  /** `new Date(pkg.time[version])`, `None` for an invalid date. */
  function PublishedAt(time: map<string, string>, version: string, parseDate: string -> Option<int>): Option<int> {
    if version in time then parseDate(time[version]) else None
  }

  /** `!!pkv.deprecated`. */
  predicate IsDeprecated(m: Manifest) {
    m.deprecated.Some? && m.deprecated.value != ""
  }

  /** The entry the `map` callback builds, before any lead is chosen. */
  function RowOf(m: Manifest, v: SemVer.Version, time: map<string, string>, parseDate: string -> Option<int>): Row {
    Row(PackageVersion(m.version, GroupOf(v), if IsDeprecated(m) then Deprecated else Unmarked,
                       m.license, m.unpackedSize, PublishedAt(time, m.version, parseDate)), v)
  }

  /** The rows of all versions, or `None` when some version does not parse
      (the source then reads `.major` of `null` and throws). */
  function Rows(p: Packument, parse: string -> Option<SemVer.Version>, parseDate: string -> Option<int>): (r: Option<seq<Row>>)
    ensures r.Some? <==> forall k :: 0 <= k < |p.versions| ==> parse(p.versions[k].1.version).Some?
    ensures r.Some? ==> |r.value| == |p.versions|
    ensures r.Some? ==> forall k :: 0 <= k < |p.versions| ==>
              r.value[k] == RowOf(p.versions[k].1, parse(p.versions[k].1.version).value, p.time, parseDate)
  {
    if forall k :: 0 <= k < |p.versions| ==> parse(p.versions[k].1.version).Some? then
      Some(seq(|p.versions|, k requires 0 <= k < |p.versions| =>
        RowOf(p.versions[k].1, parse(p.versions[k].1.version).value, p.time, parseDate)))
    else None
  }

  /** The comparator `(a, b) => semver.compare(b._v, a._v)`. */
  predicate NewerOrEqual(a: Row, b: Row) {
    SemVer.Lte(b.v, a.v)
  }

  lemma NewerOrEqualIsTotalPreorder()
    ensures Sorting.TotalPreorder(NewerOrEqual)
  {
  }

  /** Whether row `i` is the first non-deprecated row of its group. */
  predicate FirstLiveInGroup(rows: seq<Row>, i: int)
    requires 0 <= i < |rows|
  {
    && rows[i].pv.groupState != Deprecated
    && forall j :: 0 <= j < i && rows[j].pv.group == rows[i].pv.group ==> rows[j].pv.groupState == Deprecated
  }

  /** The `for (const pkv of versions)` loop: the first non-deprecated entry
      of each group, in list order, becomes its lead. */
  method AssignLeads(rows: seq<Row>) returns (out: seq<PackageVersion>)
    requires forall i :: 0 <= i < |rows| ==> rows[i].pv.groupState != Lead
    ensures Marked(rows, out)
  {
    var highestInGroups: set<string> := {};
    out := [];
    var i := 0;
    while i < |rows|
      invariant 0 <= i <= |rows|
      invariant |out| == i
      invariant forall k :: 0 <= k < i ==>
                  out[k] == rows[k].pv.(groupState := if FirstLiveInGroup(rows, k) then Lead else rows[k].pv.groupState)
      invariant highestInGroups == LiveGroups(rows, i)
    {
      var pkv := rows[i].pv;
      FirstLiveIff(rows, i);
      if pkv.groupState != Deprecated && pkv.group !in highestInGroups {
        highestInGroups := highestInGroups + {pkv.group};
        pkv := pkv.(groupState := Lead);
      }
      out := out + [pkv];
      i := i + 1;
    }
  }

  /** The groups of the non-deprecated rows among the first `n`. */
  function LiveGroups(rows: seq<Row>, n: int): set<string>
    requires 0 <= n <= |rows|
    decreases n
  {
    if n == 0 then {}
    else LiveGroups(rows, n - 1) + (if rows[n - 1].pv.groupState != Deprecated then {rows[n - 1].pv.group} else {})
  }

  lemma {:induction false} LiveGroupsIff(rows: seq<Row>, n: int, g: string)
    requires 0 <= n <= |rows|
    ensures g in LiveGroups(rows, n) <==>
              exists j :: 0 <= j < n && rows[j].pv.group == g && rows[j].pv.groupState != Deprecated
    decreases n
  {
    if n > 0 {
      LiveGroupsIff(rows, n - 1, g);
    }
  }

  /** A row is the first non-deprecated one of its group exactly when it is
      not deprecated and no earlier row made its group live. */
  lemma FirstLiveIff(rows: seq<Row>, i: int)
    requires 0 <= i < |rows|
    ensures FirstLiveInGroup(rows, i) <==>
              rows[i].pv.groupState != Deprecated && rows[i].pv.group !in LiveGroups(rows, i)
  {
    LiveGroupsIff(rows, i, rows[i].pv.group);
  }

  /** `out` is `rows` after the lead loop. */
  predicate Marked(rows: seq<Row>, out: seq<PackageVersion>) {
    && (forall i :: 0 <= i < |rows| ==> rows[i].pv.groupState != Lead)
    && |out| == |rows|
    && forall i :: 0 <= i < |out| ==>
         out[i] == rows[i].pv.(groupState := if FirstLiveInGroup(rows, i) then Lead else rows[i].pv.groupState)
  }

  /** What the version list of a packument is: the packument's versions,
      each once and deprecated exactly when the manifest says so, newest
      first, labelled with their group and publication date, with one lead
      per group that has a non-deprecated version, the newest of them. */
  predicate ListFor(p: Packument, parse: string -> Option<SemVer.Version>, parseDate: string -> Option<int>,
                    out: seq<PackageVersion>) {
    && (forall i :: 0 <= i < |out| ==> parse(out[i].version).Some?)
    // the publication date is the parsed time entry of the version, if any
    && (forall i :: 0 <= i < |out| ==> out[i].publishedAt == PublishedAt(p.time, out[i].version, parseDate))
    // the entries are the packument's versions, each once, deprecated
    // exactly when the manifest says so
    && multiset(Sorting.Project(out, Summary)) == multiset(Sorting.Project(p.versions, ManifestSummary))
    // newest first, each entry labelled with its group
    && (forall i, j :: 0 <= i < j < |out| ==>
          SemVer.Lte(parse(out[j].version).value, parse(out[i].version).value))
    && (forall i :: 0 <= i < |out| ==> out[i].group == GroupOf(parse(out[i].version).value))
    // at most one lead per group, never deprecated, and it is the newest
    // non-deprecated version of its group
    && (forall i, j :: 0 <= i < j < |out| && out[i].group == out[j].group ==>
          !(out[i].groupState == Lead && out[j].groupState == Lead))
    && (forall i, j ::
          (0 <= i < |out| && 0 <= j < |out| && out[i].groupState == Lead &&
           out[j].group == out[i].group && out[j].groupState != Deprecated) ==>
          SemVer.Lte(parse(out[j].version).value, parse(out[i].version).value))
    && (forall j :: 0 <= j < |out| && out[j].groupState != Deprecated ==>
          exists i :: 0 <= i <= j && out[i].groupState == Lead && out[i].group == out[j].group)
  }

  /** `getPackageVersions`'s cache callback on a fetched packument. */
  method GetPackageVersions(p: Packument, parse: string -> Option<SemVer.Version>, parseDate: string -> Option<int>)
    returns (r: Option<seq<PackageVersion>>)
    ensures r.Some? <==> forall k :: 0 <= k < |p.versions| ==> parse(p.versions[k].1.version).Some?
    ensures r.Some? ==> ListFor(p, parse, parseDate, r.value)
  {
    var rows := Rows(p, parse, parseDate);
    if rows.None? {
      return None;
    }
    NewerOrEqualIsTotalPreorder();
    var sorted := Sorting.Sort(rows.value, NewerOrEqual);
    UnmarkedAfterSort(rows.value, sorted);
    var out := AssignLeads(sorted);
    EntriesParse(p, parse, parseDate, rows.value, sorted, out);
    SummariesPreserved(p, parse, parseDate, rows.value, sorted, out);
    LeadsUnique(sorted, out);
    LeadExists(sorted, out);
    InParsedTerms(parse, sorted, out);
    r := Some(out);
  }

  /** Order and lead facts about the sorted rows, restated through the
      parsed version text of each entry. */
  lemma InParsedTerms(parse: string -> Option<SemVer.Version>, sorted: seq<Row>, out: seq<PackageVersion>)
    requires Sorting.Sorted(sorted, NewerOrEqual)
    requires Marked(sorted, out)
    requires forall i :: 0 <= i < |out| ==> parse(out[i].version) == Some(sorted[i].v) && out[i].group == GroupOf(sorted[i].v)
    ensures forall i :: 0 <= i < |out| ==> parse(out[i].version).Some?
    ensures forall i, j :: 0 <= i < j < |out| ==>
              SemVer.Lte(parse(out[j].version).value, parse(out[i].version).value)
    ensures forall i :: 0 <= i < |out| ==> out[i].group == GroupOf(parse(out[i].version).value)
    ensures forall i, j ::
              (0 <= i < |out| && 0 <= j < |out| && out[i].groupState == Lead &&
               out[j].group == out[i].group && out[j].groupState != Deprecated) ==>
              SemVer.Lte(parse(out[j].version).value, parse(out[i].version).value)
  {
    LeadIsNewest(sorted, out);
    forall i, j | 0 <= i < j < |out|
      ensures SemVer.Lte(parse(out[j].version).value, parse(out[i].version).value)
    {
      assert NewerOrEqual(sorted[i], sorted[j]);
    }
  }

  /** Sorting rows none of which is a lead gives rows none of which is. */
  lemma UnmarkedAfterSort(rows: seq<Row>, sorted: seq<Row>)
    requires forall k :: 0 <= k < |rows| ==> rows[k].pv.groupState != Lead
    requires multiset(sorted) == multiset(rows)
    ensures forall i :: 0 <= i < |sorted| ==> sorted[i].pv.groupState != Lead
  {
    forall i | 0 <= i < |sorted|
      ensures sorted[i].pv.groupState != Lead
    {
      var k := Sorting.IndexIn(sorted[i], rows);
    }
  }

  /** The rows of a packument, as `Rows` builds them. */
  predicate RowsOf(p: Packument, parse: string -> Option<SemVer.Version>, parseDate: string -> Option<int>, rows: seq<Row>) {
    && |rows| == |p.versions|
    && forall k :: 0 <= k < |p.versions| ==>
         parse(p.versions[k].1.version).Some? &&
         rows[k] == RowOf(p.versions[k].1, parse(p.versions[k].1.version).value, p.time, parseDate)
  }

  /** What an entry says about its version: the version text and whether
      it is deprecated. */
  function Summary(e: PackageVersion): (string, bool) {
    (e.version, e.groupState == Deprecated)
  }

  function RowSummary(r: Row): (string, bool) {
    Summary(r.pv)
  }

  /** The same for a packument version. */
  function ManifestSummary(kv: (string, Manifest)): (string, bool) {
    (kv.1.version, IsDeprecated(kv.1))
  }

  /** Each entry carries the parsed version, the group and the publication
      date of its row. */
  lemma EntriesParse(p: Packument, parse: string -> Option<SemVer.Version>, parseDate: string -> Option<int>,
                     rows: seq<Row>, sorted: seq<Row>, out: seq<PackageVersion>)
    requires RowsOf(p, parse, parseDate, rows)
    requires multiset(sorted) == multiset(rows)
    requires Marked(sorted, out)
    ensures forall i :: 0 <= i < |out| ==> parse(out[i].version) == Some(sorted[i].v) && out[i].group == GroupOf(sorted[i].v)
    ensures forall i :: 0 <= i < |out| ==> out[i].publishedAt == PublishedAt(p.time, out[i].version, parseDate)
  {
    forall i | 0 <= i < |out|
      ensures parse(out[i].version) == Some(sorted[i].v) && out[i].group == GroupOf(sorted[i].v)
      ensures out[i].publishedAt == PublishedAt(p.time, out[i].version, parseDate)
    {
      var k := Sorting.IndexIn(sorted[i], rows);
      var m := p.versions[k].1;
      EntryOfRow(m, parse(m.version).value, p.time, parseDate, sorted, out, i);
    }
  }

  /** The entries are the packument's versions, each once, with their
      deprecation. */
  lemma SummariesPreserved(p: Packument, parse: string -> Option<SemVer.Version>, parseDate: string -> Option<int>,
                           rows: seq<Row>, sorted: seq<Row>, out: seq<PackageVersion>)
    requires RowsOf(p, parse, parseDate, rows)
    requires multiset(sorted) == multiset(rows)
    requires Marked(sorted, out)
    ensures multiset(Sorting.Project(out, Summary)) == multiset(Sorting.Project(p.versions, ManifestSummary))
  {
    Sorting.ProjectAt(out, Summary);
    Sorting.ProjectAt(sorted, RowSummary);
    Sorting.ProjectAt(rows, RowSummary);
    Sorting.ProjectAt(p.versions, ManifestSummary);
    forall i | 0 <= i < |out|
      ensures Sorting.Project(out, Summary)[i] == Sorting.Project(sorted, RowSummary)[i]
    {
      assert out[i].groupState == Deprecated <==> sorted[i].pv.groupState == Deprecated;
    }
    assert Sorting.Project(out, Summary) == Sorting.Project(sorted, RowSummary);
    forall k | 0 <= k < |rows|
      ensures Sorting.Project(rows, RowSummary)[k] == Sorting.Project(p.versions, ManifestSummary)[k]
    {
    }
    assert Sorting.Project(rows, RowSummary) == Sorting.Project(p.versions, ManifestSummary);
    Sorting.ProjectPermutation(sorted, rows, RowSummary);
  }

  /** The entry at `i` of a marked list keeps the row's version, group and
      deprecation. */
  lemma EntryOfRow(m: Manifest, v: SemVer.Version, time: map<string, string>, parseDate: string -> Option<int>,
                   sorted: seq<Row>, out: seq<PackageVersion>, i: int)
    requires Marked(sorted, out)
    requires 0 <= i < |out| && sorted[i] == RowOf(m, v, time, parseDate)
    ensures out[i].version == m.version && out[i].group == GroupOf(v)
    ensures out[i].groupState == Deprecated <==> IsDeprecated(m)
    ensures out[i].publishedAt == PublishedAt(time, m.version, parseDate)
  {
  }

  /** The lead loop marks at most one version per group. */
  lemma LeadsUnique(sorted: seq<Row>, out: seq<PackageVersion>)
    requires Marked(sorted, out)
    ensures forall i, j :: 0 <= i < j < |out| && out[i].group == out[j].group ==>
              !(out[i].groupState == Lead && out[j].groupState == Lead)
  {
    forall i, j | 0 <= i < j < |out| && out[i].group == out[j].group && out[i].groupState == Lead
      ensures out[j].groupState != Lead
    {
      assert sorted[i].pv.groupState != Deprecated;
    }
  }

  /** Over a newest-first list, a lead is at least as new as every
      non-deprecated version of its group. */
  lemma LeadIsNewest(sorted: seq<Row>, out: seq<PackageVersion>)
    requires forall i, j :: 0 <= i < j < |sorted| ==> NewerOrEqual(sorted[i], sorted[j])
    requires Marked(sorted, out)
    ensures forall i, j ::
              (0 <= i < |out| && 0 <= j < |out| && out[i].groupState == Lead &&
               out[j].group == out[i].group && out[j].groupState != Deprecated) ==>
              SemVer.Lte(sorted[j].v, sorted[i].v)
  {
    forall i, j | 0 <= i < |out| && 0 <= j < |out| && out[i].groupState == Lead &&
                  out[j].group == out[i].group && out[j].groupState != Deprecated
      ensures SemVer.Lte(sorted[j].v, sorted[i].v)
    {
      if i < j {
        assert NewerOrEqual(sorted[i], sorted[j]);
      }
    }
  }

  /** Every group with a non-deprecated version has a lead. */
  lemma LeadExists(sorted: seq<Row>, out: seq<PackageVersion>)
    requires Marked(sorted, out)
    ensures forall j :: 0 <= j < |out| && out[j].groupState != Deprecated ==>
              exists i :: 0 <= i <= j && out[i].groupState == Lead && out[i].group == out[j].group
  {
    forall j | 0 <= j < |out| && out[j].groupState != Deprecated
      ensures exists i :: 0 <= i <= j && out[i].groupState == Lead && out[i].group == out[j].group
    {
      FirstLiveExists(sorted, j);
    }
  }

  /** A non-deprecated row has a first non-deprecated row of its group at or
      before it. */
  lemma {:induction false} FirstLiveExists(rows: seq<Row>, j: int)
    requires 0 <= j < |rows| && rows[j].pv.groupState != Deprecated
    ensures exists i :: 0 <= i <= j && rows[i].pv.group == rows[j].pv.group && FirstLiveInGroup(rows, i)
    decreases j
  {
    if !FirstLiveInGroup(rows, j) {
      var k :| 0 <= k < j && rows[k].pv.group == rows[j].pv.group && rows[k].pv.groupState != Deprecated;
      FirstLiveExists(rows, k);
    }
  }

  function VersionsKey(name: string): (k: string)
    ensures StartsWith(k, "package-versions:") && k[|"package-versions:"|..] == name
  {
    "package-versions:" + name
  }

  const VersionsTtl := 60

  /** Why the list could not be built: the registry request failed (with
      its HTTP status, when there was a response), or a version did not
      parse. */
  datatype VersionsFailure = RegistryFailed(status: Option<int>) | Unparsable

  /** `getPackageVersions({ name })`: the list above, kept 60 seconds in the
      key/value store under `package-versions:<name>`. `registry` is the
      outcome of the packument request. */
  method GetPackageVersionsCached(store: Option<DataCommon.Store<seq<PackageVersion>>>, name: string,
                                  registry: Result<Packument, Option<int>>,
                                  parse: string -> Option<SemVer.Version>, parseDate: string -> Option<int>)
    returns (c: DataCommon.CacheCall<seq<PackageVersion>, VersionsFailure>)
    ensures store.Some? && VersionsKey(name) in store.value ==>
              c.result == Ok(store.value[VersionsKey(name)].value) && !c.computed && c.store == store
    ensures !(store.Some? && VersionsKey(name) in store.value) ==>
              && c.computed
              && (registry.Err? ==> c.result == Err(RegistryFailed(registry.error)))
              && (registry.Ok? ==>
                    (c.result.Ok? <==> forall k :: 0 <= k < |registry.value.versions| ==>
                                         parse(registry.value.versions[k].1.version).Some?))
              && (c.result.Ok? ==> ListFor(registry.value, parse, parseDate, c.result.value))
    ensures store.Some? && VersionsKey(name) !in store.value && c.result.Ok? ==>
              c.store == Some(store.value[VersionsKey(name) := DataCommon.Entry(c.result.value, VersionsTtl)])
    // a failure is never stored, and with no store bound nothing is kept
    ensures c.result.Err? ==> c.store == store
    ensures store.None? ==> c.store == None
  {
    var computed: Result<seq<PackageVersion>, VersionsFailure>;
    if registry.Err? {
      computed := Err(RegistryFailed(registry.error));
    } else {
      var list := GetPackageVersions(registry.value, parse, parseDate);
      computed := if list.Some? then Ok(list.value) else Err(Unparsable);
    }
    c := DataCommon.Cached(store, VersionsKey(name), VersionsTtl, computed);
  }
}

=== FILE: wrappers.dfy ===
/** Option and Result types used throughout the model in place of the
    source's `null`/`undefined` and thrown errors. */
module Wrappers {

  /** A value that may be absent (`null` or `undefined` in the source). */
  datatype Option<+T> = None | Some(value: T) {

    /** The wrapped value, or `default` when absent (the `??` operator). */
    function GetOr(default: T): T {
      match this
      case Some(v) => v
      case None => default
    }
  }

  /** The outcome of an operation that may throw. */
  datatype Result<+T, +E> = Ok(value: T) | Err(error: E)
}
